=== FILE: README.md ===
# Nordik Adventures: cart API, prototype screens and import fix, in Dafny

This project models the core logic of the Nordik Adventures management
prototype (PGI) and proves properties of it. The core has three parts.

- **The PHP back end** (`api/`):
  - the tax, invoice-number and price-formatting helpers of `config.php`;
  - the session predicates, JSON envelope and guards of `session_helper.php`;
  - the session cart endpoint `panier/panier.php`: GET, POST, PUT and DELETE, plus the recalculation that clamps quantities to stock;
  - the checkout `panier/valider.php`, which turns the cart into a sale, its lines, an invoice and an interaction record.
- **The React prototype**, as pure state transitions over sequences of records:
  - the in-memory account store and the login form;
  - view routing in `App.tsx`;
  - the catalog and product pages;
  - the staff product, inventory, order, activity and CRM screens;
  - the client's cart and order history.
- **The maintenance script** `src/URGENT_FIX.py`: it strips `@version` suffixes from quoted import specifiers in `components/ui/*.tsx`.

Modelling conventions:

- Money is integer cents. PHP `round` is rounding half away from zero on the exact rational.
- The session cart is the PHP ordered array, a sequence of (product id, quantity) entries with distinct keys. Assigning to an existing key keeps its position; assigning to a new key appends it.
- The database is a catalog map from product id to product row. Identifiers the database assigns, the year from `date('Y')`, and the current time are parameters.
- JavaScript `||` defaults and PHP truthiness are explicit functions over `Option`. `toLowerCase` is ASCII lowering.
- The script's regular expression is a left-to-right scanner over `seq<char>`. A match can start only at a quote and end only at the next quote, and it splits on the last `@` before that quote. Its driver works on an abstract directory, a map from file name to content.

Modules follow the source files one to one:

| module | models |
|---|---|
| `Config` | `api/config.php` |
| `SessionHelper` | `api/session_helper.php` |
| `CartArray` | the session cart array |
| `Cart` | `api/panier/panier.php` |
| `Checkout` | `api/panier/valider.php` |
| `AuthContext` | the account store |
| `LoginPage` | the login form |
| `App` | routing |
| `ProductCatalog` | a React screen |
| `ProductDetail` | a React screen |
| `AdminProducts` | a React screen |
| `Inventory` | a React screen |
| `ShoppingCart` | a React screen |
| `AdminOrders` | a React screen |
| `OrderHistory` | a React screen |
| `ClientActivityHistory` | a React screen |
| `CustomerRelationship` | a React screen |
| `VersionFix` | the import fix script |
| `VersionFixExamples` | the script's worked examples |

Shared definitions live in `Wrappers` (`Option`), `Seqs` (filter, distinct, stable descending sort, counting, sums, subsequence), `Text` (characters, decimal rendering and parsing, padding) and `Data` (the shared front-end records).

## Model

| member | source | states |
|---|---|---|
| AuthContext.FindCredentials | frontend/contexts/AuthContext.tsx:21 | the position found is the first user whose email and password both match; no earlier user matches, and none at all when nothing is found |
| AuthContext.Login | frontend/contexts/AuthContext.tsx:20-27 | login succeeds exactly when the first user with these credentials exists and is active; that user becomes current, and a refusal leaves the state as it was |
| AuthContext.Logout | frontend/contexts/AuthContext.tsx:29-31 | no user is current afterwards and the account list is kept |
| AuthContext.NewUser | frontend/contexts/AuthContext.tsx:39-47 | a new account gets the id `u` followed by the account count plus one, the given email, password and name, the client role, the active status, and the creation time passed in |
| AuthContext.Signup | frontend/contexts/AuthContext.tsx:33-52 | signup succeeds exactly when no account has this email; on success the new account is appended and becomes current, otherwise nothing changes |
| AuthContext.SignupKeepsEmailsUnique | frontend/contexts/AuthContext.tsx:33-52 | signup never creates a second account with an email already in use |
| AuthContext.SignupThenLogin | frontend/contexts/AuthContext.tsx:20-52 | with unique emails, an account just created can log out and log back in with the same credentials, and it is the current user again |
| AuthContext.RolesPartition | frontend/contexts/AuthContext.tsx:54-56 | an administrator is also an employee; a logged-in user is either staff or a client, never both; without a user every role test is false |
| App.SelectView | src/App.tsx:55-57 | only a logged-out visitor sees the login page; staff screens only for employees and administrators, shop screens only for clients; a client on the catalog tab with a selected product sees that product's page |
| App.StaffRouting | src/App.tsx:153-160 | the four staff tabs lead to the dashboard, product management, order management and client activity screens, and the cart tab to nothing |
| App.ClientRouting | src/App.tsx:161-176 | the client tabs lead to the catalog or the selected product's page, the cart and the order history; the staff-only tabs show nothing |
| App.ProductClick | src/App.tsx:38-40 | clicking a product selects it and changes nothing else |
| App.BackToCatalog | src/App.tsx:42-44 | going back clears the selection and changes nothing else |
| App.ClickThenBack | src/App.tsx:38-44 | a client who opens a product sees its page, and after going back sees the catalog again |
| App.HandleCheckout | src/App.tsx:46-51 | a checkout records the order, raises the confirmation flag and switches to the orders tab, keeping the selected product |
| App.ShowWelcome | src/App.tsx:146-148 | the welcome-mail line shows exactly for the orders whose history card shows no rating |
| App.CheckoutShowsHistory | src/App.tsx:46-51 | after a client's checkout the confirmation banner is shown and the main area is the order history |
| App.LoginSuccess | src/App.tsx:56 | a successful login returns to the catalog tab |
| App.CartItemCount | src/App.tsx:53 | the badge count, a left fold from the first line, equals the sum of the line quantities |
| App.BadgeShown | src/App.tsx:53 | with positive quantities the count is at least the number of lines, so the badge appears exactly when the cart has a line |
| App.RoleLabel | src/App.tsx:69 | administrators are labelled Administrateur, employees Employé, clients Client |
| App.RoleLabelInjective | src/App.tsx:69 | different roles never share a label |
| LoginPage.HandleSubmit | frontend/components/LoginPage.tsx:22-45 | a submit clears the error and keeps the typed fields; in login mode it succeeds exactly when the account store accepts the credentials, otherwise shows the invalid-credentials message; in sign-up mode a blank name is refused before the store is consulted, and a taken email shows the email-in-use message; a failure never changes the account store |
| LoginPage.ToggleMode | frontend/components/LoginPage.tsx:112-115 | the link switches between login and sign-up, clears the error and keeps the typed email, password and name |
| LoginPage.ToggleTwice | frontend/components/LoginPage.tsx:112-115 | switching twice gives back the same form with the error cleared |
| LoginPage.BlankNameRejected | frontend/components/LoginPage.tsx:34-37 | a sign-up whose name is only spaces and tabs is refused with the name-required message and the account store is untouched |
| ProductCatalog.FilteredProducts | frontend/components/ProductCatalog.tsx:37-44 | every listed product is active, has the search term in its name or code ignoring case, and is in the chosen category (or every category is chosen); every product meeting all three is listed as many times as it occurs in the catalog; the list keeps the catalog's order |
| ProductCatalog.EmptySearchListsActive | frontend/components/ProductCatalog.tsx:37-44 | with an empty search and every category the grid is exactly the active products, in order |
| ProductCatalog.Categories | frontend/components/ProductCatalog.tsx:47 | the category menu holds each category that some product uses, and each only once |
| ProductCatalog.CategoriesInFirstUseOrder | frontend/components/ProductCatalog.tsx:47 | the categories come in the order of the product that first uses each |
| ProductCatalog.HandleAddToCart | frontend/components/ProductCatalog.tsx:49-56 | a product in stock is added to the cart once and its id is remembered for the confirmation tick; a product out of stock changes nothing |
| ProductCatalog.AddButtonAgrees | frontend/components/ProductCatalog.tsx:49-148 | for a non-negative stock the add button is enabled exactly when a click adds one unit, a disabled button would do nothing anyway, and an out-of-stock product with a non-negative reorder level carries the low-stock badge |
| ProductCatalog.NegativeStockEnabledButInert | frontend/components/ProductCatalog.tsx:51-148 | a negative stock leaves the button enabled, yet a click adds nothing |
| ProductDetail.QuantityInput | frontend/components/ProductDetail.tsx:161-163 | a cleared, unreadable or zero entry becomes one unit; any other number is kept as typed; the quantity is never zero |
| ProductDetail.HandleAddToCart | frontend/components/ProductDetail.tsx:39-45 | the cart receives the product with the chosen quantity exactly when that quantity is positive and within the stock, and only then does the success message show; otherwise nothing changes |
| ProductDetail.ButtonMatchesGuard | frontend/components/ProductDetail.tsx:40-169 | with the controls shown and a positive quantity, the button is enabled exactly when a click reaches the cart |
| ProductDetail.NegativeQuantityInert | frontend/components/ProductDetail.tsx:40-169 | a typed negative number is kept, leaves the button enabled, and a click adds nothing |
| ProductDetail.ClearedFieldAddsOne | frontend/components/ProductDetail.tsx:39-163 | for an in-stock product, a cleared or zero field adds exactly one unit |
| ProductDetail.ReorderAlertStaffOnly | frontend/components/ProductDetail.tsx:47-136 | a customer never sees the reorder alert; staff see it exactly when the stock is at or below the reorder level |
| AdminProducts.FormOf | frontend/components/AdminProducts.tsx:68 | a product put into the form fills every field, so saving that form over any product gives back exactly this product |
| AdminProducts.OpenDialog | frontend/components/AdminProducts.tsx:65-79 | opening the dialog for a product edits that product with its values in the form; opening it for a new product seeds the form with active status, stock 0, reorder level 5 and price 0; the list is untouched |
| AdminProducts.Overlay | frontend/components/AdminProducts.tsx:87 | each field the form holds replaces the product's, and each field it lacks keeps the product's value |
| AdminProducts.OverlayNeutral | frontend/components/AdminProducts.tsx:68-87 | overlaying a product's own form, or an empty form, gives the product back |
| AdminProducts.NewProduct | frontend/components/AdminProducts.tsx:93-108 | a new product gets the id `p` followed by the list length plus one; each field the form holds falsy falls back: stock and price to 0, reorder level to 5, code, name, description, category, supplier and delivery time to the empty text, the image to the placeholder picture, and a missing status to active |
| AdminProducts.Save | frontend/components/AdminProducts.tsx:81-114 | saving closes and clears the dialog; an edit rewrites, in place, each product carrying the edited id and keeps the others; a creation appends one new product |
| AdminProducts.EditUntouchedIsNoop | frontend/components/AdminProducts.tsx:65-114 | with unique ids, opening a listed product and saving without touching the form leaves the list as it was |
| AdminProducts.NewFromSeededForm | frontend/components/AdminProducts.tsx:69-109 | saving the untouched new-product form appends one product with the seeded values and the defaults for the rest |
| AdminProducts.ZeroReorderLevelBecomesFive | frontend/components/AdminProducts.tsx:101 | a reorder level typed as 0 is stored as 5 |
| AdminProducts.ToggleStatus | frontend/components/AdminProducts.tsx:116-124 | every product with the given id switches between active and inactive; the others and the list length are unchanged |
| AdminProducts.ToggleTwice | frontend/components/AdminProducts.tsx:116-124 | toggling the same id twice restores the list |
| AdminProducts.LowStockProducts | frontend/components/AdminProducts.tsx:126-128 | the alert lists exactly the active products at or below their reorder level, each as many times as in the product list, in list order |
| AdminProducts.DeactivatedNotLow | frontend/components/AdminProducts.tsx:116-128 | deactivating a product takes it off the low-stock alert |
| AdminProducts.Alert | frontend/components/AdminProducts.tsx:133-149 | the alert shows exactly when some product is low; it shows the count, the first three low products, and the number of the others when there are more than three |
| Inventory.FilteredProducts | src/components/InventoryManagement.tsx:45-50 | every listed item has the query in its name or SKU ignoring case and is in the chosen category (or every category is chosen); every item meeting both is listed as many times as it occurs in the stock list, in stock-list order |
| Inventory.EmptyQueryListsAll | src/components/InventoryManagement.tsx:45-50 | with an empty query and every category the whole stock list is shown |
| Inventory.StockSummary | src/components/InventoryManagement.tsx:52-56 | the summary counts all items and, per status label, the items carrying it; the three status counts add up to the total |
| Inventory.CategoryOptions | src/components/InventoryManagement.tsx:222-224 | the selector offers exactly the listed categories other than `all`, each as often as listed, in list order |
| Inventory.CategoryOptionsAreFamilies | src/components/InventoryManagement.tsx:222-224 | the selector offers the five product families of the category list, in order |
| ShoppingCart.OrderItemOf | src/components/ShoppingCart.tsx:28-33 | an order line carries the product's id, name and price and the cart line's quantity |
| ShoppingCart.OrderItems | src/components/ShoppingCart.tsx:28-33 | the order has one line per cart line, in cart order |
| ShoppingCart.HandleCheckout | src/components/ShoppingCart.tsx:21-58 | without a user or with an empty cart nothing happens; otherwise one order is appended and the cart emptied; the order gets the id `o` followed by the order count plus one, the user, the cart's lines, the reported amounts, reception status, a paid payment equal to the total, and no rating |
| ShoppingCart.OrderUnitsMatchCart | src/components/ShoppingCart.tsx:28-33 | the order carries exactly as many units as the cart held |
| ShoppingCart.FreshOrderId | src/components/ShoppingCart.tsx:36 | when the existing orders carry the generated ids, the new order's id differs from all of them |
| ShoppingCart.TypedQuantity | src/components/ShoppingCart.tsx:118-121 | a typed quantity is capped at the stock; below the stock it is the typed number, with an unreadable or zero entry read as one |
| ShoppingCart.Step | src/components/ShoppingCart.tsx:110-130 | the minus button sends one less unless the quantity is at most one, and the plus button one more unless the stock is reached |
| ShoppingCart.ControlsKeepRange | src/components/ShoppingCart.tsx:110-130 | from a quantity between one and the stock, the buttons and any non-negative or unreadable typed entry keep it in that range |
| AdminOrders.UpdateOrderStatus | frontend/components/AdminOrders.tsx:42-48 | every order with the given id takes the new status; the other orders and the list length are unchanged |
| AdminOrders.UpdatePaymentStatus | frontend/components/AdminOrders.tsx:50-59 | every order with the given id takes the new payment status; the other orders and the list length are unchanged |
| AdminOrders.UpdatesIdempotent | frontend/components/AdminOrders.tsx:42-59 | choosing the same status again changes nothing more |
| AdminOrders.UpdatesCommute | frontend/components/AdminOrders.tsx:42-59 | the order-status and payment-status selectors act on different fields, so the order in which they are used does not matter |
| AdminOrders.PaidOrders | frontend/components/AdminOrders.tsx:87 | the counter is the number of orders whose payment status is paid, never more than the number of orders |
| AdminOrders.MarkPaidCounts | frontend/components/AdminOrders.tsx:50-87 | marking an unpaid order with a unique id as paid raises the counter by exactly one |
| AdminOrders.PartialAmounts | frontend/components/AdminOrders.tsx:287-301 | the paid-amount and balance lines appear exactly for a partial payment; the paid amount and the balance add up to the order total |
| AdminOrders.ColoursDistinct | frontend/components/AdminOrders.tsx:66-84 | no two order statuses share a colour, no two payment statuses share a colour, and a paid payment has the colour of a paid order |
| OrderHistory.UserOrders | frontend/components/OrderHistory.tsx:28 | a logged-in client sees exactly the orders carrying their user id, each as often as in the list, in list order; with nobody logged in no order is shown |
| OrderHistory.EmptyStateIffNoOrder | frontend/components/OrderHistory.tsx:28-82 | a client sees the empty-state card exactly when no order carries their id |
| OrderHistory.ToggleExpanded | frontend/components/OrderHistory.tsx:130-132 | a click expands the clicked order unless it is the one already expanded, which collapses it |
| OrderHistory.ToggleTwice | frontend/components/OrderHistory.tsx:130-132 | two clicks on the same order restore the view when nothing or that order was expanded, and leave everything collapsed when another order was |
| OrderHistory.LabelsDistinct | frontend/components/OrderHistory.tsx:41-68 | different order statuses, and different payment statuses, read differently |
| OrderHistory.ShowRating | frontend/components/OrderHistory.tsx:207-221 | the rating block shows exactly for a present, non-zero rating, so the non-null assertion on the rating is never reached without one, and a positive rating fills at least one star |
| OrderHistory.Stars | frontend/components/OrderHistory.tsx:213-217 | five stars are drawn and star `k` is filled exactly when `k` is at most the rating |
| OrderHistory.FilledStars | frontend/components/OrderHistory.tsx:207-221 | the number of filled stars is the rating clamped to the range 0 to 5 |
| ClientActivityHistory.Clients | components/ClientActivityHistory.tsx:53 | the client selector lists exactly the users with the client role, each as often as in the user list, in user-list order |
| ClientActivityHistory.FilteredActivities | components/ClientActivityHistory.tsx:56-58 | nothing is shown until a client is selected; then exactly that client's entries, each as often as in the log, in log order |
| ClientActivityHistory.AddActivity | components/ClientActivityHistory.tsx:62-77 | without a selected client or a non-empty description nothing changes; otherwise one entry for the selected client, with the id `a` followed by the log length plus one, the draft's type and description and the staff member's id, goes in front of the log, the draft is reset to a note and the dialog closes |
| ClientActivityHistory.AddShowsFirst | components/ClientActivityHistory.tsx:56-77 | a successful add puts the new entry at the top of the selected client's history and keeps the rest of it |
| ClientActivityHistory.AddLeavesOthers | components/ClientActivityHistory.tsx:56-77 | adding an entry leaves every other client's history unchanged |
| ClientActivityHistory.TypeMaps | components/ClientActivityHistory.tsx:79-116 | the seven types have seven different labels; visits and page views share icon and colour, orders and documents share an icon but not a colour, and no other two types share a colour |
| CustomerRelationship.FilteredCustomers | src/components/CustomerRelationship.tsx:61-66 | a customer is listed exactly when the lowered query occurs in the lowered name or e-mail, or the raw query in the phone number, as many times as it occurs; the list keeps the original order |
| CustomerRelationship.EmptySearchListsAll | src/components/CustomerRelationship.tsx:61-66 | an empty search box lists every customer, in order |
| CustomerRelationship.PhoneMatchesRaw | src/components/CustomerRelationship.tsx:65 | a query that occurs verbatim in the phone number finds the customer |
| CustomerRelationship.CustomerStats | src/components/CustomerRelationship.tsx:68-72 | the counters are the number of customers and the numbers with status VIP, Actif and Inactif, and the three statuses add up to the total |
| CustomerRelationship.RankedCustomers | src/components/CustomerRelationship.tsx:393-394 | the in-place sort leaves a permutation of the customers ordered by amount spent, largest first, customers with the same amount keeping their original order |
| CustomerRelationship.Top5 | src/components/CustomerRelationship.tsx:393-395 | the top-5 list holds min(5, n) customers, ordered by amount spent, drawn from the customers |
| CustomerRelationship.Top5Leaders | src/components/CustomerRelationship.tsx:393-395 | any customer left out of the top five spent no more than every customer in it |
| CustomerRelationship.CityCountIsMultiplicity | src/components/CustomerRelationship.tsx:417-420 | the tally for a city equals the number of customers living there |
| CustomerRelationship.CityDistribution | src/components/CustomerRelationship.tsx:416-422 | one row per city, sorted by count largest first, cities with equal counts in order of first appearance in the ranked customers, and the counts add up to the number of customers |
| CustomerRelationship.CityEntryCount | src/components/CustomerRelationship.tsx:416-422 | every listed count is positive and is the number of customers in that city |
| CustomerRelationship.CityListed | src/components/CustomerRelationship.tsx:416-422 | every customer's city appears in the list |
| CustomerRelationship.RatingBuckets | src/components/CustomerRelationship.tsx:443-444 | five rows for the ratings 5 down to 1, each with the number of customers who gave that rating |
| CustomerRelationship.RatingBucketsCoverAll | src/components/CustomerRelationship.tsx:443-444 | when every rating lies between 1 and 5 the five rows account for every customer |
| CustomerRelationship.ChannelDistribution | src/components/CustomerRelationship.tsx:472-478 | one row per interaction type, sorted by count largest first, each count positive and equal to the number of interactions of that type, summing to the number of interactions; types with equal counts stay in order of first occurrence |
| Config.RoundDiv | api/config.php:127-128 | the result is the quotient rounded to the nearest integer with halves away from zero, as PHP `round` does, and a non-negative quotient rounds to a non-negative integer |
| Config.RoundingUnique | api/config.php:127-128 | any integer within half of the quotient, under the same tie rule, is the one the rounding returns |
| Config.RoundDivMonotone | api/config.php:127-128 | a larger dividend never rounds lower |
| Config.ComputeTaxes | api/config.php:126-137 | sous_total is the amount; tps and tvq are the amount times 5% and 9.975% rounded to the cent; total is their sum; all are non-negative for a non-negative amount; an amount of 0 gives four zeros |
| Config.TaxTotalWithinOneCent | api/config.php:126-137 | the taxed total is within one cent of the amount times 1.14975 |
| Config.TaxesMonotone | api/config.php:126-137 | a larger amount never gets smaller taxes or a smaller total |
| Config.InvoiceSuffix | api/config.php:164 | the sale id padded with zeros to at least six digits reads back as the id, is never truncated, and loses only leading zeros for an id of at least 1 |
| Config.InvoiceNumber | api/config.php:163-165 | the invoice number starts with `FAC-` and is as long as the year, the padded id and the two separators |
| Config.InvoiceNumberRoundTrip | api/config.php:163-165 | the invoice number reads back as its year and sale id |
| Config.InvoiceNumberInjective | api/config.php:163-165 | two sales of the same year never share an invoice number |
| Config.GroupThousandsUngroup | api/config.php:173 | removing the thousands separators gives back the digits |
| Config.GroupThousandsSpacing | api/config.php:173 | a space stands exactly at every fourth position counted from the right |
| Config.FormatPrice | api/config.php:172-174 | the price ends in `" $"` after a comma and two digits, and starts with `-` exactly when it is negative |
| Config.AmountRoundTrip | api/config.php:173 | an amount formatted with two decimals and grouped thousands reads back as the same number of cents |
| Config.FormatPriceRoundTrip | api/config.php:172-174 | the displayed price determines the amount in cents, sign included |
| SessionHelper.GetCurrentUser | api/session_helper.php:12-28 | null exactly when no user id is set; otherwise exactly the session's user id, email, name and role |
| SessionHelper.HasRole | api/session_helper.php:30-36 | false when logged out; otherwise true exactly when the session role equals the given one, and then the current user carries that role |
| SessionHelper.IsAdminOrEmployee | api/session_helper.php:38-44 | true exactly when the caller is logged in with role `admin` or `employe` |
| SessionHelper.FrontEndEmployeeIsNotStaff | api/session_helper.php:43 | a session holding the front end's spelling `employee` gets no staff rights |
| SessionHelper.ErrorResponse | api/session_helper.php:52-54 | the body is `{error: message}` and the status is the given code, 400 when none is given |
| SessionHelper.SuccessResponse | api/session_helper.php:56-65 | status 200 with a success body; the message is present exactly when it is truthy in PHP; the data is passed through, and callers hand a falsy PHP value in as absent, so it is present exactly when it is truthy |
| SessionHelper.RequireAuth | api/session_helper.php:67-71 | the request goes on exactly when logged in, and otherwise ends with 401 `Non authentifié` |
| SessionHelper.RequireAdminOrEmployee | api/session_helper.php:73-78 | the request goes on exactly for logged-in staff; a logged-out caller gets 401 before any role check, a logged-in non-staff caller 403 `Accès refusé` |
| CartArray.Lookup | api/panier/panier.php:113 | the lookup is null exactly when no entry has the key, and otherwise returns the quantity of an entry with that key |
| CartArray.Replace | api/panier/panier.php:52 | overwriting keeps every key in place, gives the key its new quantity if it was present, and leaves every other key's lookup unchanged |
| CartArray.Assign | api/panier/panier.php:113-152 | after the assignment the key holds the new quantity and no other key changes; a new key is appended at the end, an existing one keeps its position; keys stay distinct |
| CartArray.Unset | api/panier/panier.php:169 | after the removal the key is absent, every other key keeps its quantity, nothing changes when the key was absent, and keys stay distinct |
| CartArray.UnsetAssign | api/panier/panier.php:120-169 | removing a key undoes assigning it |
| CartArray.AssignSame | api/panier/panier.php:52 | assigning a key the quantity it already holds leaves the array as it was |
| Cart.Clamp | api/panier/panier.php:50-53 | the clamped quantity is at most the stock and at most the request, and is the request itself when that fits in the stock |
| Cart.MakeItem | api/panier/panier.php:59-68 | an item carries the product's id, sku, name, image, unit price and stock, the clamped quantity, and a line total of unit price times that quantity |
| Cart.Lines | api/panier/panier.php:34-69 | there is one item per cart entry whose product is active, in cart order, built from that entry and its product, and no item exceeds its stock |
| Cart.ClampAll | api/panier/panier.php:46-53 | the session keeps the same keys in the same order; each active product's quantity is clamped to its stock and every other entry is kept |
| Cart.TotalsOf | api/panier/panier.php:19-81 | an empty cart answers all zeros; otherwise sous_total is the sum of the line totals, nb_articles the sum of the clamped quantities, the taxes those of the tax helper, and the session is left clamped within stock |
| Cart.ClampAllStable | api/panier/panier.php:46-53 | clamping a clamped cart changes neither the session nor the items |
| Cart.RecalcStable | api/panier/panier.php:19-81 | recalculating a recalculated cart answers the same totals and leaves the same session |
| Cart.TotalsIgnoreUnlisted | api/panier/panier.php:37 | removing an id whose product is inactive or unknown changes no amount |
| Cart.TotalsNonNegative | api/panier/panier.php:55-71 | with non-negative quantities and stocks, sous_total and nb_articles are non-negative and the taxed total is at least the subtotal |
| Cart.UnsetClampAll | api/panier/panier.php:158-173 | clamping and removing an entry commute |
| Cart.Respond | api/panier/panier.php:122-123 | a success reply carries the recalculated cart, and the session is left clamped within stock |
| Cart.Reject | api/session_helper.php:52-54 | an error reply leaves the session cart as it was |
| Cart.AddItem | api/panier/panier.php:91-124 | an empty id gives 400 and an inactive or unknown product 404; the new quantity is the held quantity (0 if absent) plus `quantite` (1 by default); above stock the request is refused; the request succeeds exactly when none of these applies, and then the product holds the new quantity; on any error the cart is unchanged |
| Cart.UpdateItem | api/panier/panier.php:126-156 | missing fields give 400, a quantity below 1 an error, an id not in the cart 404, a missing product row or a quantity above stock the stock error; the request succeeds exactly when none applies, whatever the product's active flag, and then only that entry is set |
| Cart.RemoveItem | api/panier/panier.php:158-173 | an empty id gives 400 and an id not in the cart 404; otherwise exactly that entry goes and every other key stays present |
| Cart.HandleCart | api/panier/panier.php:13-177 | a missing session cart starts empty; GET answers the recalculated cart; any other method except OPTIONS gets 405; every error leaves the cart as it was, every success leaves it within stock, and keys stay distinct |
| Cart.AddThenRemove | api/panier/panier.php:91-173 | when a POST succeeds (active product, requested quantity within stock), deleting the product right after leaves the cart as if it had only been deleted |
| Cart.GetAfterChange | api/panier/panier.php:86-156 | a GET right after a successful request answers the same totals and leaves the session as it was |
| Cart.AddAcceptsNonPositive | api/panier/panier.php:98-120 | a POST with a negative `quantite` is accepted and can leave an entry of quantity 0 |
| Checkout.InteractionText | api/panier/valider.php:113 | the interaction text reads back as the sale id and the total it was written from |
| Checkout.FloatText | api/panier/valider.php:113 | the total as PHP writes a float into a string starts with `-` exactly for a negative amount |
| Checkout.UnsignedText | api/panier/valider.php:113 | a whole amount is written without a point, and a fractional one never ends in a trailing zero |
| Checkout.UnsignedRoundTrip | api/panier/valider.php:113 | the unsigned rendering of units and cents reads back as the same amount |
| Checkout.FloatTextRoundTrip | api/panier/valider.php:113 | the rendered total reads back as the same number of cents, sign included, so the interaction text determines the total |
| Checkout.LineOf | api/panier/valider.php:55-64 | a line carries the sale id, the product id, the requested quantity unclamped, the unit price, and price times quantity |
| Checkout.BuildLines | api/panier/valider.php:34-65 | the lines are built exactly when every active cart product is within its stock; otherwise the scan stops at the first over-stock active entry in cart order, with its product's name and stock; there is then one line per active cart entry, in cart order, built from that entry and its product |
| Checkout.LinesMatchCartItems | api/panier/valider.php:43-65 | within stock, the lines add up to the same subtotal as the cart page's items |
| Checkout.Refuse | api/panier/valider.php:10-24 | a refusal writes nothing and leaves the session cart as it was |
| Checkout.Validate | api/panier/valider.php:10-131 | refusals come in order: a method other than POST or OPTIONS 405, logged out 401, not a client or no client id 403, empty cart 400; the checkout succeeds exactly when none applies and every active product is within stock, and then the cart is emptied and an order written; on any refusal the cart is kept and nothing is written |
| Checkout.ValidatedOrder | api/panier/valider.php:34-131 | a successful checkout's sale has the taxes of the sum of its lines and status `reception`; every line has the sale id and price times quantity; the invoice is numbered from the sale id, carries the total and status `en_attente`; the interaction names the sale and its total; the reply repeats them; the lines written are exactly those the line scan builds from the cart |
| Checkout.CheckoutMatchesCartTotals | api/panier/valider.php:67-79 | a successful checkout charges exactly the amounts the cart page shows for the same cart |
| Checkout.OverStockRefused | api/panier/valider.php:50-53 | a cart holding more of an active product than its stock is refused with 400, the cart is kept and nothing is written; the message names the first over-stock active entry in cart order, with its stock |
| VersionFix.NextQuote | src/URGENT_FIX.py:21 | the position found holds a quote with no quote before it, and no position means the text holds no quote |
| VersionFix.LastAt | src/URGENT_FIX.py:21 | the position found holds an `@` with no `@` after it, and no position means the text holds no `@` |
| VersionFix.VersionedNameMatchesRegex | src/URGENT_FIX.py:21 | a literal body is accepted exactly when it reads as a non-empty name, `@` and a non-empty run of digits and dots, and the accepted name is that one |
| VersionFix.ScanCopies | src/URGENT_FIX.py:21-24 | a step that makes no replacement copies exactly the text it consumes |
| VersionFix.ScanReplaced | src/URGENT_FIX.py:21-24 | a replacing step consumes quote, name, `@`, version, quote and emits quote, name and the closing quote |
| VersionFix.FixPlainPrefix | src/URGENT_FIX.py:24 | text without quotes is copied through unchanged |
| VersionFix.FixMatchPrefix | src/URGENT_FIX.py:19-24 | a versioned literal at the front is replaced by its quotes and name, and the scan continues after it, so every match is replaced, not only the first |
| VersionFix.FixLiteral | src/URGENT_FIX.py:19-24 | a buffer that is one versioned literal, with either quote at each end, becomes quote, name, quote |
| VersionFix.FixOtherLiteralPrefix | src/URGENT_FIX.py:21-24 | a literal that is not versioned is copied up to its closing quote, and that quote opens the next match attempt |
| VersionFix.FixUnclosed | src/URGENT_FIX.py:21-24 | an opening quote with no closing quote leaves the rest of the buffer unchanged |
| VersionFix.FixShrinks | src/URGENT_FIX.py:24 | each replacement shortens the buffer by at least two characters, an `@` and a version character |
| VersionFix.FixWithoutReplacement | src/URGENT_FIX.py:24-27 | with no replacement the buffer comes back unchanged |
| VersionFix.FixChangesIffReplaced | src/URGENT_FIX.py:24-31 | the buffer changes exactly when some replacement happened, and a changed buffer is strictly shorter |
| VersionFix.FixIsSubsequence | src/URGENT_FIX.py:24 | nothing is inserted or reordered: the output is a subsequence of the input |
| VersionFix.FixKeepsOtherChars | src/URGENT_FIX.py:21-24 | only `@`, digits and dots are deleted: every other character occurs as often after the rewrite as before |
| VersionFix.FixKeepsQuotes | src/URGENT_FIX.py:21-24 | the number of each quote character is unchanged |
| VersionFix.FixNoMatchUnchanged | src/URGENT_FIX.py:16-31 | a buffer in which no pair of consecutive quotes encloses a versioned body comes back unchanged |
| VersionFix.FixFile | src/URGENT_FIX.py:9-31 | the file is reported changed exactly when it is written back and exactly when a replacement happened; the written content is the rewrite, strictly shorter and a subsequence of the original; an unchanged file is not written |
| VersionFix.Step | src/URGENT_FIX.py:54-59 | one iteration gives the file its rewritten content, touches no other file, and records the file as fixed exactly when its content changed |
| VersionFix.ProcessStep | src/URGENT_FIX.py:54-59 | one more file processed keeps the loop invariant: processed files rewritten, others untouched, and the fixed list is exactly the changed processed files in order |
| VersionFix.FixAll | src/URGENT_FIX.py:53-59 | after the loop every listed file holds its rewritten content, no other file changes, and the fixed list is exactly the changed files in listing order, never longer than the listing |
| VersionFix.FixComponents | src/URGENT_FIX.py:33-69 | a missing directory and a directory without `.tsx` files end early with nothing written; otherwise the fixed count is the number of changed files out of all listed, and the follow-up steps are shown exactly when it is positive |
| VersionFixExamples.RadixExample | src/URGENT_FIX.py:19 | `"@radix-ui/react-dialog@1.1.6"` becomes `"@radix-ui/react-dialog"` |
| VersionFixExamples.LucideExample | src/URGENT_FIX.py:20 | `"lucide-react@0.487.0"` becomes `"lucide-react"` |
| VersionFixExamples.MixedQuotesExample | src/URGENT_FIX.py:21 | a literal opened by one quote and closed by the other still matches |
| VersionFixExamples.NotIdempotent | src/URGENT_FIX.py:21-24 | when the name itself ends in `@version`, a second pass strips one more run: the rewrite is not idempotent |
| VersionFixExamples.NotIdempotentExample | src/URGENT_FIX.py:21-24 | within `"a@1.2@3.4"` only the run after the last `@` goes, giving `"a@1.2"`, and a second pass gives `"a"` |
| VersionFixExamples.EmptyNameExample | src/URGENT_FIX.py:21 | `"@1.0"` is left alone because the name before the `@` is empty |
| VersionFixExamples.NonNumericVersionExample | src/URGENT_FIX.py:21 | `"pkg@beta"` is left alone because the version is not digits and dots |
| Data.NextId | frontend/contexts/AuthContext.tsx:40 | a generated id is the prefix letter followed by the decimal digits of the list length plus one |
| Data.NextIdInjective | frontend/contexts/AuthContext.tsx:40 | lists of different lengths never generate the same id |

## Left out

- Database and HTTP plumbing is not modelled. This covers:
  - PDO connections and the singleton;
  - transactions, `FOR UPDATE` and rollback;
  - `json_encode`/`exit` and CORS headers;
  - the OPTIONS preflight (api/config.php:208-211), which answers 200 with an empty body and exits before either endpoint dispatches; the endpoint models take only the requests that get past it;
  - the 500 replies sent when an exception is thrown.
- `hashPassword`, `verifyPassword`, `clean` and `testConnection` in `api/config.php` are left out. They call library functions with no logic of their own.
- Products are listed in cart order. The cart and checkout SQL queries have no `ORDER BY`, so the database's row order is taken to be the cart array's order.
- Amounts are exact cents; floating point is not modelled. This covers:
  - PHP float rounding error, and PHP's exponent form for very large or small floats;
  - the front end's float sums: inventory value, revenue, average satisfaction, percentages.
- `parseFloat`, `NaN` and `parseInt` are not modelled. The text a field holds arrives already parsed, with `None` standing for `NaN`.
- Python's `\d` also matches non-ASCII decimal digits; the model's versions use ASCII digits only.
- The console messages of the script's `main` are not modelled. The outcome records which branch was taken, the counts, and whether the follow-up steps are printed.
- `VersionFix.FixAll`: the directory loop is proved for any per-file rewrite passed as a function, and `FixComponents` instantiates it with the rewrite.
- `VersionFix.FixFile`: the directory map holds text already decoded from UTF-8 with newlines normalised, as Python's text mode reads it. CRLF and lone CR become LF on read, and `\n` is written back as the platform's line separator, so line endings may change on write and the per-character and length claims hold for the decoded text, not the bytes on disk.
- `VersionFix.FixComponents`: the `*.tsx` match is case-sensitive; on a case-insensitive file system the glob would also pick up names such as `x.TSX`.
- `VersionFix.FixComponents`: read, decode and write exceptions (a file that is not UTF-8, a directory named `x.tsx`, a read-only file) are not modelled. In the script such an error stops `main` mid-loop, with earlier files already rewritten and no summary; the model always runs to the end.
- The version rewrite is not idempotent, and the model does not claim it is. A second pass can strip one more `@version` run; `VersionFixExamples.NotIdempotent` shows this.
- Front-end parts the model does not cover:
  - the cart context's internals, whose lines and amounts are parameters;
  - the React runtime, effects and timers (the success banners, the simulated payment delay);
  - the initial `fetch` of the product list;
  - CSS classes, icons and layout.
- `toLowerCase` is modelled as ASCII lowering only. JavaScript also lowers accented capitals such as `É` and `À`, so a search for `éte` finds `Été` in the program but not in the model.
- `Object.entries` ordering is taken as insertion order. This is what JavaScript does for keys that are not integer-like, which holds for city and interaction-type names.
- `Cart.UpdateItem` does not take the product's existence as a precondition. Following the code, an id in the cart but missing from the catalog reaches the stock check, where PHP compares the quantity with `null` and sends the stock error.
- `CartArray.AssignSame` requires that the cart's keys be distinct, which every PHP array guarantees.
- The singular or plural noun after a count (orders, cart lines, units added) is the helper `Data.Plural`; it carries no property beyond its definition.
- `Config.ComputeTaxes` rounds the exact products `amount × 5/100` and `amount × 9975/100000`, with the amount in cents. The source rounds binary floating-point products to two decimals.

=== FILE: admin_orders.dfy ===
/** `frontend/components/AdminOrders.tsx`: the staff's order table, with its
    two status selectors, the paid-orders counter and the order dialog's
    partial-payment lines. The revenue total is a floating-point sum and
    is not modelled. */
module AdminOrders {
  import opened Wrappers
  import opened Seqs
  import opened Data

  /** `updateOrderStatus(orderId, status)`. */
  function UpdateOrderStatus(orders: seq<Order>, orderId: string, status: OrderStatus): (r: seq<Order>)
    ensures |r| == |orders|
    ensures forall i :: 0 <= i < |orders| && orders[i].id == orderId ==> r[i] == orders[i].(status := status)
    ensures forall i :: 0 <= i < |orders| && orders[i].id != orderId ==> r[i] == orders[i]
  {
    seq(|orders|, i requires 0 <= i < |orders| => if orders[i].id == orderId then orders[i].(status := status) else orders[i])
  }

  /** `updatePaymentStatus(orderId, paymentStatus)`. */
  function UpdatePaymentStatus(orders: seq<Order>, orderId: string, paymentStatus: PaymentStatus): (r: seq<Order>)
    ensures |r| == |orders|
    ensures forall i :: 0 <= i < |orders| && orders[i].id == orderId ==> r[i] == orders[i].(paymentStatus := paymentStatus)
    ensures forall i :: 0 <= i < |orders| && orders[i].id != orderId ==> r[i] == orders[i]
  {
    seq(|orders|, i requires 0 <= i < |orders| => if orders[i].id == orderId then orders[i].(paymentStatus := paymentStatus) else orders[i])
  }

  /** Repeating an update changes nothing more. */
  lemma UpdatesIdempotent(orders: seq<Order>, orderId: string, status: OrderStatus, paymentStatus: PaymentStatus)
    ensures UpdateOrderStatus(UpdateOrderStatus(orders, orderId, status), orderId, status) == UpdateOrderStatus(orders, orderId, status)
    ensures UpdatePaymentStatus(UpdatePaymentStatus(orders, orderId, paymentStatus), orderId, paymentStatus)
         == UpdatePaymentStatus(orders, orderId, paymentStatus)
  {
  }

  /** The two selectors act on different fields, so their order does not
      matter. */
  lemma UpdatesCommute(orders: seq<Order>, a: string, status: OrderStatus, b: string, paymentStatus: PaymentStatus)
    ensures UpdatePaymentStatus(UpdateOrderStatus(orders, a, status), b, paymentStatus)
         == UpdateOrderStatus(UpdatePaymentStatus(orders, b, paymentStatus), a, status)
  {
  }

  function IsPaid(o: Order): bool { o.paymentStatus == Paid }

  /** `paidOrders`. */
  function PaidOrders(orders: seq<Order>): (n: nat)
    ensures n <= |orders|
    ensures n == |Filter(orders, IsPaid)|
  {
    Count(orders, IsPaid)
  }

  /** Marking an unpaid order paid raises the counter by one when the id is
      unique in the list. */
  lemma {:induction false} MarkPaidCounts(orders: seq<Order>, k: nat)
    requires k < |orders| && orders[k].paymentStatus != Paid
    requires forall i :: 0 <= i < |orders| && i != k ==> orders[i].id != orders[k].id
    ensures PaidOrders(UpdatePaymentStatus(orders, orders[k].id, Paid)) == PaidOrders(orders) + 1
    decreases |orders|
  {
    var id := orders[k].id;
    var r := UpdatePaymentStatus(orders, id, Paid);
    if k == 0 {
      assert r[1..] == orders[1..];
    } else {
      MarkPaidCounts(orders[1..], k - 1);
      assert r[1..] == UpdatePaymentStatus(orders[1..], id, Paid);
      assert r[0] == orders[0];
    }
  }

  /** The "Montant payé" and "Solde dû" lines: shown for a partial payment
      only, the balance being what the payment leaves of the total. */
  function PartialAmounts(o: Order): (r: Option<(int, int)>)
    ensures r.Some? <==> o.paymentStatus == Partial
    ensures r.Some? ==> r.value.0 == o.paymentAmount && r.value.0 + r.value.1 == o.total
  {
    if o.paymentStatus == Partial then Some((o.paymentAmount, o.total - o.paymentAmount)) else None
  }

  /** `getStatusColor`. */
  function StatusColor(s: OrderStatus): string {
    match s
    case Reception => "bg-blue-100 text-blue-800"
    case Preparation => "bg-yellow-100 text-yellow-800"
    case Shipped => "bg-purple-100 text-purple-800"
    case Invoiced => "bg-orange-100 text-orange-800"
    case Closed => "bg-green-100 text-green-800"
  }

  /** `getPaymentStatusColor`. */
  function PaymentColor(s: PaymentStatus): string {
    match s
    case Paid => "bg-green-100 text-green-800"
    case Pending => "bg-orange-100 text-orange-800"
    case Partial => "bg-yellow-100 text-yellow-800"
  }

  /** Every status has a colour of its own, and a payment status shares
      its colour with the order status of the same meaning. */
  lemma ColoursDistinct(a: OrderStatus, b: OrderStatus, p: PaymentStatus, q: PaymentStatus)
    ensures StatusColor(a) == StatusColor(b) ==> a == b
    ensures PaymentColor(p) == PaymentColor(q) ==> p == q
    ensures PaymentColor(Paid) == StatusColor(Closed)
  {
  }
}

=== FILE: admin_products.dfy ===
/** `frontend/components/AdminProducts.tsx`: the staff's product table, its
    edit/create dialog, the activation switch and the low-stock alert. The
    initial `fetch` of the list is not modelled; the list is part of the
    state. */
module AdminProducts {
  import opened Wrappers
  import opened Seqs
  import opened Data

  /** `Partial<Product>`: every field may be absent. */
  datatype ProductForm = ProductForm(
    id: Option<string>,
    code: Option<string>,
    name: Option<string>,
    description: Option<string>,
    category: Option<string>,
    price: Option<int>,
    stock: Option<int>,
    reorderLevel: Option<int>,
    supplier: Option<string>,
    deliveryTime: Option<string>,
    status: Option<Status>,
    image: Option<string>)

  const EmptyForm := ProductForm(None, None, None, None, None, None, None, None, None, None, None, None)

  const PlaceholderImage := "https://images.unsplash.com/photo-1478131143081-80f7f84ca84d?w=500"

  datatype AdminState = AdminState(
    products: seq<Product>,
    dialogOpen: bool,
    editing: Option<Product>,
    form: ProductForm)

  /** Every field of the form is filled. */
  predicate Filled(f: ProductForm) {
    && f.id.Some? && f.code.Some? && f.name.Some? && f.description.Some?
    && f.category.Some? && f.price.Some? && f.stock.Some? && f.reorderLevel.Some?
    && f.supplier.Some? && f.deliveryTime.Some? && f.status.Some? && f.image.Some?
  }

  /** A product as a form with every field present: saving it over any
      product gives back exactly this one. */
  function FormOf(p: Product): (f: ProductForm)
    ensures f.id == Some(p.id) && f.stock == Some(p.stock) && f.status == Some(p.status)
    ensures Filled(f)
    ensures forall q :: Overlay(q, f) == p
  {
    ProductForm(Some(p.id), Some(p.code), Some(p.name), Some(p.description), Some(p.category),
      Some(p.price), Some(p.stock), Some(p.reorderLevel), Some(p.supplier), Some(p.deliveryTime),
      Some(p.status), Some(p.image))
  }

  /** `handleOpenDialog(product?)`. */
  function OpenDialog(st: AdminState, product: Option<Product>): (r: AdminState)
    ensures r.dialogOpen && r.products == st.products && r.editing == product
    ensures product.Some? ==> r.form == FormOf(product.value)
    ensures product.None? ==> r.form == EmptyForm.(status := Some(Active), stock := Some(0), reorderLevel := Some(5), price := Some(0))
  {
    match product
    case Some(p) => st.(editing := Some(p), form := FormOf(p), dialogOpen := true)
    case None => st.(editing := None, form := EmptyForm.(status := Some(Active), stock := Some(0), reorderLevel := Some(5), price := Some(0)), dialogOpen := true)
  }

  /** `{ ...p, ...form }`: each present form field replaces the product's. */
  function Overlay(p: Product, f: ProductForm): (r: Product)
    ensures (f.id.Some? ==> r.id == f.id.value) && (f.id.None? ==> r.id == p.id)
    ensures (f.code.Some? ==> r.code == f.code.value) && (f.code.None? ==> r.code == p.code)
    ensures (f.name.Some? ==> r.name == f.name.value) && (f.name.None? ==> r.name == p.name)
    ensures (f.description.Some? ==> r.description == f.description.value) && (f.description.None? ==> r.description == p.description)
    ensures (f.category.Some? ==> r.category == f.category.value) && (f.category.None? ==> r.category == p.category)
    ensures (f.price.Some? ==> r.price == f.price.value) && (f.price.None? ==> r.price == p.price)
    ensures (f.stock.Some? ==> r.stock == f.stock.value) && (f.stock.None? ==> r.stock == p.stock)
    ensures (f.reorderLevel.Some? ==> r.reorderLevel == f.reorderLevel.value) && (f.reorderLevel.None? ==> r.reorderLevel == p.reorderLevel)
    ensures (f.supplier.Some? ==> r.supplier == f.supplier.value) && (f.supplier.None? ==> r.supplier == p.supplier)
    ensures (f.deliveryTime.Some? ==> r.deliveryTime == f.deliveryTime.value) && (f.deliveryTime.None? ==> r.deliveryTime == p.deliveryTime)
    ensures (f.status.Some? ==> r.status == f.status.value) && (f.status.None? ==> r.status == p.status)
    ensures (f.image.Some? ==> r.image == f.image.value) && (f.image.None? ==> r.image == p.image)
  {
    Product(
      f.id.GetOr(p.id), f.code.GetOr(p.code), f.name.GetOr(p.name), f.description.GetOr(p.description),
      f.category.GetOr(p.category), f.price.GetOr(p.price), f.stock.GetOr(p.stock),
      f.reorderLevel.GetOr(p.reorderLevel), f.supplier.GetOr(p.supplier), f.deliveryTime.GetOr(p.deliveryTime),
      f.status.GetOr(p.status), f.image.GetOr(p.image))
  }

  /** Overlaying an untouched form gives the product back, and an empty
      form changes nothing. */
  lemma OverlayNeutral(p: Product)
    ensures Overlay(p, FormOf(p)) == p
    ensures Overlay(p, EmptyForm) == p
  {
  }

  /** The product `handleSave` creates, with the `||` defaults; an id of
      the form is ignored. */
  function NewProduct(count: nat, f: ProductForm): (r: Product)
    ensures r.id == NextId('p', count)
    ensures r.reorderLevel == (if NumTruthy(f.reorderLevel) then f.reorderLevel.value else 5)
    ensures r.stock == (if NumTruthy(f.stock) then f.stock.value else 0)
    ensures r.name == (if StrTruthy(f.name) then f.name.value else "")
    ensures r.status == f.status.GetOr(Active)
    ensures r.code == (if StrTruthy(f.code) then f.code.value else "")
    ensures r.description == (if StrTruthy(f.description) then f.description.value else "")
    ensures r.category == (if StrTruthy(f.category) then f.category.value else "")
    ensures r.price == (if NumTruthy(f.price) then f.price.value else 0)
    ensures r.supplier == (if StrTruthy(f.supplier) then f.supplier.value else "")
    ensures r.deliveryTime == (if StrTruthy(f.deliveryTime) then f.deliveryTime.value else "")
    ensures r.image == (if StrTruthy(f.image) then f.image.value else PlaceholderImage)
  {
    Product(
      NextId('p', count), OrStr(f.code, ""), OrStr(f.name, ""), OrStr(f.description, ""),
      OrStr(f.category, ""), OrNum(f.price, 0), OrNum(f.stock, 0), OrNum(f.reorderLevel, 5),
      OrStr(f.supplier, ""), OrStr(f.deliveryTime, ""),
      // both statuses are non-empty strings, hence truthy
      f.status.GetOr(Active),
      OrStr(f.image, PlaceholderImage))
  }

  /** `handleSave`. */
  function Save(st: AdminState): (r: AdminState)
    ensures !r.dialogOpen && r.editing.None? && r.form == EmptyForm
    ensures st.editing.Some? ==> |r.products| == |st.products|
    ensures st.editing.Some? ==> forall i :: 0 <= i < |st.products| ==>
      r.products[i] == (if st.products[i].id == st.editing.value.id then Overlay(st.editing.value, st.form) else st.products[i])
    ensures st.editing.None? ==> r.products == st.products + [NewProduct(|st.products|, st.form)]
  {
    var products :=
      match st.editing
      case Some(e) => seq(|st.products|, i requires 0 <= i < |st.products| =>
                        if st.products[i].id == e.id then Overlay(e, st.form) else st.products[i])
      case None => st.products + [NewProduct(|st.products|, st.form)];
    AdminState(products, false, None, EmptyForm)
  }

  /** Ids are pairwise different. */
  ghost predicate UniqueIds(products: seq<Product>) {
    forall i, j :: 0 <= i < j < |products| ==> products[i].id != products[j].id
  }

  /** With unique ids, opening a listed product and saving without
      touching the form leaves the list as it was. */
  lemma EditUntouchedIsNoop(st: AdminState, k: nat)
    requires UniqueIds(st.products) && k < |st.products|
    ensures Save(OpenDialog(st, Some(st.products[k]))).products == st.products
  {
    var e := st.products[k];
    var r := Save(OpenDialog(st, Some(e))).products;
    forall i | 0 <= i < |st.products| ensures r[i] == st.products[i] {
      OverlayNeutral(e);
      assert i != k ==> st.products[i].id != e.id;
    }
  }

  /** Saving the untouched "new product" form appends a product that has
      the dialog's seeded values and the defaults for the rest. */
  lemma NewFromSeededForm(st: AdminState)
    ensures var r := Save(OpenDialog(st, None)).products;
      && |r| == |st.products| + 1
      && r[|st.products|] == Product(NextId('p', |st.products|), "", "", "", "", 0, 0, 5, "", "", Active, PlaceholderImage)
  {
  }

  /** A reorder level typed as 0 is replaced by 5, because `0 || 5` is 5. */
  lemma ZeroReorderLevelBecomesFive(count: nat, f: ProductForm)
    requires f.reorderLevel == Some(0)
    ensures NewProduct(count, f).reorderLevel == 5
  {
  }

  function Flip(s: Status): Status {
    if s == Active then Inactive else Active
  }

  /** `toggleProductStatus(productId)`. */
  function ToggleStatus(products: seq<Product>, productId: string): (r: seq<Product>)
    ensures |r| == |products|
    ensures forall i :: 0 <= i < |products| && products[i].id == productId ==>
      r[i] == products[i].(status := if products[i].status == Active then Inactive else Active)
    ensures forall i :: 0 <= i < |products| && products[i].id != productId ==> r[i] == products[i]
  {
    seq(|products|, i requires 0 <= i < |products| =>
      if products[i].id == productId then products[i].(status := Flip(products[i].status)) else products[i])
  }

  /** Toggling twice restores the list. */
  lemma ToggleTwice(products: seq<Product>, productId: string)
    ensures ToggleStatus(ToggleStatus(products, productId), productId) == products
  {
  }

  function IsLowStock(p: Product): bool {
    p.stock <= p.reorderLevel && p.status == Active
  }

  /** `lowStockProducts`. */
  function LowStockProducts(products: seq<Product>): (r: seq<Product>)
    ensures forall p :: p in r <==> p in products && p.stock <= p.reorderLevel && p.status == Active
    ensures forall p :: multiset(r)[p] == if p.stock <= p.reorderLevel && p.status == Active then multiset(products)[p] else 0
    ensures IsSubsequence(r, products)
  {
    FilterIsSubsequence(products, IsLowStock);
    Filter(products, IsLowStock)
  }

  /** Deactivating a product takes it off the low-stock alert. */
  lemma DeactivatedNotLow(products: seq<Product>, productId: string, k: nat)
    requires k < |products| && products[k].id == productId && products[k].status == Active
    ensures ToggleStatus(products, productId)[k] !in LowStockProducts(ToggleStatus(products, productId))
  {
  }

  /** The alert's list: the first three names, and the count of the others
      when there are more. */
  datatype LowStockAlert = LowStockAlert(count: nat, shown: seq<Product>, others: Option<nat>)

  function Alert(products: seq<Product>): (a: Option<LowStockAlert>)
    ensures a.None? <==> |LowStockProducts(products)| == 0
    ensures a.Some? ==> a.value.count == |LowStockProducts(products)|
    ensures a.Some? ==> |a.value.shown| == (if a.value.count > 3 then 3 else a.value.count)
    ensures a.Some? ==> a.value.shown == LowStockProducts(products)[..|a.value.shown|]
    ensures a.Some? ==> |a.value.shown| + a.value.others.GetOr(0) == a.value.count
    ensures a.Some? ==> (a.value.others.Some? <==> a.value.count > 3)
  {
    var low := LowStockProducts(products);
    if |low| == 0 then None
    else if |low| > 3 then Some(LowStockAlert(|low|, low[..3], Some(|low| - 3)))
    else Some(LowStockAlert(|low|, low, None))
  }
}

=== FILE: app.dfy ===
/** `src/App.tsx`: which screen the prototype shows, the cart badge and the
    reaction to a completed checkout. The cart context's items are a
    parameter. */
module App {
  import opened Wrappers
  import opened Seqs
  import opened Data
  import opened AuthContext
  import OrderHistory

  /** The tab values: `catalog`, `cart`, `orders` and `admin` from the
      state's type, plus the staff tabs `products` and `clients`. */
  datatype Page = CatalogPage | CartPage | OrdersPage | AdminPage | ProductsPage | ClientsPage

  /** The component rendered in the main area; `Blank` when the current tab
      has no view for this role. */
  datatype View =
    | LoginView
    | DashboardView
    | AdminProductsView
    | AdminOrdersView
    | ClientActivityView
    | ProductDetailView(product: Product)
    | ProductCatalogView
    | ShoppingCartView
    | OrderHistoryView
    | Blank

  datatype AppState = AppState(
    page: Page,
    selected: Option<Product>,
    showOrderSuccess: bool,
    lastOrder: Option<Order>)

  const Initial := AppState(CatalogPage, None, false, None)

  predicate StaffView(v: View) {
    v.DashboardView? || v.AdminProductsView? || v.AdminOrdersView? || v.ClientActivityView?
  }

  predicate ClientView(v: View) {
    v.ProductDetailView? || v.ProductCatalogView? || v.ShoppingCartView? || v.OrderHistoryView?
  }

  /** The main area, from the current user and the page state. */
  function SelectView(auth: AuthState, st: AppState): (v: View)
    ensures auth.user.None? <==> v == LoginView
    ensures StaffView(v) ==> IsEmployee(auth)
    ensures ClientView(v) ==> auth.user.Some? && !IsEmployee(auth)
    ensures v.ProductDetailView? ==> auth.user.Some? && !IsEmployee(auth) && st.page == CatalogPage && st.selected == Some(v.product)
    ensures auth.user.Some? && !IsEmployee(auth) && st.page == CatalogPage && st.selected.Some? ==> v == ProductDetailView(st.selected.value)
  {
    if auth.user.None? then LoginView
    else if IsEmployee(auth) then
      match st.page
      case CatalogPage => DashboardView
      case ProductsPage => AdminProductsView
      case OrdersPage => AdminOrdersView
      case ClientsPage => ClientActivityView
      case _ => Blank
    else
      match st.page
      case CatalogPage => (if st.selected.Some? then ProductDetailView(st.selected.value) else ProductCatalogView)
      case CartPage => ShoppingCartView
      case OrdersPage => OrderHistoryView
      case _ => Blank
  }

  /** The staff tabs route to the four management screens. */
  lemma StaffRouting(auth: AuthState, st: AppState)
    requires IsEmployee(auth)
    ensures st.page == CatalogPage ==> SelectView(auth, st) == DashboardView
    ensures st.page == ProductsPage ==> SelectView(auth, st) == AdminProductsView
    ensures st.page == OrdersPage ==> SelectView(auth, st) == AdminOrdersView
    ensures st.page == ClientsPage ==> SelectView(auth, st) == ClientActivityView
    ensures st.page == CartPage ==> SelectView(auth, st) == Blank
  {
  }

  /** The client tabs route to the shop screens, and a selected product
      replaces the catalog with its detail page. */
  lemma ClientRouting(auth: AuthState, st: AppState)
    requires auth.user.Some? && !IsEmployee(auth)
    ensures st.page == CatalogPage ==> SelectView(auth, st) == (if st.selected.Some? then ProductDetailView(st.selected.value) else ProductCatalogView)
    ensures st.page == CartPage ==> SelectView(auth, st) == ShoppingCartView
    ensures st.page == OrdersPage ==> SelectView(auth, st) == OrderHistoryView
    ensures st.page == ProductsPage || st.page == ClientsPage || st.page == AdminPage ==> SelectView(auth, st) == Blank
  {
  }

  /** `handleProductClick`. */
  function ProductClick(st: AppState, p: Product): (r: AppState)
    ensures r.selected == Some(p) && r == st.(selected := r.selected)
  {
    st.(selected := Some(p))
  }

  /** `handleBackToCatalog`. */
  function BackToCatalog(st: AppState): (r: AppState)
    ensures r.selected.None? && r == st.(selected := None)
  {
    st.(selected := None)
  }

  /** A client who opens a product and goes back sees the catalog again. */
  lemma ClickThenBack(auth: AuthState, st: AppState, p: Product)
    requires auth.user.Some? && !IsEmployee(auth) && st.page == CatalogPage
    ensures SelectView(auth, ProductClick(st, p)) == ProductDetailView(p)
    ensures SelectView(auth, BackToCatalog(ProductClick(st, p))) == ProductCatalogView
  {
  }

  /** `handleCheckout`; the five-second timer that hides the banner again
      is not modelled. */
  function HandleCheckout(st: AppState, order: Order): (r: AppState)
    ensures r.lastOrder == Some(order) && r.showOrderSuccess && r.page == OrdersPage
    ensures r.selected == st.selected
  {
    st.(lastOrder := Some(order), showOrderSuccess := true, page := OrdersPage)
  }

  /** The confirmation banner shows when both the flag and the order are
      set. */
  predicate ShowBanner(st: AppState) {
    st.showOrderSuccess && st.lastOrder.Some?
  }

  /** After a client's checkout the banner is up and the order history is
      the screen. */
  lemma CheckoutShowsHistory(auth: AuthState, st: AppState, order: Order)
    requires auth.user.Some? && !IsEmployee(auth)
    ensures ShowBanner(HandleCheckout(st, order))
    ensures SelectView(auth, HandleCheckout(st, order)) == OrderHistoryView
  {
  }

  /** The welcome-mail line of the banner shows when the order's rating is
      falsy: exactly for the orders whose history card has no stars. */
  function ShowWelcome(order: Order): (r: bool)
    ensures r <==> !OrderHistory.ShowRating(order)
  {
    order.rating.None? || order.rating.value == 0
  }

  /** The `onLoginSuccess` callback given to the login page. */
  function LoginSuccess(st: AppState): (r: AppState)
    ensures r.page == CatalogPage && r.selected == st.selected
  {
    st.(page := CatalogPage)
  }

  function LineQuantity(l: CartLine): int { l.quantity }

  /** `items.reduce((sum, item) => sum + item.quantity, 0)`: a left fold,
      accumulating from the first line; it equals the sum of the quantities
      taken from the front. */
  function CartItemCount(items: seq<CartLine>): (r: int)
    ensures r == SumBy(items, LineQuantity)
    decreases |items|
  {
    if |items| == 0 then 0
    else
      var init := items[..|items| - 1];
      assert items == init + [items[|items| - 1]];
      SumByAppend(init, [items[|items| - 1]], LineQuantity);
      CartItemCount(init) + items[|items| - 1].quantity
  }

  /** With positive quantities the badge shows exactly when the cart has a
      line. */
  lemma {:induction false} BadgeShown(items: seq<CartLine>)
    requires forall i :: 0 <= i < |items| ==> items[i].quantity >= 1
    ensures CartItemCount(items) >= |items|
    ensures CartItemCount(items) > 0 <==> |items| > 0
    decreases |items|
  {
    if |items| > 0 {
      BadgeShown(items[..|items| - 1]);
    }
  }

  /** The header's role label. */
  function RoleLabel(role: Role): (r: string)
    ensures role == Admin ==> r == "Administrateur"
    ensures role == Employee ==> r == "Employé"
    ensures role == Client ==> r == "Client"
  {
    match role
    case Admin => "Administrateur"
    case Employee => "Employé"
    case Client => "Client"
  }

  /** Different roles get different labels. */
  lemma RoleLabelInjective(a: Role, b: Role)
    requires RoleLabel(a) == RoleLabel(b)
    ensures a == b
  {
  }
}

=== FILE: auth_context.dfy ===
/** `frontend/contexts/AuthContext.tsx`: the prototype's in-memory account
    store. The state is the current user and the list of users; every
    operation returns the next state, and `login` and `signup` also
    return their boolean answer. */
module AuthContext {
  import opened Wrappers
  import opened Data

  datatype AuthState = AuthState(user: Option<User>, users: seq<User>)

  /** `users.find(u => u.email === email && u.password === password)`, as
      the position of the first match. */
  function FindCredentials(users: seq<User>, email: string, password: string): (r: Option<nat>)
    ensures r.Some? ==> r.value < |users| && users[r.value].email == email && users[r.value].password == password
    ensures r.Some? ==> forall i :: 0 <= i < r.value ==> !(users[i].email == email && users[i].password == password)
    ensures r.None? ==> forall i :: 0 <= i < |users| ==> !(users[i].email == email && users[i].password == password)
  {
    if |users| == 0 then None
    else if users[0].email == email && users[0].password == password then Some(0)
    else match FindCredentials(users[1..], email, password)
      case None => None
      case Some(k) => Some(k + 1)
  }

  /** `users.find(u => u.email === email)` is truthy. */
  predicate EmailTaken(users: seq<User>, email: string) {
    exists i :: 0 <= i < |users| && users[i].email == email
  }

  /** `login(email, password)`: only the first user with these credentials
      is considered, and only an active one gets in. */
  function Login(st: AuthState, email: string, password: string): (r: (AuthState, bool))
    ensures r.1 <==> FindCredentials(st.users, email, password).Some?
                     && st.users[FindCredentials(st.users, email, password).value].status == Active
    ensures r.1 ==> r.0 == AuthState(Some(st.users[FindCredentials(st.users, email, password).value]), st.users)
    ensures !r.1 ==> r.0 == st
  {
    match FindCredentials(st.users, email, password)
    case Some(i) => if st.users[i].status == Active then (AuthState(Some(st.users[i]), st.users), true) else (st, false)
    case None => (st, false)
  }

  /** `logout()`. */
  function Logout(st: AuthState): (r: AuthState)
    ensures r.user.None? && r.users == st.users
  {
    AuthState(None, st.users)
  }

  /** The account `signup` creates. */
  function NewUser(users: seq<User>, email: string, password: string, name: string, now: Timestamp): (u: User)
    ensures u.id == NextId('u', |users|) && u.email == email && u.password == password && u.name == name
    ensures u.role == Client && u.status == Active
    ensures u.createdAt == now
  {
    User(NextId('u', |users|), email, password, name, Client, Active, now)
  }

  /** `signup(email, password, name)`; `now` is the `new Date()` of the new
      account. */
  function Signup(st: AuthState, email: string, password: string, name: string, now: Timestamp): (r: (AuthState, bool))
    ensures r.1 <==> !EmailTaken(st.users, email)
    ensures !r.1 ==> r.0 == st
    ensures r.1 ==> r.0.users == st.users + [NewUser(st.users, email, password, name, now)]
    ensures r.1 ==> r.0.user == Some(NewUser(st.users, email, password, name, now))
  {
    if EmailTaken(st.users, email) then (st, false)
    else
      var u := NewUser(st.users, email, password, name, now);
      (AuthState(Some(u), st.users + [u]), true)
  }

  /** No two accounts share an email. */
  ghost predicate UniqueEmails(users: seq<User>) {
    forall i, j :: 0 <= i < j < |users| ==> users[i].email != users[j].email
  }

  /** `signup` keeps emails unique. */
  lemma SignupKeepsEmailsUnique(st: AuthState, email: string, password: string, name: string, now: Timestamp)
    requires UniqueEmails(st.users)
    ensures UniqueEmails(Signup(st, email, password, name, now).0.users)
  {
    var r := Signup(st, email, password, name, now);
    if r.1 {
      var us := r.0.users;
      forall i, j | 0 <= i < j < |us| ensures us[i].email != us[j].email {
        if j == |st.users| {
          assert us[i] == st.users[i];
        } else {
          assert us[i] == st.users[i] && us[j] == st.users[j];
        }
      }
    }
  }

  /** With unique emails, a just-created account can log in with the same
      credentials and becomes the current user again. */
  lemma SignupThenLogin(st: AuthState, email: string, password: string, name: string, now: Timestamp)
    requires UniqueEmails(st.users)
    requires Signup(st, email, password, name, now).1
    ensures Login(Logout(Signup(st, email, password, name, now).0), email, password).1
    ensures Login(Logout(Signup(st, email, password, name, now).0), email, password).0.user
      == Some(NewUser(st.users, email, password, name, now))
  {
    var s1 := Logout(Signup(st, email, password, name, now).0);
    var n := |st.users|;
    assert s1.users[n] == NewUser(st.users, email, password, name, now);
    assert !EmailTaken(st.users, email);
    assert forall i :: 0 <= i < n ==> s1.users[i] == st.users[i] && s1.users[i].email != email;
    assert FindCredentials(s1.users, email, password) == Some(n);
  }

  /** `isAdmin()`. */
  predicate IsAdmin(st: AuthState) {
    st.user.Some? && st.user.value.role == Admin
  }

  /** `isEmployee()`: employees and administrators. */
  predicate IsEmployee(st: AuthState) {
    st.user.Some? && (st.user.value.role == Employee || st.user.value.role == Admin)
  }

  /** `isClient()`. */
  predicate IsClient(st: AuthState) {
    st.user.Some? && st.user.value.role == Client
  }

  /** Every administrator counts as an employee; a logged-in user is either
      staff or a client, never both; a logged-out one is neither. */
  lemma RolesPartition(st: AuthState)
    ensures IsAdmin(st) ==> IsEmployee(st)
    ensures st.user.Some? ==> (IsEmployee(st) <==> !IsClient(st))
    ensures st.user.None? ==> !IsAdmin(st) && !IsEmployee(st) && !IsClient(st)
  {
  }
}

=== FILE: cart.dfy ===
/** `api/panier/panier.php`: the session cart endpoint. Every successful
    request answers with the recalculated cart (`calculerTotalPanier`), and
    that recalculation clamps each active product's quantity to its stock
    and writes the clamped quantities back into the session. */
module Cart {
  import opened Wrappers
  import opened Seqs
  import opened Text
  import opened Config
  import opened CartArray
  import opened SessionHelper

  /** A row of the `produits` table; prices are in cents. */
  datatype Product = Product(sku: string, nom: string, prixVente: nat, stock: int, active: bool, imageUrl: string)

  /** The `produits` table, by `produit_id`. */
  type Catalog = map<int, Product>

  /** The product exists and its `statut` is `'actif'`. */
  predicate Listed(catalog: Catalog, id: int) {
    id in catalog && catalog[id].active
  }

  /** One element of the `items` array of the recalculated cart. */
  datatype CartItem = CartItem(
    produitId: int,
    sku: string,
    nom: string,
    prixUnitaire: nat,
    quantite: int,
    stockDisponible: int,
    prixTotal: int,
    imageUrl: string)

  /** The array `calculerTotalPanier` returns. */
  datatype CartTotals = CartTotals(items: seq<CartItem>, sousTotal: int, tps: int, tvq: int, total: int, nbArticles: int)

  /** A requested quantity brought down to the stock when it exceeds it. */
  function Clamp(q: int, stock: int): (r: int)
    ensures r <= stock && r <= q
    ensures r == q || r == stock
    ensures q <= stock ==> r == q
  {
    if q > stock then stock else q
  }

  /** The item shown for a cart entry of an active product. */
  function MakeItem(e: Entry, p: Product): (it: CartItem)
    ensures it.produitId == e.id && it.nom == p.nom && it.sku == p.sku && it.imageUrl == p.imageUrl
    ensures it.prixUnitaire == p.prixVente && it.stockDisponible == p.stock
    ensures it.quantite == Clamp(e.quantite, p.stock) && it.prixTotal == it.prixUnitaire * it.quantite
  {
    var q := Clamp(e.quantite, p.stock);
    CartItem(e.id, p.sku, p.nom, p.prixVente, q, p.stock, p.prixVente * q, p.imageUrl)
  }

  /** The cart entries whose product is active, in cart order. */
  function ListedEntries(p: seq<Entry>, catalog: Catalog): (r: seq<Entry>)
    ensures forall k :: 0 <= k < |r| ==> r[k] in p && Listed(catalog, r[k].id)
  {
    if |p| == 0 then []
    else
      var rest := ListedEntries(p[1..], catalog);
      assert forall k :: 0 <= k < |rest| ==> rest[k] in p;
      (if Listed(catalog, p[0].id) then [p[0]] else []) + rest
  }

  function ItemTotal(it: CartItem): int {
    it.prixTotal
  }

  function ItemQuantity(it: CartItem): int {
    it.quantite
  }

  /** The items of the recalculated cart: one per entry whose product is
      active, in the order of the session array. Inactive and unknown ids
      contribute nothing. */
  function Lines(p: seq<Entry>, catalog: Catalog): (items: seq<CartItem>)
    ensures |items| <= |p|
    ensures forall it :: it in items ==> exists e :: e in p && Listed(catalog, e.id) && it == MakeItem(e, catalog[e.id])
    ensures forall e :: e in p && Listed(catalog, e.id) ==> MakeItem(e, catalog[e.id]) in items
    ensures forall k :: 0 <= k < |items| ==> items[k].quantite <= items[k].stockDisponible
    ensures var es := ListedEntries(p, catalog);
      |items| == |es| && forall k :: 0 <= k < |es| ==> items[k] == MakeItem(es[k], catalog[es[k].id])
  {
    if |p| == 0 then []
    else
      var rest := Lines(p[1..], catalog);
      assert forall e :: e in p ==> e == p[0] || e in p[1..];
      var head := if Listed(catalog, p[0].id) then [MakeItem(p[0], catalog[p[0].id])] else [];
      LinesStep(p, catalog, rest);
      head + rest
  }

  /** The first entry's item, if its product is active, in front of the
      items of the other entries: one item per active entry, in order. */
  lemma LinesStep(p: seq<Entry>, catalog: Catalog, rest: seq<CartItem>)
    requires |p| > 0
    requires var es := ListedEntries(p[1..], catalog);
      |rest| == |es| && forall k :: 0 <= k < |es| ==> rest[k] == MakeItem(es[k], catalog[es[k].id])
    ensures var es := ListedEntries(p, catalog);
      var items := (if Listed(catalog, p[0].id) then [MakeItem(p[0], catalog[p[0].id])] else []) + rest;
      |items| == |es| && forall k :: 0 <= k < |es| ==> items[k] == MakeItem(es[k], catalog[es[k].id])
  {
    var es1 := ListedEntries(p[1..], catalog);
    if Listed(catalog, p[0].id) {
      var es := [p[0]] + es1;
      assert ListedEntries(p, catalog) == es;
      var items := [MakeItem(p[0], catalog[p[0].id])] + rest;
      forall k | 0 <= k < |es| ensures items[k] == MakeItem(es[k], catalog[es[k].id]) {
        if k > 0 {
          assert items[k] == rest[k - 1] && es[k] == es1[k - 1];
        }
      }
    } else {
      assert ListedEntries(p, catalog) == [] + es1 == es1;
      assert [] + rest == rest;
    }
  }

  /** The session entry after the recalculation. */
  function ClampEntry(e: Entry, catalog: Catalog): Entry {
    if Listed(catalog, e.id) then Entry(e.id, Clamp(e.quantite, catalog[e.id].stock)) else e
  }

  /** The quantity stored for `k` once the recalculation has run. */
  function ClampedLookup(p: seq<Entry>, k: int, catalog: Catalog): Option<int> {
    if Lookup(p, k).Some? && Listed(catalog, k) then Some(Clamp(Lookup(p, k).value, catalog[k].stock)) else Lookup(p, k)
  }

  /** The session array after the recalculation: the same keys in the same
      order, each active product's quantity clamped to its stock, every
      other entry kept as it was. */
  function ClampAll(p: seq<Entry>, catalog: Catalog): (r: seq<Entry>)
    ensures |r| == |p|
    ensures forall i :: 0 <= i < |p| ==> r[i].id == p[i].id
    ensures forall k :: Lookup(r, k) == ClampedLookup(p, k, catalog)
    ensures forall i :: 0 <= i < |r| && Listed(catalog, r[i].id) ==> r[i].quantite <= catalog[r[i].id].stock
    ensures DistinctIds(p) ==> DistinctIds(r)
  {
    if |p| == 0 then []
    else
      var rest := ClampAll(p[1..], catalog);
      var e := ClampEntry(p[0], catalog);
      ClampStep(p, catalog, rest);
      assert forall i :: 1 <= i < |p| ==> ([e] + rest)[i] == rest[i - 1];
      [e] + rest
  }

  /** Clamping the first entry in front of the clamped rest. */
  lemma ClampStep(p: seq<Entry>, catalog: Catalog, rest: seq<Entry>)
    requires |p| > 0
    requires forall k :: Lookup(rest, k) == ClampedLookup(p[1..], k, catalog)
    requires DistinctIds(p[1..]) ==> DistinctIds(rest)
    ensures forall k :: Lookup([ClampEntry(p[0], catalog)] + rest, k) == ClampedLookup(p, k, catalog)
    ensures DistinctIds(p) ==> DistinctIds([ClampEntry(p[0], catalog)] + rest)
  {
    var e := ClampEntry(p[0], catalog);
    assert p == [p[0]] + p[1..];
    forall k ensures Lookup([e] + rest, k) == ClampedLookup(p, k, catalog) {
      LookupCons(e, rest, k);
      LookupCons(p[0], p[1..], k);
    }
    if DistinctIds(p) {
      assert forall i :: 0 <= i < |p[1..]| ==> p[1..][i].id != p[0].id;
      DistinctCons(e, rest);
    }
  }

  /** Every active product in the array is within its stock. */
  ghost predicate WithinStock(p: seq<Entry>, catalog: Catalog) {
    forall i :: 0 <= i < |p| && Listed(catalog, p[i].id) ==> p[i].quantite <= catalog[p[i].id].stock
  }

  /** What a recalculation returns and what it leaves in the session. */
  datatype Recalc = Recalc(totals: CartTotals, panier: seq<Entry>)

  /** `calculerTotalPanier()`: an empty cart answers all zeros; otherwise the
      amounts are `calculerTaxes` of the sum of the line totals and
      `nb_articles` is the sum of the clamped quantities. */
  function TotalsOf(p: seq<Entry>, catalog: Catalog): (r: Recalc)
    ensures |p| == 0 ==> r == Recalc(CartTotals([], 0, 0, 0, 0, 0), [])
    ensures r.totals.items == Lines(p, catalog)
    ensures r.totals.sousTotal == SumBy(r.totals.items, ItemTotal)
    ensures r.totals.nbArticles == SumBy(r.totals.items, ItemQuantity)
    ensures ComputeTaxes(r.totals.sousTotal) == Taxes(r.totals.sousTotal, r.totals.tps, r.totals.tvq, r.totals.total)
    ensures r.panier == ClampAll(p, catalog)
    ensures WithinStock(r.panier, catalog)
  {
    if |p| == 0 then Recalc(CartTotals([], 0, 0, 0, 0, 0), [])
    else
      var items := Lines(p, catalog);
      var taxes := ComputeTaxes(SumBy(items, ItemTotal));
      Recalc(CartTotals(items, taxes.sousTotal, taxes.tps, taxes.tvq, taxes.total, SumBy(items, ItemQuantity)),
             ClampAll(p, catalog))
  }

  // ---------------------------------------------------------------------
  // Properties of the recalculation.

  lemma ClampTwice(q: int, stock: int)
    ensures Clamp(Clamp(q, stock), stock) == Clamp(q, stock)
  {
  }

  /** Clamping an already clamped array changes nothing, and neither do its
      items. */
  lemma {:induction false} ClampAllStable(p: seq<Entry>, catalog: Catalog)
    ensures ClampAll(ClampAll(p, catalog), catalog) == ClampAll(p, catalog)
    ensures Lines(ClampAll(p, catalog), catalog) == Lines(p, catalog)
  {
    if |p| > 0 {
      var c := ClampAll(p, catalog);
      assert c[1..] == ClampAll(p[1..], catalog);
      ClampAllStable(p[1..], catalog);
      ClampTwice(p[0].quantite, if p[0].id in catalog then catalog[p[0].id].stock else 0);
    }
  }

  /** Recalculating twice is the same as recalculating once: the session
      left by a recalculation already answers the same totals. */
  lemma RecalcStable(p: seq<Entry>, catalog: Catalog)
    ensures TotalsOf(TotalsOf(p, catalog).panier, catalog) == TotalsOf(p, catalog)
  {
    ClampAllStable(p, catalog);
  }

  /** Removing an id whose product is not active changes no amount. */
  lemma {:induction false} LinesIgnoreUnlisted(p: seq<Entry>, id: int, catalog: Catalog)
    requires !Listed(catalog, id)
    ensures Lines(Unset(p, id), catalog) == Lines(p, catalog)
  {
    if |p| > 0 {
      LinesIgnoreUnlisted(p[1..], id, catalog);
      if p[0].id != id {
        assert ([p[0]] + Unset(p[1..], id))[1..] == Unset(p[1..], id);
      }
    }
  }

  lemma TotalsIgnoreUnlisted(p: seq<Entry>, id: int, catalog: Catalog)
    requires !Listed(catalog, id)
    ensures TotalsOf(Unset(p, id), catalog).totals == TotalsOf(p, catalog).totals
  {
    LinesIgnoreUnlisted(p, id, catalog);
  }

  lemma {:induction false} SumNonNegative(items: seq<CartItem>, f: CartItem -> int)
    requires forall k :: 0 <= k < |items| ==> f(items[k]) >= 0
    ensures SumBy(items, f) >= 0
  {
    if |items| > 0 {
      SumNonNegative(items[1..], f);
    }
  }

  /** With non-negative quantities and stocks, no amount is negative and the
      taxed total is at least the subtotal. */
  lemma TotalsNonNegative(p: seq<Entry>, catalog: Catalog)
    requires forall i :: 0 <= i < |p| ==> p[i].quantite >= 0
    requires forall id :: id in catalog ==> catalog[id].stock >= 0
    ensures TotalsOf(p, catalog).totals.sousTotal >= 0
    ensures TotalsOf(p, catalog).totals.nbArticles >= 0
    ensures TotalsOf(p, catalog).totals.total >= TotalsOf(p, catalog).totals.sousTotal
  {
    var items := Lines(p, catalog);
    forall k | 0 <= k < |items|
      ensures items[k].quantite >= 0 && items[k].prixTotal >= 0
    {
      var es := ListedEntries(p, catalog);
      assert es[k] in p;
    }
    SumNonNegative(items, ItemTotal);
    SumNonNegative(items, ItemQuantity);
  }

  /** Clamping and unsetting commute. */
  lemma {:induction false} UnsetClampAll(p: seq<Entry>, id: int, catalog: Catalog)
    ensures Unset(ClampAll(p, catalog), id) == ClampAll(Unset(p, id), catalog)
  {
    if |p| > 0 {
      var c := ClampAll(p, catalog);
      assert c[1..] == ClampAll(p[1..], catalog);
      UnsetClampAll(p[1..], id, catalog);
    }
  }

  // ---------------------------------------------------------------------
  // The request handlers.

  /** The status and body sent back, and the cart left in the session. */
  datatype Outcome = Outcome(reply: Reply<CartTotals>, panier: seq<Entry>)

  /** `successResponse(['panier' => calculerTotalPanier()], $message)`. */
  function Respond(p: seq<Entry>, catalog: Catalog, message: Option<string>): (o: Outcome)
    ensures o.reply.code == 200 && o.reply.body.SuccessBody?
    ensures o.reply.body.data == Some(TotalsOf(p, catalog).totals)
    ensures o.panier == ClampAll(p, catalog) && WithinStock(o.panier, catalog)
  {
    var r := TotalsOf(p, catalog);
    Outcome(SuccessResponse(Some(r.totals), message), r.panier)
  }

  /** `errorResponse(...)`: the session cart is left as it was. */
  function Reject(p: seq<Entry>, message: string, code: Option<int>): (o: Outcome)
    ensures o.reply.code != 200 <==> code != Some(200)
    ensures o.panier == p
  {
    Outcome(ErrorResponse(message, code), p)
  }

  /** The text of the stock error; `None` is the `null` that `$produit['stock']`
      reads when the product row was not found. */
  function StockMessage(stock: Option<int>): string {
    "Stock insuffisant. Stock disponible: " + if stock.Some? then IntToString(stock.value) else ""
  }

  /** The quantity a POST asks for: what the cart holds (0 when absent)
      plus `quantite` (1 when the field is not set). Nothing requires the
      added amount to be positive. */
  function Requested(p: seq<Entry>, id: int, quantite: Option<int>): int {
    Lookup(p, id).GetOr(0) + quantite.GetOr(1)
  }

  /** POST: add `quantite` of a product. `produitId` is `None` when
      `empty($input['produit_id'])` holds and the `intval` of the field
      otherwise. */
  function AddItem(p: seq<Entry>, produitId: Option<int>, quantite: Option<int>, catalog: Catalog): (o: Outcome)
    ensures produitId.None? ==> o == Reject(p, "produit_id requis", None)
    ensures produitId.Some? && !Listed(catalog, produitId.value) ==> o == Reject(p, "Produit non trouvé", Some(404))
    ensures produitId.Some? && Listed(catalog, produitId.value)
      && Requested(p, produitId.value, quantite) > catalog[produitId.value].stock
      ==> o == Reject(p, StockMessage(Some(catalog[produitId.value].stock)), None)
    ensures o.reply.code == 200 <==>
      produitId.Some? && Listed(catalog, produitId.value)
      && Requested(p, produitId.value, quantite) <= catalog[produitId.value].stock
    ensures o.reply.code != 200 ==> o.panier == p
    ensures o.reply.code == 200 ==>
      && o == Respond(Assign(p, produitId.value, Requested(p, produitId.value, quantite)), catalog, Some("Produit ajouté au panier"))
      && Lookup(o.panier, produitId.value) == Some(Requested(p, produitId.value, quantite))
  {
    if produitId.None? then Reject(p, "produit_id requis", None)
    else
      var id := produitId.value;
      if !Listed(catalog, id) then Reject(p, "Produit non trouvé", Some(404))
      else
        var n := Requested(p, id, quantite);
        if n > catalog[id].stock then Reject(p, StockMessage(Some(catalog[id].stock)), None)
        else Respond(Assign(p, id, n), catalog, Some("Produit ajouté au panier"))
  }

  /** PUT: set the quantity of a product already in the cart. The stock is
      read without the `statut` filter, so an inactive product can be
      updated; when the row is missing, PHP compares the quantity (at least
      1, hence truthy) with `null` and the stock error is sent. */
  function UpdateItem(p: seq<Entry>, produitId: Option<int>, quantite: Option<int>, catalog: Catalog): (o: Outcome)
    ensures produitId.None? || quantite.None? ==> o == Reject(p, "produit_id et quantite requis", None)
    ensures produitId.Some? && quantite.Some? && quantite.value < 1
      ==> o == Reject(p, "La quantité doit être au moins 1", None)
    ensures produitId.Some? && quantite.Some? && quantite.value >= 1 && Lookup(p, produitId.value).None?
      ==> o == Reject(p, "Produit non trouvé dans le panier", Some(404))
    ensures produitId.Some? && quantite.Some? && quantite.value >= 1 && Lookup(p, produitId.value).Some?
      && produitId.value !in catalog
      ==> o == Reject(p, StockMessage(None), None)
    ensures produitId.Some? && quantite.Some? && Lookup(p, produitId.value).Some?
      && produitId.value in catalog && 1 <= quantite.value && catalog[produitId.value].stock < quantite.value
      ==> o == Reject(p, StockMessage(Some(catalog[produitId.value].stock)), None)
    ensures o.reply.code == 200 <==>
      produitId.Some? && quantite.Some? && 1 <= quantite.value
      && Lookup(p, produitId.value).Some? && produitId.value in catalog
      && quantite.value <= catalog[produitId.value].stock
    ensures o.reply.code != 200 ==> o.panier == p
    ensures o.reply.code == 200 ==>
      && o == Respond(Assign(p, produitId.value, quantite.value), catalog, Some("Quantité mise à jour"))
      && Lookup(o.panier, produitId.value) == quantite
  {
    if produitId.None? || quantite.None? then Reject(p, "produit_id et quantite requis", None)
    else
      var id := produitId.value;
      var q := quantite.value;
      if q < 1 then Reject(p, "La quantité doit être au moins 1", None)
      else if Lookup(p, id).None? then Reject(p, "Produit non trouvé dans le panier", Some(404))
      else if id !in catalog then Reject(p, StockMessage(None), None)
      else if q > catalog[id].stock then Reject(p, StockMessage(Some(catalog[id].stock)), None)
      else Respond(Assign(p, id, q), catalog, Some("Quantité mise à jour"))
  }

  /** DELETE: remove a product from the cart; `produitId` is `None` when
      `empty($_GET['produit_id'])` holds. */
  function RemoveItem(p: seq<Entry>, produitId: Option<int>, catalog: Catalog): (o: Outcome)
    ensures produitId.None? ==> o == Reject(p, "produit_id requis", None)
    ensures produitId.Some? && Lookup(p, produitId.value).None?
      ==> o == Reject(p, "Produit non trouvé dans le panier", Some(404))
    ensures o.reply.code == 200 <==> produitId.Some? && Lookup(p, produitId.value).Some?
    ensures o.reply.code != 200 ==> o.panier == p
    ensures o.reply.code == 200 ==>
      && o == Respond(Unset(p, produitId.value), catalog, Some("Produit retiré du panier"))
      && Lookup(o.panier, produitId.value).None?
      && forall k :: k != produitId.value ==> (Lookup(o.panier, k).Some? <==> Lookup(p, k).Some?)
  {
    if produitId.None? then Reject(p, "produit_id requis", None)
    else if Lookup(p, produitId.value).None? then Reject(p, "Produit non trouvé dans le panier", Some(404))
    else Respond(Unset(p, produitId.value), catalog, Some("Produit retiré du panier"))
  }

  /** The HTTP method and the fields the handler reads from the request.
      An OPTIONS request never reaches the handler: the shared configuration
      answers it with 200 and stops, so `OtherMethod` stands for the
      methods other than GET, POST, PUT, DELETE and OPTIONS. */
  datatype Request =
    | GetCart
    | PostItem(produitId: Option<int>, quantite: Option<int>)
    | PutItem(produitId: Option<int>, quantite: Option<int>)
    | DeleteItem(produitId: Option<int>)
    | OtherMethod

  /** The whole endpoint: a missing session cart starts empty, then the
      method is dispatched; any other method is refused with 405. */
  function HandleCart(req: Request, panier: Option<seq<Entry>>, catalog: Catalog): (o: Outcome)
    ensures req.OtherMethod? ==> o == Outcome(ErrorResponse("Méthode non autorisée", Some(405)), panier.GetOr([]))
    ensures req.GetCart? ==> o == Respond(panier.GetOr([]), catalog, None) && o.reply.body.message.None?
    ensures o.reply.code != 200 ==> o.panier == panier.GetOr([])
    ensures o.reply.code == 200 ==> WithinStock(o.panier, catalog)
    ensures DistinctIds(panier.GetOr([])) ==> DistinctIds(o.panier)
  {
    var p := panier.GetOr([]);
    match req
    case GetCart => Respond(p, catalog, None)
    case PostItem(id, q) => AddItem(p, id, q, catalog)
    case PutItem(id, q) => UpdateItem(p, id, q, catalog)
    case DeleteItem(id) => RemoveItem(p, id, catalog)
    case OtherMethod => Outcome(ErrorResponse("Méthode non autorisée", Some(405)), p)
  }

  // ---------------------------------------------------------------------
  // Properties of the handlers.

  /** Deleting a product right after adding it leaves the cart as if it had
      only been deleted (and recalculated). */
  lemma AddThenRemove(p: seq<Entry>, id: int, quantite: Option<int>, catalog: Catalog)
    requires Listed(catalog, id) && Requested(p, id, quantite) <= catalog[id].stock
    ensures RemoveItem(AddItem(p, Some(id), quantite, catalog).panier, Some(id), catalog).reply.code == 200
    ensures RemoveItem(AddItem(p, Some(id), quantite, catalog).panier, Some(id), catalog).panier
      == ClampAll(Unset(p, id), catalog)
  {
    var added := Assign(p, id, Requested(p, id, quantite));
    var c := ClampAll(added, catalog);
    UnsetClampAll(added, id, catalog);
    UnsetAssign(p, id, Requested(p, id, quantite));
    ClampAllStable(Unset(p, id), catalog);
  }

  /** Answering a GET right after a successful change returns the totals the
      change already answered, and leaves the session as it was. */
  lemma GetAfterChange(req: Request, panier: Option<seq<Entry>>, catalog: Catalog)
    requires HandleCart(req, panier, catalog).reply.code == 200
    ensures HandleCart(GetCart, Some(HandleCart(req, panier, catalog).panier), catalog).panier
      == HandleCart(req, panier, catalog).panier
    ensures HandleCart(GetCart, Some(HandleCart(req, panier, catalog).panier), catalog).reply.body.data
      == HandleCart(req, panier, catalog).reply.body.data
  {
    var p := panier.GetOr([]);
    match req
    case GetCart => RecalcStable(p, catalog);
    case PostItem(id, q) => RecalcStable(Assign(p, id.value, Requested(p, id.value, q)), catalog);
    case PutItem(id, q) => RecalcStable(Assign(p, id.value, q.value), catalog);
    case DeleteItem(id) => RecalcStable(Unset(p, id.value), catalog);
  }

  /** POST accepts a non-positive `quantite`: removing one unit of a product
      held once leaves an entry of quantity 0 in the cart. */
  lemma AddAcceptsNonPositive(pr: Product)
    requires pr.active && pr.stock >= 1
    ensures AddItem([Entry(7, 1)], Some(7), Some(-1), map[7 := pr]).reply.code == 200
    ensures Lookup(AddItem([Entry(7, 1)], Some(7), Some(-1), map[7 := pr]).panier, 7) == Some(0)
  {
    assert Requested([Entry(7, 1)], 7, Some(-1)) == 0;
  }
}

=== FILE: cart_array.dfy ===
/** The session cart as PHP stores it in `$_SESSION['panier']`: an ordered
    array from product id to requested quantity. Assigning to an existing
    key keeps its position, assigning to a new key appends, and `unset`
    removes the key. */
module CartArray {
  import opened Wrappers

  datatype Entry = Entry(id: int, quantite: int)

  /** A PHP array never holds the same key twice. */
  ghost predicate DistinctIds(p: seq<Entry>) {
    forall i, j :: 0 <= i < j < |p| ==> p[i].id != p[j].id
  }

  /** `isset($panier[$id]) ? $panier[$id] : null`. */
  function Lookup(p: seq<Entry>, id: int): (r: Option<int>)
    ensures r.None? <==> forall i :: 0 <= i < |p| ==> p[i].id != id
    ensures r.Some? ==> exists i :: 0 <= i < |p| && p[i] == Entry(id, r.value)
  {
    if |p| == 0 then None
    else if p[0].id == id then Some(p[0].quantite)
    else
      var r := Lookup(p[1..], id);
      assert r.Some? ==> exists i :: 1 <= i < |p| && p[i] == Entry(id, r.value) by {
        if r.Some? {
          var k :| 0 <= k < |p[1..]| && p[1..][k] == Entry(id, r.value);
          assert p[k + 1] == Entry(id, r.value);
        }
      }
      r
  }

  /** In an array, the lookup of an entry's key finds that entry. */
  lemma {:induction false} LookupAt(p: seq<Entry>, i: int)
    requires DistinctIds(p) && 0 <= i < |p|
    ensures Lookup(p, p[i].id) == Some(p[i].quantite)
  {
    if i > 0 {
      LookupAt(p[1..], i - 1);
    }
  }

  /** Looking up in an array with `x` in front. */
  lemma LookupCons(x: Entry, rest: seq<Entry>, k: int)
    ensures Lookup([x] + rest, k) == if x.id == k then Some(x.quantite) else Lookup(rest, k)
  {
    assert ([x] + rest)[1..] == rest;
  }

  /** A key absent from an array can be put in front of it. */
  lemma DistinctCons(x: Entry, rest: seq<Entry>)
    requires DistinctIds(rest) && Lookup(rest, x.id).None?
    ensures DistinctIds([x] + rest)
  {
    var r := [x] + rest;
    forall i, j | 0 <= i < j < |r| ensures r[i].id != r[j].id {
      assert r[j] == rest[j - 1];
      if i > 0 {
        assert r[i] == rest[i - 1];
      }
    }
  }

  /** Overwrites the value of every entry with key `id`. */
  function Replace(p: seq<Entry>, id: int, q: int): (r: seq<Entry>)
    ensures |r| == |p| && forall i :: 0 <= i < |p| ==> r[i].id == p[i].id
    ensures Lookup(r, id) == if Lookup(p, id).Some? then Some(q) else None
    ensures forall k :: k != id ==> Lookup(r, k) == Lookup(p, k)
  {
    if |p| == 0 then []
    else
      var rest := Replace(p[1..], id, q);
      var x := if p[0].id == id then Entry(id, q) else p[0];
      LookupCons(x, rest, id);
      assert forall k :: k != id ==> Lookup([x] + rest, k) == Lookup(p, k) by {
        forall k | k != id ensures Lookup([x] + rest, k) == Lookup(p, k) {
          LookupCons(x, rest, k);
        }
      }
      [x] + rest
  }

  /** Looking up in an array with `e` appended. */
  lemma {:induction false} LookupAppend(p: seq<Entry>, e: Entry, k: int)
    ensures Lookup(p + [e], k) == if Lookup(p, k).Some? then Lookup(p, k) else if e.id == k then Some(e.quantite) else None
  {
    if |p| > 0 {
      LookupAppend(p[1..], e, k);
      assert (p + [e])[1..] == p[1..] + [e];
    }
  }

  /** `$panier[$id] = $q`. */
  function Assign(p: seq<Entry>, id: int, q: int): (r: seq<Entry>)
    ensures Lookup(r, id) == Some(q)
    ensures forall k :: k != id ==> Lookup(r, k) == Lookup(p, k)
    ensures Lookup(p, id).None? ==> r == p + [Entry(id, q)]
    ensures Lookup(p, id).Some? ==> |r| == |p| && forall i :: 0 <= i < |p| ==> r[i].id == p[i].id
    ensures DistinctIds(p) ==> DistinctIds(r)
  {
    if Lookup(p, id).Some? then Replace(p, id, q)
    else
      var r := p + [Entry(id, q)];
      LookupAppend(p, Entry(id, q), id);
      assert forall k :: k != id ==> Lookup(r, k) == Lookup(p, k) by {
        forall k | k != id ensures Lookup(r, k) == Lookup(p, k) {
          LookupAppend(p, Entry(id, q), k);
        }
      }
      r
  }

  /** `unset($panier[$id])`. */
  function Unset(p: seq<Entry>, id: int): (r: seq<Entry>)
    ensures Lookup(r, id).None?
    ensures forall k :: k != id ==> Lookup(r, k) == Lookup(p, k)
    ensures Lookup(p, id).None? ==> r == p
    ensures |r| <= |p|
    ensures DistinctIds(p) ==> DistinctIds(r)
    ensures forall i :: 0 <= i < |r| ==> r[i] in p
  {
    if |p| == 0 then []
    else if p[0].id == id then Unset(p[1..], id)
    else
      var rest := Unset(p[1..], id);
      UnsetStep(p, id, rest);
      [p[0]] + rest
  }

  /** Keeping a first entry whose key is not removed. */
  lemma UnsetStep(p: seq<Entry>, id: int, rest: seq<Entry>)
    requires |p| > 0 && p[0].id != id
    requires Lookup(rest, id).None?
    requires forall k :: k != id ==> Lookup(rest, k) == Lookup(p[1..], k)
    requires Lookup(p[1..], id).None? ==> rest == p[1..]
    requires DistinctIds(p[1..]) ==> DistinctIds(rest)
    ensures Lookup([p[0]] + rest, id).None?
    ensures forall k :: k != id ==> Lookup([p[0]] + rest, k) == Lookup(p, k)
    ensures Lookup(p, id).None? ==> [p[0]] + rest == p
    ensures DistinctIds(p) ==> DistinctIds([p[0]] + rest)
  {
    LookupCons(p[0], rest, id);
    forall k | k != id ensures Lookup([p[0]] + rest, k) == Lookup(p, k) {
      LookupCons(p[0], rest, k);
    }
    if DistinctIds(p) {
      assert Lookup(p[1..], p[0].id).None?;
      DistinctCons(p[0], rest);
    }
    if Lookup(p, id).None? {
      assert [p[0]] + p[1..] == p;
    }
  }

  /** Removing a key drops whatever `Replace` wrote under it. */
  lemma {:induction false} UnsetReplace(p: seq<Entry>, id: int, q: int)
    ensures Unset(Replace(p, id, q), id) == Unset(p, id)
  {
    if |p| > 0 {
      UnsetReplace(p[1..], id, q);
      var x := if p[0].id == id then Entry(id, q) else p[0];
      assert Replace(p, id, q) == [x] + Replace(p[1..], id, q);
      assert ([x] + Replace(p[1..], id, q))[1..] == Replace(p[1..], id, q);
    }
  }

  /** Removing a key drops an entry appended under it. */
  lemma {:induction false} UnsetAppend(p: seq<Entry>, id: int, q: int)
    ensures Unset(p + [Entry(id, q)], id) == Unset(p, id)
  {
    if |p| == 0 {
      assert Unset([Entry(id, q)], id) == Unset([], id);
    } else {
      UnsetAppend(p[1..], id, q);
      assert (p + [Entry(id, q)])[1..] == p[1..] + [Entry(id, q)];
    }
  }

  /** Removing a key undoes assigning it: the array is as if the key had
      only been removed. */
  lemma UnsetAssign(p: seq<Entry>, id: int, q: int)
    ensures Unset(Assign(p, id, q), id) == Unset(p, id)
  {
    if Lookup(p, id).Some? {
      UnsetReplace(p, id, q);
    } else {
      UnsetAppend(p, id, q);
    }
  }

  /** `Replace` under an absent key changes nothing. */
  lemma {:induction false} ReplaceAbsent(p: seq<Entry>, id: int, q: int)
    requires Lookup(p, id).None?
    ensures Replace(p, id, q) == p
  {
    if |p| > 0 {
      ReplaceAbsent(p[1..], id, q);
    }
  }

  /** Assigning the value a key already holds leaves the array as it was. */
  lemma {:induction false} AssignSame(p: seq<Entry>, id: int)
    requires DistinctIds(p) && Lookup(p, id).Some?
    ensures Assign(p, id, Lookup(p, id).value) == p
  {
    var q := Lookup(p, id).value;
    if p[0].id == id {
      assert Lookup(p[1..], id).None?;
      ReplaceAbsent(p[1..], id, q);
    } else {
      assert DistinctIds(p[1..]);
      AssignSame(p[1..], id);
    }
  }
}

=== FILE: checkout.dfy ===
/** `api/panier/valider.php`: turns the session cart of a logged-in client
    into a sale (`ventes`), its lines (`lignes_vente`), an invoice
    (`factures`) and an interaction record, then empties the cart. The
    database is represented by the catalog it reads and the records it
    would insert; identifiers the database assigns are parameters. */
module Checkout {
  import opened Wrappers
  import opened Seqs
  import opened Text
  import opened Config
  import opened CartArray
  import opened SessionHelper
  import opened Cart

  // ---------------------------------------------------------------------
  // PHP's rendering of the taxed total inside a string.

  /** The digits after the point of `frac` cents: one digit when the
      second one would be a trailing zero. */
  function FracDigits(frac: nat): (r: string)
    requires 0 < frac < 100
    ensures 1 <= |r| <= 2 && AllDigits(r) && r[|r| - 1] != '0'
  {
    if frac % 10 == 0 then [DigitChar(frac / 10)] else TwoDigits(frac)
  }

  /** The rendering of a non-negative amount of `units` and `frac` cents:
      no point for a whole amount, and never a trailing zero after one. */
  function UnsignedText(units: nat, frac: nat): (r: string)
    requires frac < 100
    ensures |r| >= 1 && IsDigit(r[0])
    ensures frac == 0 ==> AllDigits(r)
    ensures frac != 0 ==> r[|r| - 1] != '0'
  {
    var whole := NatToString(units);
    if frac == 0 then whole else whole + "." + FracDigits(frac)
  }

  /** A float holding `cents / 100`, converted to a string by PHP. */
  function FloatText(cents: int): (r: string)
    ensures |r| >= 1
    ensures r[0] == '-' <==> cents < 0
  {
    var m := if cents < 0 then -cents else cents;
    (if cents < 0 then "-" else "") + UnsignedText(m / 100, m % 100)
  }

  /** The value of the fractional digits after the point, in cents. */
  function FractionCents(f: string): Option<nat> {
    if |f| == 1 && IsDigit(f[0]) && f[0] != '0' then Some(DigitValue(f[0]) * 10)
    else if |f| == 2 && AllDigits(f) && f[1] != '0' then Some(ParseDigits(f))
    else None
  }

  /** Reads an unsigned rendering back into cents. */
  function ParseUnsigned(s: string): Option<nat> {
    match IndexOf(s, '.')
    case None => if |s| == 0 || !AllDigits(s) then None else Some(ParseDigits(s) * 100)
    case Some(k) =>
      var units := s[..k];
      if |units| == 0 || !AllDigits(units) then None
      else match FractionCents(s[k + 1..])
        case None => None
        case Some(f) => Some(ParseDigits(units) * 100 + f)
  }

  /** Reads a rendering back into cents. */
  function ParseFloatText(s: string): Option<int> {
    if |s| > 0 && s[0] == '-' then
      match ParseUnsigned(s[1..])
      case None => None
      case Some(v) => if v == 0 then None else Some(-(v as int))
    else
      match ParseUnsigned(s)
      case None => None
      case Some(v) => Some(v)
  }

  /** Digits without a point read as whole units. */
  lemma ParseWhole(units: string)
    requires |units| >= 1 && AllDigits(units)
    ensures ParseUnsigned(units) == Some(ParseDigits(units) * 100)
  {
    assert forall i :: 0 <= i < |units| ==> units[i] != '.' by {
      assert forall i :: 0 <= i < |units| ==> IsDigit(units[i]);
    }
  }

  /** Digits, a point and a valid fraction read as units and cents. */
  lemma ParsePoint(units: string, frac: string, f: nat)
    requires |units| >= 1 && AllDigits(units) && FractionCents(frac) == Some(f)
    ensures ParseUnsigned(units + "." + frac) == Some(ParseDigits(units) * 100 + f)
  {
    SeparatorAfterDigits(units, '.', frac);
  }

  /** The fractional digits of a rendering read back as the cents. */
  lemma FractionRoundTrip(frac: nat)
    requires 0 < frac < 100
    ensures FractionCents(FracDigits(frac)) == Some(frac)
  {
    if frac % 10 == 0 {
      DigitRoundTrip(frac / 10);
    } else {
      var t := TwoDigits(frac);
      assert DigitValue(t[1]) == frac % 10;
    }
  }

  lemma UnsignedRoundTrip(units: nat, frac: nat)
    requires frac < 100
    ensures ParseUnsigned(UnsignedText(units, frac)) == Some(units * 100 + frac)
  {
    var whole := NatToString(units);
    ParseNatToString(units);
    if frac == 0 {
      ParseWhole(whole);
    } else {
      FractionRoundTrip(frac);
      ParsePoint(whole, FracDigits(frac), frac);
    }
  }

  /** The text of a non-negative amount reads back as that amount. */
  lemma UnsignedTextRoundTrip(m: nat)
    ensures ParseUnsigned(UnsignedText(m / 100, m % 100)) == Some(m)
  {
    UnsignedRoundTrip(m / 100, m % 100);
    DivModHundred(m);
  }

  lemma DivModHundred(m: nat)
    ensures m / 100 * 100 + m % 100 == m
  {
  }

  lemma NonNegativeShape(cents: nat)
    ensures FloatText(cents) == UnsignedText(cents / 100, cents % 100)
  {
  }

  lemma NegativeShape(m: nat)
    requires m > 0
    ensures |FloatText(-(m as int))| > 1 && FloatText(-(m as int))[0] == '-'
    ensures FloatText(-(m as int))[1..] == UnsignedText(m / 100, m % 100)
  {
    var u := UnsignedText(m / 100, m % 100);
    assert FloatText(-(m as int)) == "-" + u;
    assert ("-" + u)[1..] == u;
  }

  /** Reading a text without a leading minus is reading it unsigned. */
  lemma ParsePositive(s: string, v: nat)
    requires |s| > 0 && s[0] != '-' && ParseUnsigned(s) == Some(v)
    ensures ParseFloatText(s) == Some(v)
  {
  }

  /** Reading a minus sign before a non-zero unsigned text negates it. */
  lemma ParseNegative(t: string, v: nat)
    requires |t| > 0 && t[0] == '-' && v > 0 && ParseUnsigned(t[1..]) == Some(v)
    ensures ParseFloatText(t) == Some(-(v as int))
  {
  }

  lemma NegativeRoundTrip(m: nat)
    requires m > 0
    ensures ParseFloatText(FloatText(-(m as int))) == Some(-(m as int))
  {
    NegativeShape(m);
    UnsignedTextRoundTrip(m);
    ParseNegative(FloatText(-(m as int)), m);
  }

  lemma NonNegativeRoundTrip(cents: nat)
    ensures ParseFloatText(FloatText(cents)) == Some(cents)
  {
    NonNegativeShape(cents);
    UnsignedTextRoundTrip(cents);
    ParsePositive(UnsignedText(cents / 100, cents % 100), cents);
  }

  /** The rendered total determines the amount. */
  lemma FloatTextRoundTrip(cents: int)
    ensures ParseFloatText(FloatText(cents)) == Some(cents)
  {
    if cents < 0 {
      NegativeRoundTrip(-cents);
    } else {
      NonNegativeRoundTrip(cents);
    }
  }

  // ---------------------------------------------------------------------
  // The records a successful checkout inserts.

  /** A row of `ventes`. */
  datatype Vente = Vente(clientId: int, sousTotal: int, tps: int, tvq: int, total: int, statut: string)

  /** A row of `lignes_vente`. */
  datatype LigneVente = LigneVente(venteId: nat, produitId: int, quantite: int, prixUnitaire: nat, sousTotal: int)

  /** A row of `factures`; the date is the server's current date. */
  datatype Facture = Facture(venteId: nat, numeroFacture: string, total: int, statut: string)

  /** A row of `interactions`. */
  datatype Interaction = Interaction(clientId: int, typeInteraction: string, description: string)

  /** Everything one checkout writes. The catalog is only read: nothing
      here updates a product, so stock levels are untouched. */
  datatype Order = Order(vente: Vente, lignes: seq<LigneVente>, facture: Facture, interaction: Interaction)

  /** The `data` of the success reply. */
  datatype Receipt = Receipt(venteId: nat, factureId: nat, numeroFacture: string, total: int, details: Taxes)

  /** The reply, the session cart afterwards, and the rows written. */
  datatype Result = Result(reply: Reply<Receipt>, panier: Option<seq<Entry>>, order: Option<Order>)

  // ---------------------------------------------------------------------
  // Order lines.

  /** The line of a cart entry whose product is active: the requested
      quantity is taken as it is, without clamping. */
  function LineOf(venteId: nat, e: Entry, pr: Product): (l: LigneVente)
    ensures l.venteId == venteId && l.produitId == e.id && l.quantite == e.quantite
    ensures l.prixUnitaire == pr.prixVente && l.sousTotal == pr.prixVente * e.quantite
  {
    LigneVente(venteId, e.id, e.quantite, pr.prixVente, pr.prixVente * e.quantite)
  }

  function LineTotal(l: LigneVente): int {
    l.sousTotal
  }

  /** The loop over the active products: either the first one whose
      requested quantity exceeds its stock, or every line. */
  datatype LineScan = Short(nom: string, stock: int) | Built(lines: seq<LigneVente>)

  /** An entry of an active product asking for more than its stock. */
  predicate OverStock(catalog: Catalog, e: Entry) {
    Listed(catalog, e.id) && e.quantite > catalog[e.id].stock
  }

  /** `r` names the first over-stock entry of `p`, in cart order. */
  ghost predicate ShortAtFirst(p: seq<Entry>, catalog: Catalog, r: LineScan) {
    exists i :: 0 <= i < |p| && OverStock(catalog, p[i]) && (forall j :: 0 <= j < i ==> !OverStock(catalog, p[j]))
      && r == Short(catalog[p[i].id].nom, catalog[p[i].id].stock)
  }

  /** Skipping a first entry that is within stock keeps the first
      over-stock entry first. */
  lemma ShortAtFirstCons(p: seq<Entry>, catalog: Catalog, r: LineScan)
    requires |p| > 0 && !OverStock(catalog, p[0])
    requires ShortAtFirst(p[1..], catalog, r)
    ensures ShortAtFirst(p, catalog, r)
  {
    var i :| 0 <= i < |p[1..]| && OverStock(catalog, p[1..][i]) && (forall j :: 0 <= j < i ==> !OverStock(catalog, p[1..][j]))
      && r == Short(catalog[p[1..][i].id].nom, catalog[p[1..][i].id].stock);
    assert p[i + 1] == p[1..][i];
    forall j | 0 <= j < i + 1 ensures !OverStock(catalog, p[j]) {
      if j > 0 { assert p[j] == p[1..][j - 1]; }
    }
  }

  function BuildLines(venteId: nat, p: seq<Entry>, catalog: Catalog): (r: LineScan)
    ensures r.Built? <==> WithinStock(p, catalog)
    ensures r.Short? ==>
      exists e :: e in p && Listed(catalog, e.id) && e.quantite > catalog[e.id].stock && r == Short(catalog[e.id].nom, catalog[e.id].stock)
    ensures r.Short? ==> ShortAtFirst(p, catalog, r)
    ensures r.Built? ==> |r.lines| <= |p|
    ensures r.Built? ==> forall l :: l in r.lines ==>
      exists e :: e in p && Listed(catalog, e.id) && l == LineOf(venteId, e, catalog[e.id])
    ensures r.Built? ==> forall e :: e in p && Listed(catalog, e.id) ==> LineOf(venteId, e, catalog[e.id]) in r.lines
    ensures r.Built? ==> var es := ListedEntries(p, catalog);
      |r.lines| == |es| && forall k :: 0 <= k < |es| ==> r.lines[k] == LineOf(venteId, es[k], catalog[es[k].id])
  {
    if |p| == 0 then Built([])
    else
      var e := p[0];
      assert forall x :: x in p ==> x == e || x in p[1..];
      assert WithinStock(p, catalog) <==>
        (Listed(catalog, e.id) ==> e.quantite <= catalog[e.id].stock) && WithinStock(p[1..], catalog) by {
        assert forall i :: 1 <= i < |p| ==> p[i] == p[1..][i - 1];
      }
      if Listed(catalog, e.id) && e.quantite > catalog[e.id].stock then
        assert ShortAtFirst(p, catalog, Short(catalog[e.id].nom, catalog[e.id].stock)) by {
          assert OverStock(catalog, p[0]);
        }
        Short(catalog[e.id].nom, catalog[e.id].stock)
      else
        match BuildLines(venteId, p[1..], catalog)
        case Short(nom, stock) =>
          ShortAtFirstCons(p, catalog, Short(nom, stock));
          Short(nom, stock)
        case Built(rest) =>
          BuildStep(venteId, p, catalog, rest);
          Built((if Listed(catalog, e.id) then [LineOf(venteId, e, catalog[e.id])] else []) + rest)
  }

  /** The first entry's line, if its product is active, in front of the
      lines of the other entries: one line per active entry, in order. */
  lemma BuildStep(venteId: nat, p: seq<Entry>, catalog: Catalog, rest: seq<LigneVente>)
    requires |p| > 0
    requires var es := ListedEntries(p[1..], catalog);
      |rest| == |es| && forall k :: 0 <= k < |es| ==> rest[k] == LineOf(venteId, es[k], catalog[es[k].id])
    ensures var es := ListedEntries(p, catalog);
      var lines := (if Listed(catalog, p[0].id) then [LineOf(venteId, p[0], catalog[p[0].id])] else []) + rest;
      |lines| == |es| && forall k :: 0 <= k < |es| ==> lines[k] == LineOf(venteId, es[k], catalog[es[k].id])
  {
    if Listed(catalog, p[0].id) {
      PrependLine(venteId, p[0], ListedEntries(p[1..], catalog), catalog, rest);
      assert ListedEntries(p, catalog) == [p[0]] + ListedEntries(p[1..], catalog);
    } else {
      assert ListedEntries(p, catalog) == [] + ListedEntries(p[1..], catalog);
      assert [] + rest == rest;
    }
  }

  /** The line of one more active entry goes in front. */
  lemma PrependLine(venteId: nat, e: Entry, es1: seq<Entry>, catalog: Catalog, rest: seq<LigneVente>)
    requires Listed(catalog, e.id)
    requires forall k :: 0 <= k < |es1| ==> es1[k].id in catalog
    requires |rest| == |es1| && forall k :: 0 <= k < |es1| ==> rest[k] == LineOf(venteId, es1[k], catalog[es1[k].id])
    ensures var es := [e] + es1;
      var lines := [LineOf(venteId, e, catalog[e.id])] + rest;
      |lines| == |es| && forall k :: 0 <= k < |es| ==> es[k].id in catalog && lines[k] == LineOf(venteId, es[k], catalog[es[k].id])
  {
    var es := [e] + es1;
    var lines := [LineOf(venteId, e, catalog[e.id])] + rest;
    forall k | 0 <= k < |es| ensures es[k].id in catalog && lines[k] == LineOf(venteId, es[k], catalog[es[k].id]) {
      if k > 0 {
        assert lines[k] == rest[k - 1] && es[k] == es1[k - 1];
      }
    }
  }

  /** When every active product is within its stock, the checkout's lines
      are the cart page's items: same products, quantities and line totals,
      so the same subtotal. */
  lemma {:induction false} LinesMatchCartItems(venteId: nat, p: seq<Entry>, catalog: Catalog)
    requires WithinStock(p, catalog)
    ensures SumBy(BuildLines(venteId, p, catalog).lines, LineTotal) == SumBy(Lines(p, catalog), ItemTotal)
  {
    if |p| > 0 {
      BuildLinesCons(venteId, p, catalog);
      LinesMatchCartItems(venteId, p[1..], catalog);
      LinesCons(p, catalog);
      if Listed(catalog, p[0].id) {
        SumByCons(LineOf(venteId, p[0], catalog[p[0].id]), BuildLines(venteId, p[1..], catalog).lines, LineTotal);
        SumByCons(MakeItem(p[0], catalog[p[0].id]), Lines(p[1..], catalog), ItemTotal);
      } else {
        assert [] + BuildLines(venteId, p[1..], catalog).lines == BuildLines(venteId, p[1..], catalog).lines;
        assert [] + Lines(p[1..], catalog) == Lines(p[1..], catalog);
      }
    }
  }

  /** Within stock, the scan builds the first entry's line, if active,
      before those of the rest. */
  lemma BuildLinesCons(venteId: nat, p: seq<Entry>, catalog: Catalog)
    requires |p| > 0 && WithinStock(p, catalog)
    ensures WithinStock(p[1..], catalog)
    ensures BuildLines(venteId, p, catalog).Built?
    ensures BuildLines(venteId, p, catalog).lines ==
      (if Listed(catalog, p[0].id) then [LineOf(venteId, p[0], catalog[p[0].id])] else []) + BuildLines(venteId, p[1..], catalog).lines
  {
    assert forall i :: 1 <= i < |p| ==> p[i] == p[1..][i - 1];
  }

  /** The cart page lists the first entry's item, if active, before those
      of the rest. */
  lemma LinesCons(p: seq<Entry>, catalog: Catalog)
    requires |p| > 0
    ensures Lines(p, catalog) ==
      (if Listed(catalog, p[0].id) then [MakeItem(p[0], catalog[p[0].id])] else []) + Lines(p[1..], catalog)
  {
  }

  // ---------------------------------------------------------------------
  // The endpoint.

  /** `empty($_SESSION['client_id'])`. */
  predicate NoClientId(s: Session) {
    s.clientId.None? || s.clientId == Some(0)
  }

  /** `empty($_SESSION['panier'])`. */
  predicate EmptyCart(s: Session) {
    s.panier.None? || |s.panier.value| == 0
  }

  /** The text logged in `interactions`; it names the sale and its total
      unambiguously. */
  function InteractionText(venteId: nat, total: int): (r: string)
    ensures ParseInteractionText(r) == Some((venteId, total))
  {
    var r := "Commande #" + (NatToString(venteId) + (" - " + FloatText(total))) + "$";
    ParseNatToString(venteId);
    FloatTextRoundTrip(total);
    InteractionShape(r, NatToString(venteId), FloatText(total));
    r
  }

  /** Reads an interaction text back into the sale id and the total. */
  function ParseInteractionText(s: string): Option<(nat, int)> {
    if |s| < 11 || s[..10] != "Commande #" || s[|s| - 1] != '$' then None
    else ParseInteractionBody(s[10..|s| - 1])
  }

  /** The part between `#` and `$`: the sale id, `" - "`, the total. */
  function ParseInteractionBody(body: string): Option<(nat, int)> {
    match IndexOf(body, ' ')
    case None => None
    case Some(k) =>
      var id := body[..k];
      var rest := body[k + 1..];
      if |id| == 0 || !AllDigits(id) || |rest| < 2 || rest[0] != '-' || rest[1] != ' ' then None
      else
        match ParseFloatText(rest[2..])
        case None => None
        case Some(t) => Some((ParseDigits(id), t))
  }

  /** A text of the interaction format reads back as its two parts. */
  lemma InteractionShape(s: string, ds: string, ft: string)
    requires s == "Commande #" + (ds + (" - " + ft)) + "$"
    requires |ds| > 0 && AllDigits(ds)
    requires ParseFloatText(ft).Some?
    ensures ParseInteractionText(s) == Some((ParseDigits(ds), ParseFloatText(ft).value))
  {
    assert |s| >= 11 && s[..10] == "Commande #" && s[|s| - 1] == '$';
    assert s[10..|s| - 1] == ds + (" - " + ft);
    InteractionBodyShape(ds, ft);
  }

  lemma InteractionBodyShape(ds: string, ft: string)
    requires |ds| > 0 && AllDigits(ds)
    requires ParseFloatText(ft).Some?
    ensures ParseInteractionBody(ds + (" - " + ft)) == Some((ParseDigits(ds), ParseFloatText(ft).value))
  {
    var body := ds + (" - " + ft);
    assert body[|ds|] == ' ';
    assert forall i :: 0 <= i < |ds| ==> body[i] == ds[i] && IsDigit(body[i]);
    assert IndexOf(body, ' ') == Some(|ds|);
    assert body[..|ds|] == ds;
    var rest := body[|ds| + 1..];
    assert |rest| == |ft| + 2 && rest[0] == '-' && rest[1] == ' ';
    assert forall i :: 0 <= i < |ft| ==> rest[i + 2] == ft[i];
    assert rest[2..] == ft;
  }

  /** The refusal of a cart that asks for more than a product's stock. */
  function ShortMessage(nom: string, stock: int): string {
    "Stock insuffisant pour " + nom + ". Stock disponible: " + IntToString(stock)
  }

  /** Everything a checkout needs to go through: a logged-in client with a
      client id and a non-empty cart whose active products are in stock. */
  ghost predicate Accepted(s: Session, catalog: Catalog) {
    IsLoggedIn(s) && s.role == Some("client") && !NoClientId(s) && !EmptyCart(s)
    && WithinStock(s.panier.value, catalog)
  }

  function Refuse(s: Session, message: string, code: Option<int>): (r: Result)
    ensures r.reply.body.ErrorBody? && r.reply.body.error == message
    ensures r.order.None? && r.panier == s.panier
  {
    Result(ErrorResponse(message, code), s.panier, None)
  }

  /** `POST /api/panier/valider.php`. `isPost` is the request method test
      (an OPTIONS request is answered by the shared configuration and never
      gets here);
      `venteId` and `factureId` are the ids the two inserts receive and
      `year` is `date('Y')`. */
  function Validate(isPost: bool, s: Session, catalog: Catalog, venteId: nat, factureId: nat, year: nat): (r: Result)
    ensures !isPost ==> r == Refuse(s, "Méthode non autorisée", Some(405))
    ensures isPost && !IsLoggedIn(s) ==> r == Refuse(s, "Non authentifié", Some(401))
    ensures isPost && IsLoggedIn(s) && (s.role != Some("client") || NoClientId(s))
      ==> r == Refuse(s, "Seuls les clients peuvent passer des commandes", Some(403))
    ensures isPost && IsLoggedIn(s) && s.role == Some("client") && !NoClientId(s) && EmptyCart(s)
      ==> r == Refuse(s, "Le panier est vide", None)
    ensures r.reply.code == 200 <==>
      isPost && IsLoggedIn(s) && s.role == Some("client") && !NoClientId(s) && !EmptyCart(s)
      && WithinStock(s.panier.value, catalog)
    ensures r.reply.code == 200 <==> isPost && Accepted(s, catalog)
    ensures r.reply.code != 200 ==> r.panier == s.panier && r.order.None?
    ensures r.reply.code == 200 ==> r.panier == Some([]) && r.order.Some?
  {
    if !isPost then Refuse(s, "Méthode non autorisée", Some(405))
    else if !IsLoggedIn(s) then Refuse(s, "Non authentifié", Some(401))
    else if s.role != Some("client") || NoClientId(s) then Refuse(s, "Seuls les clients peuvent passer des commandes", Some(403))
    else if EmptyCart(s) then Refuse(s, "Le panier est vide", None)
    else
      var clientId := s.clientId.value;
      match BuildLines(venteId, s.panier.value, catalog)
      case Short(nom, stock) =>
        Refuse(s, ShortMessage(nom, stock), None)
      case Built(lines) =>
        var taxes := ComputeTaxes(SumBy(lines, LineTotal));
        var numero := InvoiceNumber(year, venteId);
        var order := Order(
          Vente(clientId, taxes.sousTotal, taxes.tps, taxes.tvq, taxes.total, "reception"),
          lines,
          Facture(venteId, numero, taxes.total, "en_attente"),
          Interaction(clientId, "commande", InteractionText(venteId, taxes.total)));
        var receipt := Receipt(venteId, factureId, numero, taxes.total, taxes);
        Result(SuccessResponse(Some(receipt), Some("Commande créée avec succès")), Some([]), Some(order))
  }

  // ---------------------------------------------------------------------
  // Properties of a successful checkout.

  /** The records of a successful checkout agree with each other: the sale
      carries `calculerTaxes` of the sum of the line totals and the status
      `reception`; the invoice is numbered from the sale id, carries the
      taxed total and the status `en_attente`; the interaction names the
      sale and its total; the reply repeats the total and the amounts. */
  lemma ValidatedOrder(s: Session, catalog: Catalog, venteId: nat, factureId: nat, year: nat)
    requires Accepted(s, catalog)
    ensures var r := Validate(true, s, catalog, venteId, factureId, year);
      var o := r.order.value;
      && o.vente.clientId == s.clientId.value
      && ComputeTaxes(SumBy(o.lignes, LineTotal)) == Taxes(o.vente.sousTotal, o.vente.tps, o.vente.tvq, o.vente.total)
      && o.vente.statut == "reception"
      && (forall l :: l in o.lignes ==> l.venteId == venteId && l.sousTotal == l.prixUnitaire * l.quantite)
      && o.facture == Facture(venteId, InvoiceNumber(year, venteId), o.vente.total, "en_attente")
      && ParseInvoiceNumber(o.facture.numeroFacture) == Some((year, venteId))
      && o.interaction.description == InteractionText(venteId, o.vente.total)
      && r.reply.body.data == Some(Receipt(venteId, factureId, o.facture.numeroFacture, o.facture.total,
                                           ComputeTaxes(o.vente.sousTotal)))
      && o.lignes == BuildLines(venteId, s.panier.value, catalog).lines
  {
    InvoiceNumberRoundTrip(year, venteId);
  }

  /** A successful checkout charges exactly what the cart page showed for
      the same cart: the sale's amounts are the cart's amounts. */
  lemma CheckoutMatchesCartTotals(s: Session, catalog: Catalog, venteId: nat, factureId: nat, year: nat)
    requires Accepted(s, catalog)
    ensures var v := Validate(true, s, catalog, venteId, factureId, year).order.value.vente;
      var t := TotalsOf(s.panier.value, catalog).totals;
      v.sousTotal == t.sousTotal && v.tps == t.tps && v.tvq == t.tvq && v.total == t.total
  {
    LinesMatchCartItems(venteId, s.panier.value, catalog);
  }

  /** A cart holding more of an active product than its stock is refused,
      and the cart is kept. The message names the first such entry in cart
      order, which need not be `e`. */
  lemma OverStockRefused(s: Session, catalog: Catalog, venteId: nat, factureId: nat, year: nat, e: Entry)
    requires IsLoggedIn(s) && s.role == Some("client") && !NoClientId(s)
    requires s.panier.Some? && e in s.panier.value
    requires Listed(catalog, e.id) && e.quantite > catalog[e.id].stock
    ensures Validate(true, s, catalog, venteId, factureId, year).reply.code == 400
    ensures Validate(true, s, catalog, venteId, factureId, year).panier == s.panier
    ensures Validate(true, s, catalog, venteId, factureId, year).order.None?
    ensures var p := s.panier.value;
      exists i :: 0 <= i < |p| && OverStock(catalog, p[i]) && (forall j :: 0 <= j < i ==> !OverStock(catalog, p[j]))
        && Validate(true, s, catalog, venteId, factureId, year).reply.body
           == ErrorBody(ShortMessage(catalog[p[i].id].nom, catalog[p[i].id].stock))
  {
    assert !WithinStock(s.panier.value, catalog) by {
      var i :| 0 <= i < |s.panier.value| && s.panier.value[i] == e;
    }
  }
}

=== FILE: client_activity.dfy ===
/** `components/ClientActivityHistory.tsx`: the staff's log of interactions
    with one selected client, and the dialog that adds an entry to it. */
module ClientActivityHistory {
  import opened Wrappers
  import opened Seqs
  import opened Data

  /** The dialog's draft: its type select always holds a value, and the
      description is absent until typed. */
  datatype Draft = Draft(kind: ActivityType, description: Option<string>)

  const FreshDraft := Draft(Note, None)

  /** The component's state; `selectedUserId` is `""` when no client is
      selected. */
  datatype HistoryState = HistoryState(
    activities: seq<ClientActivity>,
    selectedUserId: string,
    dialogOpen: bool,
    draft: Draft)

  function IsClientUser(u: User): bool { u.role == Client }

  /** `clients`. */
  function Clients(users: seq<User>): (r: seq<User>)
    ensures forall u :: u in r <==> u in users && u.role == Client
    ensures forall u :: multiset(r)[u] == if u.role == Client then multiset(users)[u] else 0
    ensures IsSubsequence(r, users)
  {
    FilterIsSubsequence(users, IsClientUser);
    Filter(users, IsClientUser)
  }

  /** `filteredActivities`: nothing until a client is selected, then that
      client's entries in list order. */
  function FilteredActivities(activities: seq<ClientActivity>, selectedUserId: string): (r: seq<ClientActivity>)
    ensures selectedUserId == "" ==> r == []
    ensures selectedUserId != "" ==> forall a :: a in r <==> a in activities && a.userId == selectedUserId
    ensures selectedUserId != "" ==> forall a :: multiset(r)[a] == if a.userId == selectedUserId then multiset(activities)[a] else 0
    ensures IsSubsequence(r, activities)
  {
    if selectedUserId == "" then
      assert IsSubsequence([], activities);
      []
    else
      FilterIsSubsequence(activities, (a: ClientActivity) => a.userId == selectedUserId);
      Filter(activities, (a: ClientActivity) => a.userId == selectedUserId)
  }

  /** `handleAddActivity`; `now` is the entry's timestamp and `user` the
      logged-in staff member. */
  function AddActivity(st: HistoryState, user: Option<User>, now: Timestamp): (r: HistoryState)
    ensures st.selectedUserId == "" || !StrTruthy(st.draft.description) ==> r == st
    ensures st.selectedUserId != "" && StrTruthy(st.draft.description) ==>
      && |r.activities| == |st.activities| + 1
      && r.activities[1..] == st.activities
      && r.activities[0] == ClientActivity(NextId('a', |st.activities|), st.selectedUserId, st.draft.kind,
                                           st.draft.description.value, now, if user.Some? then Some(user.value.id) else None)
      && r.draft == FreshDraft && !r.dialogOpen && r.selectedUserId == st.selectedUserId
  {
    if st.selectedUserId == "" || !StrTruthy(st.draft.description) then st
    else
      var a := ClientActivity(NextId('a', |st.activities|), st.selectedUserId, st.draft.kind,
                              st.draft.description.value, now, if user.Some? then Some(user.value.id) else None);
      st.(activities := [a] + st.activities, draft := FreshDraft, dialogOpen := false)
  }

  /** A successful add puts the new entry at the top of the selected
      client's history and keeps the rest of it. */
  lemma AddShowsFirst(st: HistoryState, user: Option<User>, now: Timestamp)
    requires st.selectedUserId != "" && StrTruthy(st.draft.description)
    ensures var r := AddActivity(st, user, now);
      FilteredActivities(r.activities, r.selectedUserId)
        == [r.activities[0]] + FilteredActivities(st.activities, st.selectedUserId)
  {
    var r := AddActivity(st, user, now);
    assert r.activities == [r.activities[0]] + st.activities;
    FilterAppend([r.activities[0]], st.activities, (a: ClientActivity) => a.userId == st.selectedUserId);
  }

  /** Another client's history does not change. */
  lemma AddLeavesOthers(st: HistoryState, user: Option<User>, now: Timestamp, other: string)
    requires st.selectedUserId != "" && StrTruthy(st.draft.description)
    requires other != st.selectedUserId
    ensures FilteredActivities(AddActivity(st, user, now).activities, other) == FilteredActivities(st.activities, other)
  {
    var r := AddActivity(st, user, now);
    assert r.activities == [r.activities[0]] + st.activities;
    if other != "" {
      FilterAppend([r.activities[0]], st.activities, (a: ClientActivity) => a.userId == other);
    }
  }

  datatype Icon = EyeIcon | FileTextIcon | MailIcon | PhoneIcon | StickyNoteIcon

  /** `getActivityIcon`. */
  function ActivityIcon(t: ActivityType): Icon {
    match t
    case Visit => EyeIcon
    case PageView => EyeIcon
    case OrderPlaced => FileTextIcon
    case EmailSent => MailIcon
    case Call => PhoneIcon
    case Document => FileTextIcon
    case Note => StickyNoteIcon
  }

  /** `getActivityColor`. */
  function ActivityColor(t: ActivityType): string {
    match t
    case Visit => "bg-blue-100 text-blue-800"
    case PageView => "bg-blue-100 text-blue-800"
    case OrderPlaced => "bg-green-100 text-green-800"
    case EmailSent => "bg-purple-100 text-purple-800"
    case Call => "bg-orange-100 text-orange-800"
    case Document => "bg-slate-100 text-slate-800"
    case Note => "bg-yellow-100 text-yellow-800"
  }

  /** `getActivityLabel`. */
  function ActivityLabel(t: ActivityType): string {
    match t
    case Visit => "Visite"
    case PageView => "Page vue"
    case OrderPlaced => "Commande"
    case EmailSent => "Email"
    case Call => "Appel"
    case Document => "Document"
    case Note => "Note"
  }

  /** The labels tell all seven types apart; the badges do not: visits and
      page views share icon and colour, and orders and documents share an
      icon. */
  lemma TypeMaps(a: ActivityType, b: ActivityType)
    ensures ActivityLabel(a) == ActivityLabel(b) ==> a == b
    ensures ActivityIcon(Visit) == ActivityIcon(PageView) && ActivityColor(Visit) == ActivityColor(PageView)
    ensures ActivityIcon(OrderPlaced) == ActivityIcon(Document) && ActivityColor(OrderPlaced) != ActivityColor(Document)
    ensures ActivityColor(a) == ActivityColor(b) ==> a == b || {a, b} == {Visit, PageView}
  {
  }
}

=== FILE: config.dfy ===
/** The helpers of `api/config.php`: the two Quebec sales taxes, the invoice
    number and the displayed price. Money is in integer cents throughout;
    amounts stored with two decimals are exactly whole cents. */
module Config {
  import opened Wrappers
  import opened Text

  /** `TPS_RATE` = 0.05 and `TVQ_RATE` = 0.09975, as exact fractions. */
  const TpsNum: nat := 5
  const TpsDen: nat := 100
  const TvqNum: nat := 9975
  const TvqDen: nat := 100000

  /** `r` is `n / d` rounded to the nearest integer, halves away from zero
      (PHP `round`): `n/d - 1/2 <= r < n/d + 1/2` for a non-negative
      quotient, mirrored for a negative one. */
  ghost predicate IsRounding(r: int, n: int, d: nat) {
    if n >= 0 then 2 * r * d - d <= 2 * n < 2 * r * d + d
    else 2 * r * d - d < 2 * n <= 2 * r * d + d
  }

  lemma DivBounds(m: nat, e: nat)
    requires e > 0
    ensures (m / e) * e <= m < (m / e) * e + e
  {
  }

  /** PHP `round($n / $d)` on the exact quotient. */
  function RoundDiv(n: int, d: nat): (r: int)
    requires d > 0
    ensures IsRounding(r, n, d)
    ensures n >= 0 ==> r >= 0
  {
    var m := if n >= 0 then n else -n;
    var q := (2 * m + d) / (2 * d);
    DivBounds(2 * m + d, 2 * d);
    assert q * (2 * d) == 2 * q * d;
    if n >= 0 then q else -q
  }

  lemma MulAtLeast(a: int, b: nat)
    requires a >= 1
    ensures a * b >= b
  {
  }

  /** The rounding is unique: any integer within half of `n/d` (with the
      same tie rule) is the one `RoundDiv` returns. */
  lemma RoundingUnique(r: int, n: int, d: nat)
    requires d > 0 && IsRounding(r, n, d)
    ensures r == RoundDiv(n, d)
  {
    var k := RoundDiv(n, d);
    assert (r - k) * (2 * d) == 2 * r * d - 2 * k * d;
    if r > k {
      MulAtLeast(r - k, 2 * d);
    } else if r < k {
      MulAtLeast(k - r, 2 * d);
    }
  }

  /** A larger dividend never rounds lower. */
  lemma RoundDivMonotone(n1: int, n2: int, d: nat)
    requires d > 0 && n1 <= n2
    ensures RoundDiv(n1, d) <= RoundDiv(n2, d)
  {
    var r1 := RoundDiv(n1, d);
    var r2 := RoundDiv(n2, d);
    if r1 > r2 {
      MulAtLeast(r1 - r2, 2 * d);
    }
  }

  /** The array returned by `calculerTaxes`. */
  datatype Taxes = Taxes(sousTotal: int, tps: int, tvq: int, total: int)

  /** `calculerTaxes($montant)` for an amount of `amount` cents. */
  function ComputeTaxes(amount: int): (t: Taxes)
    ensures t.sousTotal == amount
    ensures IsRounding(t.tps, amount * TpsNum, TpsDen)
    ensures IsRounding(t.tvq, amount * TvqNum, TvqDen)
    ensures t.total == t.sousTotal + t.tps + t.tvq
    ensures amount >= 0 ==> t.tps >= 0 && t.tvq >= 0 && t.total >= amount
    ensures amount == 0 ==> t == Taxes(0, 0, 0, 0)
  {
    var tps := RoundDiv(amount * TpsNum, TpsDen);
    var tvq := RoundDiv(amount * TvqNum, TvqDen);
    assert amount == 0 ==> tps == 0 && tvq == 0 by {
      if amount == 0 {
        RoundingUnique(0, 0, TpsDen);
        RoundingUnique(0, 0, TvqDen);
      }
    }
    Taxes(amount, tps, tvq, amount + tps + tvq)
  }

  /** Each rounding is off by at most half a cent, so the taxed total is
      within one cent of `amount * 1.14975`. */
  lemma TaxTotalWithinOneCent(amount: nat)
    ensures var t := ComputeTaxes(amount);
      -100000 <= 100000 * t.total - 114975 * amount <= 100000
  {
    var t := ComputeTaxes(amount);
    assert -50 <= 100 * t.tps - 5 * amount <= 50;
    assert -50000 <= 100000 * t.tvq - 9975 * amount <= 50000;
  }

  /** A larger amount never has smaller taxes or total. */
  lemma TaxesMonotone(a: int, b: int)
    requires a <= b
    ensures ComputeTaxes(a).tps <= ComputeTaxes(b).tps
    ensures ComputeTaxes(a).tvq <= ComputeTaxes(b).tvq
    ensures ComputeTaxes(a).total <= ComputeTaxes(b).total
  {
    RoundDivMonotone(a * TpsNum, b * TpsNum, TpsDen);
    RoundDivMonotone(a * TvqNum, b * TvqNum, TvqDen);
  }

  // ---------------------------------------------------------------------
  // Invoice numbers.

  function Max(a: int, b: int): int {
    if a >= b then a else b
  }

  /** `str_pad($vente_id, 6, '0', STR_PAD_LEFT)`. */
  function InvoiceSuffix(id: nat): (r: string)
    ensures |r| == Max(6, |NatToString(id)|)
    ensures AllDigits(r)
    ensures ParseDigits(r) == id
    ensures |NatToString(id)| >= 6 ==> r == NatToString(id)
    ensures id >= 1 ==> StripLeadingZeros(r) == NatToString(id)
  {
    var digits := NatToString(id);
    ParseNatToString(id);
    var zeros := if |digits| >= 6 then 0 else 6 - |digits|;
    ParseDigitsZeros(zeros, digits);
    assert PadLeft(digits, 6, '0') == Repeat('0', zeros) + digits by {
      if |digits| >= 6 {
        assert Repeat('0', 0) + digits == digits;
      }
    }
    assert id >= 1 ==> StripLeadingZeros(Repeat('0', zeros) + digits) == digits by {
      if id >= 1 {
        StripZerosPrefix(zeros, digits);
      }
    }
    PadLeft(digits, 6, '0')
  }

  /** `genererNumeroFacture($vente_id)`: `FAC-<year>-<padded id>`; the
      year is what `date('Y')` returns. */
  function InvoiceNumber(year: nat, id: nat): (r: string)
    ensures |r| == 5 + |NatToString(year)| + Max(6, |NatToString(id)|)
    ensures r[..4] == "FAC-"
  {
    "FAC-" + NatToString(year) + "-" + InvoiceSuffix(id)
  }

  /** Position of the first `c`. */
  function IndexOf(s: string, c: char): (r: Option<nat>)
    ensures r.Some? ==> r.value < |s| && s[r.value] == c && forall i :: 0 <= i < r.value ==> s[i] != c
    ensures r.None? ==> forall i :: 0 <= i < |s| ==> s[i] != c
  {
    if |s| == 0 then None
    else if s[0] == c then Some(0)
    else match IndexOf(s[1..], c)
      case None => None
      case Some(k) => Some(k + 1)
  }

  /** Reads `FAC-<digits>-<digits>` back into the year and the sale id. */
  function ParseInvoiceNumber(s: string): Option<(nat, nat)> {
    if |s| < 4 || s[..4] != "FAC-" then None
    else
      var rest := s[4..];
      match IndexOf(rest, '-')
      case None => None
      case Some(k) =>
        var y := rest[..k];
        var n := rest[k + 1..];
        if |y| == 0 || |n| == 0 || !AllDigits(y) || !AllDigits(n) then None
        else Some((ParseDigits(y), ParseDigits(n)))
  }

  /** The first separator after a run of digits is the one right after
      them. */
  lemma SeparatorAfterDigits(digits: string, sep: char, tail: string)
    requires AllDigits(digits) && !IsDigit(sep)
    ensures IndexOf(digits + [sep] + tail, sep) == Some(|digits|)
    ensures (digits + [sep] + tail)[..|digits|] == digits
    ensures (digits + [sep] + tail)[|digits| + 1..] == tail
  {
    var s := digits + [sep] + tail;
    assert forall i :: 0 <= i < |digits| ==> s[i] == digits[i] && IsDigit(s[i]);
    assert s[|digits|] == sep;
  }

  /** A text of the invoice format reads back as its two numbers. */
  lemma ParseInvoiceShape(s: string, ys: string, suffix: string)
    requires s == "FAC-" + ys + "-" + suffix
    requires |ys| > 0 && |suffix| > 0 && AllDigits(ys) && AllDigits(suffix)
    ensures ParseInvoiceNumber(s) == Some((ParseDigits(ys), ParseDigits(suffix)))
  {
    assert s[..4] == "FAC-";
    assert s[4..] == ys + "-" + suffix;
    SeparatorAfterDigits(ys, '-', suffix);
  }

  /** The invoice number gives back its year and sale id. */
  lemma InvoiceNumberRoundTrip(year: nat, id: nat)
    ensures ParseInvoiceNumber(InvoiceNumber(year, id)) == Some((year, id))
  {
    ParseInvoiceShape(InvoiceNumber(year, id), NatToString(year), InvoiceSuffix(id));
    ParseNatToString(year);
  }

  /** Distinct sales of one year never share an invoice number. */
  lemma InvoiceNumberInjective(year: nat, a: nat, b: nat)
    requires InvoiceNumber(year, a) == InvoiceNumber(year, b)
    ensures a == b
  {
    InvoiceNumberRoundTrip(year, a);
    InvoiceNumberRoundTrip(year, b);
  }

  // ---------------------------------------------------------------------
  // Prices.

  /** `number_format`'s thousands separator: a space before each group of
      three digits counted from the right. */
  function GroupThousands(digits: string): (r: string)
    ensures |r| >= |digits|
    ensures |digits| >= 1 ==> r[0] == digits[0]
    decreases |digits|
  {
    if |digits| <= 3 then digits
    else GroupThousands(digits[..|digits| - 3]) + " " + digits[|digits| - 3..]
  }

  /** Removing the separators gives the digits back. */
  lemma {:induction false} GroupThousandsUngroup(digits: string)
    requires AllDigits(digits)
    ensures RemoveChar(GroupThousands(digits), ' ') == digits
    decreases |digits|
  {
    if |digits| <= 3 {
      RemoveCharAbsent(digits, ' ');
    } else {
      GroupThousandsUngroup(digits[..|digits| - 3]);
      UngroupLastGroup(digits);
    }
  }

  /** The separators of a long number: those of all but its last three
      digits. */
  lemma UngroupLastGroup(digits: string)
    requires |digits| > 3 && AllDigits(digits)
    requires RemoveChar(GroupThousands(digits[..|digits| - 3]), ' ') == digits[..|digits| - 3]
    ensures RemoveChar(GroupThousands(digits), ' ') == digits
  {
    var init := digits[..|digits| - 3];
    var last := digits[|digits| - 3..];
    assert AllDigits(last) by {
      assert forall k :: 0 <= k < |last| ==> last[k] == digits[|digits| - 3 + k];
    }
    UngroupStep(GroupThousands(init), init, last);
    assert digits == init + last;
  }

  /** Removing the separators from a grouped prefix, a space and a group of
      digits. */
  lemma UngroupStep(g: string, init: string, last: string)
    requires RemoveChar(g, ' ') == init && AllDigits(last)
    ensures RemoveChar(g + " " + last, ' ') == init + last
  {
    RemoveCharAppend(g + " ", last, ' ');
    RemoveCharAppend(g, " ", ' ');
    assert forall i :: 0 <= i < |last| ==> IsDigit(last[i]);
    RemoveCharAbsent(last, ' ');
    assert RemoveChar(" ", ' ') == [];
    assert init + [] == init;
  }

  /** Spaces sit exactly at every fourth position counted from the right:
      groups of three digits, led by one of one to three. */
  lemma {:induction false} GroupThousandsSpacing(digits: string)
    requires AllDigits(digits)
    ensures forall i :: 0 <= i < |GroupThousands(digits)| ==>
      (GroupThousands(digits)[i] == ' ' <==> (|GroupThousands(digits)| - i) % 4 == 0)
    decreases |digits|
  {
    var r := GroupThousands(digits);
    if |digits| > 3 {
      var init := digits[..|digits| - 3];
      var last := digits[|digits| - 3..];
      GroupThousandsSpacing(init);
      assert AllDigits(last) by {
        assert forall k :: 0 <= k < |last| ==> last[k] == digits[|digits| - 3 + k];
      }
      SpacingStep(GroupThousands(init), last);
    } else {
      assert forall i :: 0 <= i < |r| ==> IsDigit(r[i]);
    }
  }

  /** A space then three digits after a correctly spaced prefix keep the
      spacing. */
  lemma SpacingStep(g: string, last: string)
    requires |last| == 3 && AllDigits(last)
    requires forall k :: 0 <= k < |g| ==> (g[k] == ' ' <==> (|g| - k) % 4 == 0)
    ensures forall i :: 0 <= i < |g + " " + last| ==>
      ((g + " " + last)[i] == ' ' <==> (|g + " " + last| - i) % 4 == 0)
  {
    var r := g + " " + last;
    forall i | 0 <= i < |r| ensures r[i] == ' ' <==> (|r| - i) % 4 == 0 {
      if i < |g| {
        assert r[i] == g[i];
        ModShift(|g| - i);
      } else if i > |g| {
        assert r[i] == last[i - |g| - 1];
        assert IsDigit(last[i - |g| - 1]);
      }
    }
  }

  lemma ModShift(x: int)
    ensures (x + 4) % 4 == x % 4
  {
  }

  /** The two-digit cents part, `00` to `99`. */
  function TwoDigits(n: nat): (r: string)
    requires n < 100
    ensures |r| == 2 && AllDigits(r) && ParseDigits(r) == n
  {
    var r := [DigitChar(n / 10), DigitChar(n % 10)];
    DigitRoundTrip(n / 10);
    DigitRoundTrip(n % 10);
    assert r[..1] == [DigitChar(n / 10)];
    assert [DigitChar(n / 10)][..0] == [];
    assert ParseDigits([DigitChar(n / 10)]) == n / 10;
    assert ParseDigits(r) == ParseDigits(r[..1]) * 10 + DigitValue(r[1]);
    r
  }

  /** `number_format(m / 100, 2, ',', ' ')` for `m >= 0` cents. */
  function Amount(m: nat): (r: string)
    ensures |r| >= 4 && IsDigit(r[0])
    ensures r[|r| - 3] == ',' && IsDigit(r[|r| - 2]) && IsDigit(r[|r| - 1])
  {
    GroupThousands(NatToString(m / 100)) + "," + TwoDigits(m % 100)
  }

  /** `formaterPrix($prix)` = `number_format($prix, 2, ',', ' ') . ' $'` for
      a price of `cents` cents. */
  function FormatPrice(cents: int): (r: string)
    ensures |r| >= 6
    ensures r[|r| - 2..] == " $"
    ensures r[|r| - 5] == ',' && IsDigit(r[|r| - 4]) && IsDigit(r[|r| - 3])
    ensures r[0] == '-' <==> cents < 0
  {
    (if cents < 0 then "-" else "") + Amount(if cents < 0 then -cents else cents) + " $"
  }

  /** Reads `units,dd` back into cents; the units may carry separators. */
  function ParseAmount(b: string): Option<nat> {
    if |b| < 4 || b[|b| - 3] != ',' || !AllDigits(b[|b| - 2..]) then None
    else
      var units := RemoveChar(b[..|b| - 3], ' ');
      if |units| == 0 || !AllDigits(units) then None
      else Some(ParseDigits(units) * 100 + ParseDigits(b[|b| - 2..]))
  }

  /** Reads a formatted price back: an optional `-`, the amount, `" $"`. */
  function ParsePrice(s: string): Option<int> {
    if |s| < 2 || s[|s| - 2..] != " $" then None
    else
      var body := s[..|s| - 2];
      if |body| > 0 && body[0] == '-' then
        match ParseAmount(body[1..])
        case None => None
        case Some(v) => Some(-(v as int))
      else
        match ParseAmount(body)
        case None => None
        case Some(v) => Some(v)
  }

  lemma AmountRoundTrip(m: nat)
    ensures ParseAmount(Amount(m)) == Some(m)
  {
    var digits := NatToString(m / 100);
    var units := GroupThousands(digits);
    var dec := TwoDigits(m % 100);
    var b := Amount(m);
    assert b == units + "," + dec;
    assert b[..|b| - 3] == units;
    assert b[|b| - 2..] == dec;
    GroupThousandsUngroup(digits);
    ParseNatToString(m / 100);
    assert b[|b| - 3] == ',' && AllDigits(dec);
    assert RemoveChar(b[..|b| - 3], ' ') == digits;
    assert ParseDigits(digits) == m / 100 && ParseDigits(dec) == m % 100;
    assert m == m / 100 * 100 + m % 100;
  }

  /** The displayed price determines the amount. */
  lemma FormatPriceRoundTrip(cents: int)
    ensures ParsePrice(FormatPrice(cents)) == Some(cents)
  {
    var m := if cents < 0 then -cents else cents;
    var s := FormatPrice(cents);
    var a := Amount(m);
    AmountRoundTrip(m);
    if cents < 0 {
      assert s[..|s| - 2] == "-" + a;
      assert ("-" + a)[1..] == a;
    } else {
      assert s[..|s| - 2] == a;
    }
  }
}

=== FILE: customer_relationship.dfy ===
/** `src/components/CustomerRelationship.tsx`: the CRM screen with its own
    customer and interaction shapes, the search box, the status counters
    and the analytics tab. Amounts spent are integer cents; the average
    satisfaction and the percentages are floating point and not modelled.

    The analytics tab sorts the `customers` array in place for its top-5
    list, so the per-city tally that follows it in the same render walks
    the customers in that sorted order. */
module CustomerRelationship {
  import opened Text
  import opened Seqs

  /** `'VIP' | 'Actif' | 'Inactif'`. */
  datatype CustomerStatus = Vip | Actif | Inactif

  datatype Customer = Customer(
    id: string,
    name: string,
    email: string,
    phone: string,
    city: string,
    totalOrders: int,
    totalSpent: int,
    lastOrder: string,
    status: CustomerStatus,
    satisfaction: int)

  /** `'Appel' | 'Email' | 'Chat' | 'Rencontre'`. */
  datatype Channel = Appel | Email | Chat | Rencontre

  /** `'Résolu' | 'En cours' | 'En attente'`. */
  datatype InteractionStatus = Resolu | EnCours | EnAttente

  datatype Interaction = Interaction(
    id: string,
    customerId: string,
    customerName: string,
    kind: Channel,
    subject: string,
    date: string,
    status: InteractionStatus)

  /** The search callback: name or email contains the query ignoring ASCII
      case, or the phone number contains it exactly as typed. */
  predicate Found(query: string, c: Customer) {
    || Contains(LowerStr(c.name), LowerStr(query))
    || Contains(LowerStr(c.email), LowerStr(query))
    || Contains(c.phone, query)
  }

  /** `filteredCustomers`. */
  function FilteredCustomers(customers: seq<Customer>, query: string): (r: seq<Customer>)
    ensures forall c :: c in r <==> c in customers && Found(query, c)
    ensures forall c :: multiset(r)[c] == if Found(query, c) then multiset(customers)[c] else 0
    ensures IsSubsequence(r, customers)
  {
    FilterIsSubsequence(customers, c => Found(query, c));
    Filter(customers, c => Found(query, c))
  }

  /** An empty search lists every customer. */
  lemma EmptySearchListsAll(customers: seq<Customer>)
    ensures FilteredCustomers(customers, "") == customers
  {
    forall i | 0 <= i < |customers| ensures Found("", customers[i]) {
      ContainsEmpty(customers[i].phone);
    }
    FilterAll(customers, c => Found("", c));
  }

  /** The phone number is searched as written, without lowering: a query
      that occurs in it verbatim finds the customer. */
  lemma PhoneMatchesRaw(c: Customer, query: string)
    requires Contains(c.phone, query)
    ensures c in FilteredCustomers([c], query)
  {
  }

  datatype Stats = Stats(total: nat, vip: nat, active: nat, inactive: nat)

  function IsVip(c: Customer): bool { c.status == Vip }
  function IsActif(c: Customer): bool { c.status == Actif }
  function IsInactif(c: Customer): bool { c.status == Inactif }

  /** `customerStats`, without the average satisfaction. */
  function CustomerStats(customers: seq<Customer>): (r: Stats)
    ensures r.total == |customers|
    ensures r.vip == Count(customers, IsVip) && r.active == Count(customers, IsActif) && r.inactive == Count(customers, IsInactif)
    ensures r.vip + r.active + r.inactive == r.total
  {
    CountPartition3(customers, IsVip, IsActif, IsInactif);
    Stats(|customers|, Count(customers, IsVip), Count(customers, IsActif), Count(customers, IsInactif))
  }

  function Spent(c: Customer): int { c.totalSpent }

  /** The customers as the analytics tab leaves them: sorted in place,
      largest amount first, ties in their original order. */
  function RankedCustomers(customers: seq<Customer>): (r: seq<Customer>)
    ensures |r| == |customers| && multiset(r) == multiset(customers)
    ensures SortedDesc(r, Spent)
    ensures forall v :: WithKey(r, Spent, v) == WithKey(customers, Spent, v)
  {
    SortDesc(customers, Spent)
  }

  /** "Top 5 clients": the first five of the ranking. */
  function Top5(customers: seq<Customer>): (r: seq<Customer>)
    ensures |r| == if |customers| < 5 then |customers| else 5
    ensures SortedDesc(r, Spent)
    ensures multiset(r) <= multiset(customers)
  {
    var s := RankedCustomers(customers);
    var k := if |s| < 5 then |s| else 5;
    assert s == s[..k] + s[k..];
    assert multiset(s) == multiset(s[..k]) + multiset(s[k..]);
    s[..k]
  }

  /** Nobody left out of the top five spent more than anyone in it. */
  lemma Top5Leaders(customers: seq<Customer>, c: Customer)
    requires multiset(Top5(customers))[c] < multiset(customers)[c]
    ensures forall i :: 0 <= i < |Top5(customers)| ==> Spent(c) <= Spent(Top5(customers)[i])
  {
    var s := RankedCustomers(customers);
    var k := |Top5(customers)|;
    assert Top5(customers) == s[..k];
    var j := BeyondPrefix(s, k, c);
    assert forall i :: 0 <= i < k ==> Spent(s[i]) >= Spent(s[j]);
  }

  /** An element that occurs more often in `s` than in its first `k`
      elements occurs at or after position `k`. */
  lemma BeyondPrefix(s: seq<Customer>, k: nat, c: Customer) returns (j: nat)
    requires k <= |s| && multiset(s[..k])[c] < multiset(s)[c]
    ensures k <= j < |s| && s[j] == c
  {
    assert s == s[..k] + s[k..];
    assert multiset(s) == multiset(s[..k]) + multiset(s[k..]);
    assert c in s[k..];
    var m :| 0 <= m < |s[k..]| && s[k..][m] == c;
    j := k + m;
  }

  function City(c: Customer): string { c.city }

  /** Reference count of the customers living in `city`. */
  function CityCount(customers: seq<Customer>, city: string): nat {
    if |customers| == 0 then 0
    else (if customers[0].city == city then 1 else 0) + CityCount(customers[1..], city)
  }

  function InCity(city: string): Customer -> int {
    (c: Customer) => if c.city == city then 1 else 0
  }

  function CitiesOf(customers: seq<Customer>): (r: seq<string>)
    ensures |r| == |customers| && forall i :: 0 <= i < |r| ==> r[i] == customers[i].city
  {
    seq(|customers|, i requires 0 <= i < |customers| => customers[i].city)
  }

  lemma {:induction false} CityCountIsMultiplicity(customers: seq<Customer>, city: string)
    ensures multiset(CitiesOf(customers))[city] == CityCount(customers, city)
    ensures CityCount(customers, city) == SumBy(customers, InCity(city))
  {
    if |customers| > 0 {
      CityCountIsMultiplicity(customers[1..], city);
      assert CitiesOf(customers) == [customers[0].city] + CitiesOf(customers[1..]);
    }
  }

  /** The "Répartition géographique" list: the customers tallied per city
      in the order the ranking leaves them, then sorted by count, largest
      first; cities with the same count keep the order in which they first
      appear in the ranking. */
  function CityDistribution(customers: seq<Customer>): (r: seq<(string, nat)>)
    ensures DistinctBy(r, EntryKey)
    ensures SortedDesc(r, EntryCount)
    ensures SumBy(r, EntryCount) == |customers|
    ensures forall v :: WithKey(r, EntryCount, v) == WithKey(GroupCount(CitiesOf(RankedCustomers(customers))), EntryCount, v)
  {
    RankedCounts(CitiesOf(RankedCustomers(customers)))
  }

  /** Each listed city comes with the number of customers who live
      there. */
  lemma CityEntryCount(customers: seq<Customer>, e: (string, nat))
    requires e in CityDistribution(customers)
    ensures e.1 == CityCount(customers, e.0) && e.1 > 0
  {
    var s := RankedCustomers(customers);
    assert e.0 in CitiesOf(s) && e.1 == multiset(CitiesOf(s))[e.0];
    CityCountIsMultiplicity(s, e.0);
    CityCountIsMultiplicity(customers, e.0);
    SumBySort(customers, Spent, InCity(e.0));
  }

  /** Every customer's city is listed. */
  lemma CityListed(customers: seq<Customer>, c: Customer)
    requires c in customers
    ensures exists e :: e in CityDistribution(customers) && e.0 == c.city
  {
    var s := RankedCustomers(customers);
    assert c in multiset(s);
    var i :| 0 <= i < |s| && s[i] == c;
    assert CitiesOf(s)[i] == c.city;
    assert c.city in CitiesOf(s);
    assert CityDistribution(customers) == RankedCounts(CitiesOf(s));
  }

  /** Reference count of the customers who gave `rating`. */
  function RatingCount(customers: seq<Customer>, rating: int): nat {
    if |customers| == 0 then 0
    else (if customers[0].satisfaction == rating then 1 else 0) + RatingCount(customers[1..], rating)
  }

  /** The "Niveau de satisfaction" rows, for the ratings 5 down to 1. */
  function RatingBuckets(customers: seq<Customer>): (r: seq<(int, nat)>)
    ensures |r| == 5
    ensures forall i :: 0 <= i < 5 ==> r[i].0 == 5 - i && r[i].1 == RatingCount(customers, 5 - i)
  {
    seq(5, i requires 0 <= i < 5 => (5 - i, RatingCount(customers, 5 - i)))
  }

  /** With every satisfaction between 1 and 5, the five rows account for
      every customer. */
  lemma {:induction false} RatingBucketsCoverAll(customers: seq<Customer>)
    requires forall i :: 0 <= i < |customers| ==> 1 <= customers[i].satisfaction <= 5
    ensures RatingCount(customers, 5) + RatingCount(customers, 4) + RatingCount(customers, 3)
          + RatingCount(customers, 2) + RatingCount(customers, 1) == |customers|
  {
    if |customers| > 0 {
      RatingBucketsCoverAll(customers[1..]);
    }
  }

  function KindsOf(interactions: seq<Interaction>): (r: seq<Channel>)
    ensures |r| == |interactions| && forall i :: 0 <= i < |r| ==> r[i] == interactions[i].kind
  {
    seq(|interactions|, i requires 0 <= i < |interactions| => interactions[i].kind)
  }

  /** The "Interactions par type" list: interactions tallied per channel,
      sorted by count, largest first; channels with the same count keep the
      order in which they first occur. */
  function ChannelDistribution(interactions: seq<Interaction>): (r: seq<(Channel, nat)>)
    ensures DistinctBy(r, EntryKey)
    ensures SortedDesc(r, EntryCount)
    ensures SumBy(r, EntryCount) == |interactions|
    ensures forall e :: e in r ==> e.1 == multiset(KindsOf(interactions))[e.0] && e.1 > 0
    ensures forall v :: WithKey(r, EntryCount, v) == WithKey(GroupCount(KindsOf(interactions)), EntryCount, v)
  {
    RankedCounts(KindsOf(interactions))
  }
}

=== FILE: data.dfy ===
/** The records of the front-end prototype (`frontend/data.ts`). Prices and
    amounts, JavaScript numbers in the source, are integer cents here;
    `Date` values are opaque timestamps. */
module Data {
  import opened Wrappers
  import opened Text

  /** `'active' | 'inactive'`, for products and users alike. */
  datatype Status = Active | Inactive

  datatype Role = Admin | Employee | Client

  type Timestamp = nat

  datatype Product = Product(
    id: string,
    code: string,
    name: string,
    description: string,
    category: string,
    price: int,
    stock: int,
    reorderLevel: int,
    supplier: string,
    deliveryTime: string,
    status: Status,
    image: string)

  datatype User = User(
    id: string,
    email: string,
    password: string,
    name: string,
    role: Role,
    status: Status,
    createdAt: Timestamp)

  /** `'reception' | 'preparation' | 'shipped' | 'invoiced' | 'paid'`; the
      last order status is named `Closed` here, apart from the payment
      status `Paid`. */
  datatype OrderStatus = Reception | Preparation | Shipped | Invoiced | Closed

  /** `'paid' | 'pending' | 'partial'`. */
  datatype PaymentStatus = Paid | Pending | Partial

  datatype OrderItem = OrderItem(productId: string, productName: string, quantity: int, price: int)

  datatype Order = Order(
    id: string,
    userId: string,
    userName: string,
    items: seq<OrderItem>,
    subtotal: int,
    tps: int,
    tvq: int,
    total: int,
    status: OrderStatus,
    paymentStatus: PaymentStatus,
    paymentAmount: int,
    createdAt: Timestamp,
    rating: Option<int>)

  /** `'visit' | 'page_view' | 'order' | 'email' | 'call' | 'document' | 'note'`. */
  datatype ActivityType = Visit | PageView | OrderPlaced | EmailSent | Call | Document | Note

  datatype ClientActivity = ClientActivity(
    id: string,
    userId: string,
    kind: ActivityType,
    description: string,
    timestamp: Timestamp,
    addedBy: Option<string>)

  /** An element of the cart context's `items`: a product and a quantity. */
  datatype CartLine = CartLine(product: Product, quantity: int)

  /** The ids the prototype generates: a prefix letter followed by the
      list length plus one, as in `` `u${users.length + 1}` ``. */
  function NextId(prefix: char, count: nat): (r: string)
    ensures |r| >= 2 && r[0] == prefix && AllDigits(r[1..])
  {
    [prefix] + NatToString(count + 1)
  }

  /** Lists of different lengths give different ids. */
  lemma NextIdInjective(prefix: char, a: nat, b: nat)
    requires NextId(prefix, a) == NextId(prefix, b)
    ensures a == b
  {
    assert NextId(prefix, a)[1..] == NatToString(a + 1);
    assert NextId(prefix, b)[1..] == NatToString(b + 1);
    ParseNatToString(a + 1);
    ParseNatToString(b + 1);
  }

  /** JavaScript truthiness of an optional string field: absent and `""`
      are falsy. */
  predicate StrTruthy(s: Option<string>) {
    s.Some? && s.value != ""
  }

  /** JavaScript truthiness of an optional number field: absent and `0`
      are falsy. */
  predicate NumTruthy(n: Option<int>) {
    n.Some? && n.value != 0
  }

  /** The wording after a count on the screens: the plural form only for
      more than one, so zero takes the singular. */
  function Plural(count: int, one: string, many: string): string {
    if count > 1 then many else one
  }

  /** `s || d` for a string. */
  function OrStr(s: Option<string>, d: string): (r: string)
    ensures StrTruthy(s) ==> r == s.value
    ensures !StrTruthy(s) ==> r == d
  {
    if StrTruthy(s) then s.value else d
  }

  /** `n || d` for a number. */
  function OrNum(n: Option<int>, d: int): (r: int)
    ensures NumTruthy(n) ==> r == n.value
    ensures !NumTruthy(n) ==> r == d
  {
    if NumTruthy(n) then n.value else d
  }
}

=== FILE: inventory.dfy ===
/** `src/components/InventoryManagement.tsx`: the stock screen with its
    own product shape, whose status is one of three stored labels. The
    stock value total is a floating-point sum and is not modelled. */
module Inventory {
  import opened Text
  import opened Seqs

  /** `'En stock' | 'Stock faible' | 'Rupture'`. */
  datatype StockStatus = InStock | LowStock | OutOfStock

  datatype Item = Item(
    id: string,
    sku: string,
    name: string,
    category: string,
    quantity: int,
    minQuantity: int,
    price: int,
    supplier: string,
    status: StockStatus)

  const AllCategories := "all"

  /** The `categories` list of the category selector. */
  const Categories: seq<string> := ["all", "Vêtements", "Sacs", "Chaussures", "Camping", "Accessoires"]

  /** The body of the `filter` callback: name or SKU contains the query,
      ignoring ASCII case, and the category matches. */
  predicate Shown(query: string, category: string, p: Item) {
    && (Contains(LowerStr(p.name), LowerStr(query)) || Contains(LowerStr(p.sku), LowerStr(query)))
    && (category == AllCategories || p.category == category)
  }

  /** `filteredProducts`. */
  function FilteredProducts(items: seq<Item>, query: string, category: string): (r: seq<Item>)
    ensures forall i :: 0 <= i < |r| ==> Shown(query, category, r[i])
    ensures forall p :: p in items && Shown(query, category, p) ==> p in r
    ensures forall p :: multiset(r)[p] == if Shown(query, category, p) then multiset(items)[p] else 0
    ensures IsSubsequence(r, items)
  {
    FilterIsSubsequence(items, p => Shown(query, category, p));
    Filter(items, p => Shown(query, category, p))
  }

  /** Without a query and with every category, every item is listed. */
  lemma EmptyQueryListsAll(items: seq<Item>)
    ensures FilteredProducts(items, "", AllCategories) == items
  {
    forall i | 0 <= i < |items| ensures Shown("", AllCategories, items[i]) {
      ContainsEmpty(LowerStr(items[i].name));
    }
    FilterAll(items, p => Shown("", AllCategories, p));
  }

  datatype Summary = Summary(total: nat, inStock: nat, lowStock: nat, outOfStock: nat)

  function IsInStock(p: Item): bool { p.status == InStock }
  function IsLowStock(p: Item): bool { p.status == LowStock }
  function IsOutOfStock(p: Item): bool { p.status == OutOfStock }

  /** `stockSummary`, without `totalValue`. */
  function StockSummary(items: seq<Item>): (r: Summary)
    ensures r.total == |items|
    ensures r.inStock == Count(items, IsInStock) && r.lowStock == Count(items, IsLowStock) && r.outOfStock == Count(items, IsOutOfStock)
    ensures r.inStock + r.lowStock + r.outOfStock == r.total
  {
    CountPartition3(items, IsInStock, IsLowStock, IsOutOfStock);
    Summary(|items|, Count(items, IsInStock), Count(items, IsLowStock), Count(items, IsOutOfStock))
  }

  function NotAll(c: string): bool { c != AllCategories }

  /** The options under "Toutes les catégories". */
  function CategoryOptions(categories: seq<string>): (r: seq<string>)
    ensures forall c :: c in r <==> c in categories && c != AllCategories
    ensures forall c :: multiset(r)[c] == if c != AllCategories then multiset(categories)[c] else 0
    ensures IsSubsequence(r, categories)
  {
    FilterIsSubsequence(categories, NotAll);
    Filter(categories, NotAll)
  }

  /** The selector offers the five product families, in the list's order. */
  lemma CategoryOptionsAreFamilies()
    ensures CategoryOptions(Categories) == Categories[1..]
  {
    assert Categories == [Categories[0]] + Categories[1..];
    FilterAll(Categories[1..], NotAll);
  }
}

=== FILE: login_page.dfy ===
/** `frontend/components/LoginPage.tsx`: the login/sign-up form. A submit
    clears the error, then either logs in or signs up through the account
    store; `onLoginSuccess` being called is reported as `succeeded`. */
module LoginPage {
  import opened Wrappers
  import opened Text
  import opened Data
  import opened AuthContext

  datatype Form = Form(isLogin: bool, email: string, password: string, name: string, error: string)

  datatype Submitted = Submitted(form: Form, auth: AuthState, succeeded: bool)

  const InvalidCredentials := "Email ou mot de passe invalide"
  const NameRequired := "Le nom est requis"
  const EmailInUse := "Cet email est déjà utilisé"

  /** `handleSubmit`; `now` is the creation date a sign-up would record. */
  function HandleSubmit(f: Form, auth: AuthState, now: Timestamp): (r: Submitted)
    ensures r.form == f.(error := r.form.error)
    ensures r.succeeded ==> r.form.error == ""
    ensures f.isLogin ==> r.succeeded == Login(auth, f.email, f.password).1 && r.auth == Login(auth, f.email, f.password).0
    ensures f.isLogin && !r.succeeded ==> r.form.error == InvalidCredentials
    ensures !f.isLogin && IsBlank(f.name) ==> r == Submitted(f.(error := NameRequired), auth, false)
    ensures !f.isLogin && !IsBlank(f.name) ==>
      && r.succeeded == Signup(auth, f.email, f.password, f.name, now).1
      && r.auth == Signup(auth, f.email, f.password, f.name, now).0
      && (!r.succeeded ==> r.form.error == EmailInUse)
    ensures !r.succeeded ==> r.auth == auth
  {
    var cleared := f.(error := "");
    if f.isLogin then
      var (next, ok) := Login(auth, f.email, f.password);
      if ok then Submitted(cleared, next, true) else Submitted(cleared.(error := InvalidCredentials), next, false)
    else if IsBlank(f.name) then Submitted(cleared.(error := NameRequired), auth, false)
    else
      var (next, ok) := Signup(auth, f.email, f.password, f.name, now);
      if ok then Submitted(cleared, next, true) else Submitted(cleared.(error := EmailInUse), next, false)
  }

  /** The link under the button: switches between the two modes and clears
      the error. */
  function ToggleMode(f: Form): (r: Form)
    ensures r.isLogin == !f.isLogin && r.error == ""
    ensures r.email == f.email && r.password == f.password && r.name == f.name
  {
    f.(isLogin := !f.isLogin, error := "")
  }

  /** Switching twice returns to the same form with the error cleared. */
  lemma ToggleTwice(f: Form)
    ensures ToggleMode(ToggleMode(f)) == f.(error := "")
  {
  }

  /** A sign-up whose name is only whitespace never reaches the account
      store. */
  lemma BlankNameRejected(f: Form, auth: AuthState, now: Timestamp, ws: string)
    requires !f.isLogin && f.name == ws && forall i :: 0 <= i < |ws| ==> ws[i] == ' ' || ws[i] == '\t'
    ensures HandleSubmit(f, auth, now).auth == auth && !HandleSubmit(f, auth, now).succeeded
    ensures HandleSubmit(f, auth, now).form.error == NameRequired
  {
    assert IsBlank(f.name);
  }
}

=== FILE: order_history.dfy ===
/** `frontend/components/OrderHistory.tsx`: a client's list of past orders,
    each card expandable to its lines, with status badges, the
    partial-payment lines and the rating stars. */
module OrderHistory {
  import opened Wrappers
  import opened Seqs
  import opened Data

  /** `userOrders`: with nobody logged in, `user?.id` is `undefined` and no
      order's `userId` equals it. */
  function UserOrders(orders: seq<Order>, user: Option<User>): (r: seq<Order>)
    ensures user.None? ==> r == []
    ensures user.Some? ==> forall o :: o in r <==> o in orders && o.userId == user.value.id
    ensures user.Some? ==> forall o :: multiset(r)[o] == if o.userId == user.value.id then multiset(orders)[o] else 0
    ensures IsSubsequence(r, orders)
  {
    match user
    case None =>
      assert IsSubsequence([], orders);
      []
    case Some(u) =>
      FilterIsSubsequence(orders, (o: Order) => o.userId == u.id);
      Filter(orders, (o: Order) => o.userId == u.id)
  }

  /** The "Aucune commande" card. */
  predicate ShowEmptyState(orders: seq<Order>, user: Option<User>) {
    |UserOrders(orders, user)| == 0
  }

  /** A client sees the empty-state card exactly when no order is theirs. */
  lemma EmptyStateIffNoOrder(orders: seq<Order>, u: User)
    ensures ShowEmptyState(orders, Some(u)) <==> forall i :: 0 <= i < |orders| ==> orders[i].userId != u.id
  {
    var r := UserOrders(orders, Some(u));
    if |r| > 0 {
      assert r[0] in r;
    } else {
      forall i | 0 <= i < |orders| ensures orders[i].userId != u.id {
        assert orders[i] in orders;
        assert orders[i] !in r;
      }
    }
  }

  /** A click on an order's item line: expands it, or collapses it when it
      is the expanded one. One id at most is expanded. */
  function ToggleExpanded(expanded: Option<string>, orderId: string): (r: Option<string>)
    ensures r == Some(orderId) <==> expanded != Some(orderId)
    ensures r.Some? ==> r.value == orderId
  {
    if expanded == Some(orderId) then None else Some(orderId)
  }

  /** Clicking twice on the same order restores the view when that order
      was the expanded one or none was; otherwise it collapses everything. */
  lemma ToggleTwice(expanded: Option<string>, orderId: string)
    ensures expanded.None? || expanded == Some(orderId) ==> ToggleExpanded(ToggleExpanded(expanded, orderId), orderId) == expanded
    ensures expanded.Some? && expanded != Some(orderId) ==> ToggleExpanded(ToggleExpanded(expanded, orderId), orderId).None?
  {
  }

  /** `getStatusLabel`. */
  function StatusLabel(s: OrderStatus): string {
    match s
    case Reception => "Réception"
    case Preparation => "Préparation"
    case Shipped => "Expédiée"
    case Invoiced => "Facturée"
    case Closed => "Payée/Fermée"
  }

  /** `getPaymentStatusLabel`. */
  function PaymentLabel(s: PaymentStatus): string {
    match s
    case Paid => "Payé"
    case Pending => "En attente"
    case Partial => "Partiel"
  }

  /** Different statuses read differently. */
  lemma LabelsDistinct(a: OrderStatus, b: OrderStatus, p: PaymentStatus, q: PaymentStatus)
    ensures StatusLabel(a) == StatusLabel(b) ==> a == b
    ensures PaymentLabel(p) == PaymentLabel(q) ==> p == q
  {
  }

  /** `order.rating &&`: the stars show for a present, non-zero rating, so
      the `order.rating!` inside is never read on a missing rating, and a
      positive rating fills at least one star. */
  function ShowRating(o: Order): (r: bool)
    ensures r ==> o.rating.Some?
    ensures !r <==> o.rating.None? || o.rating.value == 0
    ensures r && o.rating.value > 0 ==> Count(Stars(o.rating.value), IsFilled) >= 1
  {
    if o.rating.Some? then
      FilledStars(o.rating.value);
      NumTruthy(o.rating)
    else false
  }

  /** The five stars, `true` for a filled one: star `k` is filled when
      `k <= rating`. */
  function Stars(rating: int): (r: seq<bool>)
    ensures |r| == 5
    ensures forall i :: 0 <= i < 5 ==> r[i] == (i + 1 <= rating)
  {
    seq(5, i requires 0 <= i < 5 => i + 1 <= rating)
  }

  function IsFilled(b: bool): bool { b }

  /** The number of filled stars is the rating clamped to 0..5. */
  lemma FilledStars(rating: int)
    ensures Count(Stars(rating), IsFilled) == if rating < 0 then 0 else if rating > 5 then 5 else rating
  {
    var m := if rating < 0 then 0 else if rating > 5 then 5 else rating;
    FilledPrefix(Stars(rating), m);
  }

  /** A row whose first `m` stars are filled and the rest empty has `m`
      filled stars. */
  lemma {:induction false} FilledPrefix(s: seq<bool>, m: nat)
    requires m <= |s|
    requires forall i :: 0 <= i < |s| ==> s[i] == (i < m)
    ensures Count(s, IsFilled) == m
    decreases |s|
  {
    if |s| > 0 {
      FilterLengthCons(s, IsFilled);
      var t := s[1..];
      assert forall i :: 0 <= i < |t| ==> t[i] == s[i + 1];
      FilledPrefix(t, if m == 0 then 0 else m - 1);
    }
  }

  /** The header's noun. */
  function OrderNoun(count: nat): string {
    Plural(count, "commande", "commandes")
  }
}

=== FILE: product_catalog.dfy ===
/** `frontend/components/ProductCatalog.tsx`: the client's product grid. The
    cart context is not modelled; a click on "add" is reported as the
    `addToCart(product, quantity)` call it would make. */
module ProductCatalog {
  import opened Wrappers
  import opened Text
  import opened Seqs
  import opened Data

  const AllCategories := "all"

  /** `includes` after `toLowerCase` on both sides. */
  predicate MatchesText(field: string, term: string) {
    Contains(LowerStr(field), LowerStr(term))
  }

  /** The body of the `filter` callback. */
  predicate Listed(term: string, category: string, p: Product) {
    && (MatchesText(p.name, term) || MatchesText(p.code, term))
    && (category == AllCategories || p.category == category)
    && p.status == Active
  }

  /** `filteredProducts`. */
  function FilteredProducts(products: seq<Product>, term: string, category: string): (r: seq<Product>)
    ensures forall i :: 0 <= i < |r| ==> r[i].status == Active
    ensures forall i :: 0 <= i < |r| ==> MatchesText(r[i].name, term) || MatchesText(r[i].code, term)
    ensures forall i :: 0 <= i < |r| ==> category == AllCategories || r[i].category == category
    ensures forall p :: p in products && Listed(term, category, p) ==> p in r
    ensures forall p :: multiset(r)[p] == if Listed(term, category, p) then multiset(products)[p] else 0
    ensures IsSubsequence(r, products)
  {
    var r := Filter(products, p => Listed(term, category, p));
    FilterIsSubsequence(products, p => Listed(term, category, p));
    r
  }

  function IsActive(p: Product): bool { p.status == Active }

  /** Without a search term and with every category, the grid is exactly
      the active products. */
  lemma EmptySearchListsActive(products: seq<Product>)
    ensures FilteredProducts(products, "", AllCategories) == Filter(products, IsActive)
  {
    forall i | 0 <= i < |products|
      ensures Listed("", AllCategories, products[i]) == IsActive(products[i])
    {
      ContainsEmpty(LowerStr(products[i].name));
    }
    FilterCongruent(products, p => Listed("", AllCategories, p), IsActive);
  }

  /** `categories`: every product's category once. */
  function Categories(products: seq<Product>): (r: seq<string>)
    ensures forall c :: c in r <==> exists p :: p in products && p.category == c
    ensures forall i, j :: 0 <= i < j < |r| ==> r[i] != r[j]
  {
    var cats := seq(|products|, i requires 0 <= i < |products| => products[i].category);
    assert forall c :: c in cats <==> exists p :: p in products && p.category == c by {
      forall c | c in cats ensures exists p :: p in products && p.category == c {
        var i :| 0 <= i < |cats| && cats[i] == c;
        assert products[i] in products;
      }
      forall c | exists p :: p in products && p.category == c ensures c in cats {
        var p :| p in products && p.category == c;
        var i :| 0 <= i < |products| && products[i] == p;
        assert cats[i] == c;
      }
    }
    Distinct(cats)
  }

  /** The categories come in the order in which the products first use
      them. */
  lemma CategoriesInFirstUseOrder(products: seq<Product>)
    ensures var cats := seq(|products|, i requires 0 <= i < |products| => products[i].category);
            Categories(products) == Distinct(cats)
            && forall i, j :: 0 <= i < j < |Categories(products)| ==>
                 FirstIndex(cats, Categories(products)[i]) < FirstIndex(cats, Categories(products)[j])
  {
    var cats := seq(|products|, i requires 0 <= i < |products| => products[i].category);
    DistinctFirstAppearance(cats);
  }

  /** What a click on a card's "add" button does: the cart call, if any,
      and the product id put into `addedToCart` for the confirmation tick. */
  datatype AddClick = AddClick(call: Option<(Product, int)>, addedToCart: Option<string>)

  /** `handleAddToCart`; `shown` is the current `addedToCart`. */
  function HandleAddToCart(p: Product, shown: Option<string>): (r: AddClick)
    ensures p.stock > 0 ==> r == AddClick(Some((p, 1)), Some(p.id))
    ensures p.stock <= 0 ==> r == AddClick(None, shown)
  {
    if p.stock > 0 then AddClick(Some((p, 1)), Some(p.id)) else AddClick(None, shown)
  }

  /** The orange "Stock bas" badge. */
  predicate LowStockBadge(p: Product) {
    p.stock <= p.reorderLevel
  }

  /** The add button's `disabled`. */
  predicate AddDisabled(p: Product) {
    p.stock == 0
  }

  /** For a non-negative stock, the button is enabled exactly when a click
      adds one unit; a disabled button would do nothing anyway. An
      out-of-stock product with a non-negative reorder level also carries
      the low-stock badge. */
  lemma AddButtonAgrees(p: Product, shown: Option<string>)
    requires p.stock >= 0
    ensures !AddDisabled(p) <==> HandleAddToCart(p, shown).call == Some((p, 1))
    ensures AddDisabled(p) ==> HandleAddToCart(p, shown) == AddClick(None, shown)
    ensures AddDisabled(p) && p.reorderLevel >= 0 ==> LowStockBadge(p)
  {
  }

  /** A negative stock is not disabled, yet clicking does nothing. */
  lemma NegativeStockEnabledButInert(p: Product, shown: Option<string>)
    requires p.stock < 0
    ensures !AddDisabled(p) && HandleAddToCart(p, shown).call.None?
  {
  }
}

=== FILE: product_detail.dfy ===
/** `frontend/components/ProductDetail.tsx`: the page of one product, with a
    quantity field and an "add to cart" button. `parseInt` is a parameter:
    the typed text arrives already parsed, `None` standing for `NaN`. */
module ProductDetail {
  import opened Wrappers
  import opened Data

  datatype DetailState = DetailState(quantity: int, showSuccess: bool)

  const Initial := DetailState(1, false)

  /** The `onChange` of the quantity field: `parseInt(value) || 1`. */
  function QuantityInput(parsed: Option<int>): (q: int)
    ensures parsed.None? || parsed.value == 0 ==> q == 1
    ensures parsed.Some? && parsed.value != 0 ==> q == parsed.value
    ensures q != 0
  {
    OrNum(parsed, 1)
  }

  /** `handleAddToCart`: the cart call it makes, if any, and the next
      state. */
  function HandleAddToCart(p: Product, st: DetailState): (r: (Option<(Product, int)>, DetailState))
    ensures r.0.Some? <==> 0 < st.quantity <= p.stock
    ensures r.0.Some? ==> r.0.value == (p, st.quantity) && r.1 == st.(showSuccess := true)
    ensures r.0.None? ==> r.1 == st
  {
    if 0 < st.quantity <= p.stock then (Some((p, st.quantity)), st.(showSuccess := true)) else (None, st)
  }

  /** `needsReorder`. */
  predicate NeedsReorder(p: Product) {
    p.stock <= p.reorderLevel
  }

  /** The reorder alert; `staff` is `isEmployee()`. */
  predicate ShowReorderAlert(p: Product, staff: bool) {
    NeedsReorder(p) && staff
  }

  /** The quantity field and button are shown; otherwise the out-of-stock
      notice is. */
  predicate ShowControls(p: Product) {
    p.stock > 0
  }

  /** The button's `disabled`, which is also when "Quantité non disponible"
      appears. */
  predicate AddDisabled(p: Product, st: DetailState) {
    st.quantity > p.stock
  }

  /** The success text after the count. */
  function SuccessText(quantity: int): string {
    Plural(quantity, "produit ajouté", "produits ajoutés")
  }

  /** With the controls visible and a positive quantity, the button is
      enabled exactly when a click reaches the cart. */
  lemma ButtonMatchesGuard(p: Product, st: DetailState)
    requires ShowControls(p) && st.quantity > 0
    ensures !AddDisabled(p, st) <==> HandleAddToCart(p, st).0.Some?
  {
  }

  /** Typing a negative number keeps it (`-3 || 1` is `-3`): the button is
      enabled but a click adds nothing. */
  lemma NegativeQuantityInert(p: Product, st: DetailState, n: int)
    requires ShowControls(p) && n < 0
    ensures QuantityInput(Some(n)) == n
    ensures !AddDisabled(p, st.(quantity := QuantityInput(Some(n))))
    ensures HandleAddToCart(p, st.(quantity := QuantityInput(Some(n)))).0.None?
  {
  }

  /** A field cleared or set to zero falls back to one unit, which an
      in-stock product always accepts. */
  lemma ClearedFieldAddsOne(p: Product, st: DetailState, parsed: Option<int>)
    requires ShowControls(p) && (parsed.None? || parsed.value == 0)
    ensures HandleAddToCart(p, st.(quantity := QuantityInput(parsed))).0 == Some((p, 1))
  {
  }

  /** A customer never sees the reorder alert, and staff see it exactly
      when the stock is at or below the reorder level. */
  lemma ReorderAlertStaffOnly(p: Product)
    ensures !ShowReorderAlert(p, false)
    ensures ShowReorderAlert(p, true) <==> p.stock <= p.reorderLevel
  {
  }
}

=== FILE: seqs.dfy ===
/** Sequence helpers shared by the front-end models: `Array.filter`,
    `filter(...).length`, `reduce` sums, the stable `Array.sort` in
    descending order of a numeric key, and the `reduce` into a
    `Record<string, number>` that counts occurrences per key. */
module Seqs {

  /** `a` is obtained from `b` by deleting zero or more elements. */
  ghost predicate IsSubsequence<T(!new)>(a: seq<T>, b: seq<T>)
    decreases |b|
  {
    |a| == 0 || (|b| > 0 && ((a[0] == b[0] && IsSubsequence(a[1..], b[1..])) || IsSubsequence(a, b[1..])))
  }

  lemma {:induction false} SubsequenceRefl<T(!new)>(a: seq<T>)
    ensures IsSubsequence(a, a)
    decreases |a|
  {
    if |a| > 0 {
      SubsequenceRefl(a[1..]);
    }
  }

  /** Prepending to the larger sequence keeps the relation. */
  lemma {:induction false} SubsequenceExtend<T(!new)>(a: seq<T>, c: seq<T>, b: seq<T>)
    requires IsSubsequence(a, b)
    ensures IsSubsequence(a, c + b)
    decreases |c|
  {
    if |c| == 0 {
      assert c + b == b;
    } else if |a| > 0 {
      SubsequenceExtend(a, c[1..], b);
      assert (c + b)[1..] == c[1..] + b;
    }
  }

  lemma {:induction false} SubsequenceConcat<T(!new)>(a1: seq<T>, b1: seq<T>, a2: seq<T>, b2: seq<T>)
    requires IsSubsequence(a1, b1) && IsSubsequence(a2, b2)
    ensures IsSubsequence(a1 + a2, b1 + b2)
    decreases |b1|
  {
    if |a1| == 0 {
      assert a1 + a2 == a2;
      SubsequenceExtend(a2, b1, b2);
    } else {
      assert (b1 + b2)[1..] == b1[1..] + b2;
      if a1[0] == b1[0] && IsSubsequence(a1[1..], b1[1..]) {
        SubsequenceConcat(a1[1..], b1[1..], a2, b2);
        assert (a1 + a2)[1..] == a1[1..] + a2;
      } else {
        SubsequenceConcat(a1, b1[1..], a2, b2);
      }
    }
  }

  /** `Array.prototype.filter`: the elements satisfying `p`, in order. */
  function Filter<T(!new)>(s: seq<T>, p: T -> bool): (r: seq<T>)
    ensures |r| <= |s|
    ensures forall i :: 0 <= i < |r| ==> p(r[i])
    ensures forall x :: x in r <==> x in s && p(x)
    ensures forall x :: multiset(r)[x] == if p(x) then multiset(s)[x] else 0
  {
    if |s| == 0 then []
    else
      assert s == [s[0]] + s[1..];
      if p(s[0]) then [s[0]] + Filter(s[1..], p)
      else Filter(s[1..], p)
  }

  /** The length of a filter, one element at a time. */
  lemma FilterLengthCons<T(!new)>(s: seq<T>, p: T -> bool)
    requires |s| > 0
    ensures |Filter(s, p)| == (if p(s[0]) then 1 else 0) + |Filter(s[1..], p)|
  {
  }

  lemma {:induction false} FilterIsSubsequence<T(!new)>(s: seq<T>, p: T -> bool)
    ensures IsSubsequence(Filter(s, p), s)
  {
    if |s| > 0 {
      FilterIsSubsequence(s[1..], p);
      if p(s[0]) {
        assert Filter(s, p)[1..] == Filter(s[1..], p);
      }
    }
  }

  lemma {:induction false} FilterAll<T(!new)>(s: seq<T>, p: T -> bool)
    requires forall i :: 0 <= i < |s| ==> p(s[i])
    ensures Filter(s, p) == s
  {
    if |s| > 0 {
      FilterAll(s[1..], p);
    }
  }

  /** `Filter` distributes over concatenation. */
  lemma {:induction false} FilterAppend<T(!new)>(a: seq<T>, b: seq<T>, p: T -> bool)
    ensures Filter(a + b, p) == Filter(a, p) + Filter(b, p)
  {
    if |a| == 0 {
      assert a + b == b;
    } else {
      assert (a + b)[1..] == a[1..] + b;
      FilterAppend(a[1..], b, p);
    }
  }

  /** Predicates that agree on the elements of `s` filter it alike. */
  lemma {:induction false} FilterCongruent<T(!new)>(s: seq<T>, p: T -> bool, q: T -> bool)
    requires forall i :: 0 <= i < |s| ==> p(s[i]) == q(s[i])
    ensures Filter(s, p) == Filter(s, q)
  {
    if |s| > 0 {
      FilterCongruent(s[1..], p, q);
    }
  }

  /** The position of the first occurrence of `x`. */
  function FirstIndex<T(==,!new)>(s: seq<T>, x: T): (i: nat)
    requires x in s
    ensures i < |s| && s[i] == x
    ensures forall j :: 0 <= j < i ==> s[j] != x
  {
    if s[0] == x then 0 else 1 + FirstIndex(s[1..], x)
  }

  /** Appending never moves a first occurrence. */
  lemma FirstIndexAppend<T(!new)>(s: seq<T>, y: T, x: T)
    requires x in s
    ensures FirstIndex(s + [y], x) == FirstIndex(s, x)
  {
    var i := FirstIndex(s, x);
    var k := FirstIndex(s + [y], x);
    assert (s + [y])[i] == x;
  }

  /** `Array.from(new Set(s))`: every element once, kept where it first
      appears. */
  function Distinct<T(==,!new)>(s: seq<T>): (r: seq<T>)
    ensures forall x :: x in r <==> x in s
    ensures forall i, j :: 0 <= i < j < |r| ==> r[i] != r[j]
    decreases |s|
  {
    if |s| == 0 then []
    else
      var d := Distinct(s[..|s| - 1]);
      if s[|s| - 1] in d then d else d + [s[|s| - 1]]
  }

  /** The elements of `Distinct(s)` come in the order of their first
      occurrences in `s`. */
  lemma {:induction false} DistinctFirstAppearance<T(!new)>(s: seq<T>)
    ensures forall i, j :: 0 <= i < j < |Distinct(s)| ==> FirstIndex(s, Distinct(s)[i]) < FirstIndex(s, Distinct(s)[j])
    decreases |s|
  {
    if |s| > 0 {
      var init, last := s[..|s| - 1], s[|s| - 1];
      assert s == init + [last];
      var d := Distinct(init);
      DistinctFirstAppearance(init);
      forall x | x in init ensures FirstIndex(s, x) == FirstIndex(init, x) {
        FirstIndexAppend(init, last, x);
      }
      var r := Distinct(s);
      forall i, j | 0 <= i < j < |r| ensures FirstIndex(s, r[i]) < FirstIndex(s, r[j]) {
        assert r[i] == d[i] && r[i] in init;
        if j < |d| {
          assert r[j] == d[j] && r[j] in init;
        } else {
          assert r[j] == last && last !in init;
          assert FirstIndex(s, last) == |init|;
        }
      }
    }
  }

  /** `s.filter(p).length`. */
  function Count<T(!new)>(s: seq<T>, p: T -> bool): nat {
    |Filter(s, p)|
  }

  /** When every element satisfies exactly one of three predicates, the
      three counts add up to the length. */
  lemma {:induction false} CountPartition3<T(!new)>(s: seq<T>, a: T -> bool, b: T -> bool, c: T -> bool)
    requires forall i :: 0 <= i < |s| ==> (if a(s[i]) then 1 else 0) + (if b(s[i]) then 1 else 0) + (if c(s[i]) then 1 else 0) == 1
    ensures Count(s, a) + Count(s, b) + Count(s, c) == |s|
  {
    if |s| > 0 {
      CountPartition3(s[1..], a, b, c);
    }
  }

  /** `s.reduce((acc, x) => acc + f(x), 0)`. */
  function SumBy<T(!new)>(s: seq<T>, f: T -> int): int {
    if |s| == 0 then 0 else f(s[0]) + SumBy(s[1..], f)
  }

  lemma SumByCons<T(!new)>(x: T, s: seq<T>, f: T -> int)
    ensures SumBy([x] + s, f) == f(x) + SumBy(s, f)
  {
    assert ([x] + s)[1..] == s;
  }

  lemma {:induction false} SumByAppend<T(!new)>(a: seq<T>, b: seq<T>, f: T -> int)
    ensures SumBy(a + b, f) == SumBy(a, f) + SumBy(b, f)
  {
    if |a| == 0 {
      assert a + b == b;
    } else {
      assert (a + b)[1..] == a[1..] + b;
      SumByAppend(a[1..], b, f);
    }
  }

  /** Non-increasing in `key`. */
  ghost predicate SortedDesc<T(!new)>(s: seq<T>, key: T -> int) {
    forall i, j :: 0 <= i < j < |s| ==> key(s[i]) >= key(s[j])
  }

  /** Inserts `x` before the first element whose key is not larger, so that
      earlier elements stay ahead of later ones with the same key. */
  function Insert<T(!new)>(x: T, s: seq<T>, key: T -> int): (r: seq<T>)
    ensures |r| == |s| + 1
    ensures multiset(r) == multiset(s) + multiset{x}
  {
    if |s| == 0 || key(s[0]) <= key(x) then [x] + s
    else
      assert s == [s[0]] + s[1..];
      [s[0]] + Insert(x, s[1..], key)
  }

  /** An upper bound on the keys survives insertion. */
  lemma InsertBounded<T(!new)>(x: T, s: seq<T>, key: T -> int, b: int)
    requires key(x) <= b
    requires forall i :: 0 <= i < |s| ==> key(s[i]) <= b
    ensures forall i :: 0 <= i < |Insert(x, s, key)| ==> key(Insert(x, s, key)[i]) <= b
  {
    var r := Insert(x, s, key);
    forall i | 0 <= i < |r| ensures key(r[i]) <= b {
      assert r[i] in multiset(r);
      if r[i] != x {
        assert r[i] in multiset(s);
      }
    }
  }

  lemma {:induction false} InsertSorted<T(!new)>(x: T, s: seq<T>, key: T -> int)
    requires SortedDesc(s, key)
    ensures SortedDesc(Insert(x, s, key), key)
  {
    if |s| > 0 && key(s[0]) > key(x) {
      InsertSorted(x, s[1..], key);
      assert forall i :: 0 <= i < |s[1..]| ==> key(s[1..][i]) <= key(s[0]) by {
        assert forall i :: 0 <= i < |s[1..]| ==> s[1..][i] == s[i + 1];
      }
      InsertBounded(x, s[1..], key, key(s[0]));
      ConsSorted(s[0], Insert(x, s[1..], key), key);
    } else {
      assert forall i :: 0 <= i < |s| ==> key(s[i]) <= key(x) by {
        if |s| > 0 {
          assert forall i :: 0 <= i < |s| ==> key(s[i]) <= key(s[0]);
        }
      }
      ConsSorted(x, s, key);
    }
  }

  /** A head no smaller than every key of a sorted tail keeps it sorted. */
  lemma ConsSorted<T(!new)>(h: T, tail: seq<T>, key: T -> int)
    requires SortedDesc(tail, key)
    requires forall i :: 0 <= i < |tail| ==> key(tail[i]) <= key(h)
    ensures SortedDesc([h] + tail, key)
  {
    var r := [h] + tail;
    forall i, j | 0 <= i < j < |r| ensures key(r[i]) >= key(r[j]) {
      assert r[j] == tail[j - 1];
      if i > 0 {
        assert r[i] == tail[i - 1];
      }
    }
  }

  /** The elements whose key is `v`, in order. */
  function WithKey<T>(s: seq<T>, key: T -> int, v: int): seq<T> {
    if |s| == 0 then [] else (if key(s[0]) == v then [s[0]] else []) + WithKey(s[1..], key, v)
  }

  /** Insertion puts `x` ahead of every element with its key. */
  lemma {:induction false} WithKeyInsert<T(!new)>(x: T, s: seq<T>, key: T -> int, v: int)
    ensures WithKey(Insert(x, s, key), key, v) == (if key(x) == v then [x] else []) + WithKey(s, key, v)
  {
    var r := Insert(x, s, key);
    if |s| == 0 || key(s[0]) <= key(x) {
      assert r[1..] == s;
    } else {
      var tail := Insert(x, s[1..], key);
      assert r[1..] == tail;
      WithKeyInsert(x, s[1..], key, v);
      var a := if key(s[0]) == v then [s[0]] else [];
      var xs := if key(x) == v then [x] else [];
      assert a == [] || xs == [];
      assert WithKey(r, key, v) == a + (xs + WithKey(s[1..], key, v));
      assert WithKey(s, key, v) == a + WithKey(s[1..], key, v);
    }
  }

  /** The stable `Array.prototype.sort((a, b) => key(b) - key(a))`: the
      elements with the same key keep their order. */
  function SortDesc<T(!new)>(s: seq<T>, key: T -> int): (r: seq<T>)
    ensures |r| == |s|
    ensures multiset(r) == multiset(s)
    ensures SortedDesc(r, key)
    ensures forall v :: WithKey(r, key, v) == WithKey(s, key, v)
  {
    if |s| == 0 then []
    else
      var rest := SortDesc(s[1..], key);
      InsertSorted(s[0], rest, key);
      MultisetCons(s);
      forall v ensures WithKey(Insert(s[0], rest, key), key, v) == WithKey(s, key, v) {
        WithKeyInsert(s[0], rest, key, v);
      }
      Insert(s[0], rest, key)
  }

  lemma MultisetCons<T>(s: seq<T>)
    requires |s| > 0
    ensures multiset(s) == multiset(s[1..]) + multiset{s[0]}
  {
    assert s == [s[0]] + s[1..];
  }

  lemma {:induction false} SumByInsert<T(!new)>(x: T, s: seq<T>, key: T -> int, f: T -> int)
    ensures SumBy(Insert(x, s, key), f) == f(x) + SumBy(s, f)
  {
    if |s| > 0 && key(s[0]) > key(x) {
      SumByInsert(x, s[1..], key, f);
    }
  }

  /** Sorting does not change a sum. */
  lemma {:induction false} SumBySort<T(!new)>(s: seq<T>, key: T -> int, f: T -> int)
    ensures SumBy(SortDesc(s, key), f) == SumBy(s, f)
  {
    if |s| > 0 {
      SumBySort(s[1..], key, f);
      SumByInsert(s[0], SortDesc(s[1..], key), key, f);
    }
  }

  /** No two positions carry the same `k`. */
  ghost predicate DistinctBy<T(!new), K>(s: seq<T>, k: T -> K) {
    forall i, j :: 0 <= i < |s| && 0 <= j < |s| && i != j ==> k(s[i]) != k(s[j])
  }

  lemma {:induction false} InsertDistinctBy<T(!new), K>(x: T, s: seq<T>, key: T -> int, k: T -> K)
    requires DistinctBy(s, k)
    requires forall y :: y in s ==> k(y) != k(x)
    ensures DistinctBy(Insert(x, s, key), k)
  {
    if |s| > 0 && key(s[0]) > key(x) {
      assert s == [s[0]] + s[1..];
      DistinctByTail(s, k);
      InsertDistinctBy(x, s[1..], key, k);
      var tail := Insert(x, s[1..], key);
      forall y | y in tail ensures k(y) != k(s[0]) {
        assert y in multiset(tail);
        if y != x {
          var j :| 0 <= j < |s[1..]| && s[1..][j] == y;
          assert s[j + 1] == y;
        }
      }
      ConsDistinctBy(s[0], tail, k);
    } else {
      ConsDistinctBy(x, s, k);
    }
  }

  lemma DistinctByTail<T(!new), K>(s: seq<T>, k: T -> K)
    requires |s| > 0 && DistinctBy(s, k)
    ensures DistinctBy(s[1..], k)
  {
    var t := s[1..];
    forall i, j | 0 <= i < |t| && 0 <= j < |t| && i != j ensures k(t[i]) != k(t[j]) {
      assert t[i] == s[i + 1] && t[j] == s[j + 1];
    }
  }

  /** A head whose key no element of a distinct tail shares. */
  lemma ConsDistinctBy<T(!new), K>(h: T, tail: seq<T>, k: T -> K)
    requires DistinctBy(tail, k)
    requires forall y :: y in tail ==> k(y) != k(h)
    ensures DistinctBy([h] + tail, k)
  {
    var r := [h] + tail;
    forall i, j | 0 <= i < |r| && 0 <= j < |r| && i != j ensures k(r[i]) != k(r[j]) {
      if i == 0 {
        assert r[j] == tail[j - 1];
      } else if j == 0 {
        assert r[i] == tail[i - 1];
      } else {
        assert r[i] == tail[i - 1] && r[j] == tail[j - 1];
      }
    }
  }

  lemma {:induction false} SortDistinctBy<T(!new), K>(s: seq<T>, key: T -> int, k: T -> K)
    requires DistinctBy(s, k)
    ensures DistinctBy(SortDesc(s, key), k)
  {
    if |s| > 0 {
      assert DistinctBy(s[1..], k) by {
        forall i, j | 0 <= i < |s[1..]| && 0 <= j < |s[1..]| && i != j ensures k(s[1..][i]) != k(s[1..][j]) {
          assert s[1..][i] == s[i + 1] && s[1..][j] == s[j + 1];
        }
      }
      SortDistinctBy(s[1..], key, k);
      forall y | y in SortDesc(s[1..], key) ensures k(y) != k(s[0]) {
        assert y in multiset(SortDesc(s[1..], key));
        var i :| 0 <= i < |s[1..]| && s[1..][i] == y;
        assert s[i + 1] == y;
      }
      InsertDistinctBy(s[0], SortDesc(s[1..], key), key, k);
    }
  }

  /** A JavaScript object used as a counter: its keys in insertion order
      and the value stored under each. */
  datatype Counter<K> = Counter(order: seq<K>, counts: map<K, nat>)

  /** `c` holds, for every key of `keys` and nothing else, its number of
      occurrences, with keys listed once each. */
  ghost predicate CounterOf<K(!new)>(c: Counter<K>, keys: seq<K>) {
    && (forall i, j :: 0 <= i < j < |c.order| ==> c.order[i] != c.order[j])
    && (forall k :: k in c.counts <==> k in c.order)
    && (forall k :: k in c.order <==> k in keys)
    && (forall k :: k in c.counts ==> c.counts[k] == multiset(keys)[k])
  }

  /** `acc[k] = (acc[k] || 0) + 1`. */
  function Tally<K(==,!new)>(c: Counter<K>, k: K): Counter<K> {
    if k in c.counts then Counter(c.order, c.counts[k := c.counts[k] + 1])
    else Counter(c.order + [k], c.counts[k := 1])
  }

  /** Sum of the values stored under `order`. */
  function SumCounts<K(!new)>(order: seq<K>, m: map<K, nat>): int
    requires forall k :: k in order ==> k in m
  {
    if |order| == 0 then 0 else m[order[0]] + SumCounts(order[1..], m)
  }

  lemma {:induction false} SumCountsFrame<K(!new)>(order: seq<K>, m1: map<K, nat>, m2: map<K, nat>)
    requires forall k :: k in order ==> k in m1 && k in m2 && m1[k] == m2[k]
    ensures SumCounts(order, m1) == SumCounts(order, m2)
  {
    if |order| > 0 {
      SumCountsFrame(order[1..], m1, m2);
    }
  }

  lemma {:induction false} SumCountsAppend<K(!new)>(order: seq<K>, k: K, m: map<K, nat>)
    requires forall x :: x in order ==> x in m
    requires k in m
    ensures SumCounts(order + [k], m) == SumCounts(order, m) + m[k]
  {
    if |order| == 0 {
      assert order + [k] == [k];
    } else {
      assert (order + [k])[1..] == order[1..] + [k];
      SumCountsAppend(order[1..], k, m);
    }
  }

  lemma {:induction false} SumCountsBump<K(!new)>(order: seq<K>, m: map<K, nat>, k: K)
    requires forall i, j :: 0 <= i < j < |order| ==> order[i] != order[j]
    requires forall x :: x in order ==> x in m
    requires k in order
    ensures SumCounts(order, m[k := m[k] + 1]) == SumCounts(order, m) + 1
  {
    var rest := order[1..];
    if order[0] == k {
      assert forall x :: x in rest ==> x != k by {
        forall x | x in rest ensures x != k {
          var j :| 0 <= j < |rest| && rest[j] == x;
          assert order[j + 1] == x;
        }
      }
      SumCountsFrame(rest, m, m[k := m[k] + 1]);
    } else {
      SumCountsBump(rest, m, k);
    }
  }

  /** One more tally keeps the counter exact. */
  lemma TallyStep<K(!new)>(prev: Counter<K>, init: seq<K>, last: K)
    requires CounterOf(prev, init)
    ensures CounterOf(Tally(prev, last), init + [last])
  {
    var c := Tally(prev, last);
    var keys := init + [last];
    assert multiset(keys) == multiset(init) + multiset{last};
    forall k ensures k in c.order <==> k in keys {
      assert k in keys <==> k in init || k == last;
    }
  }

  /** One more tally adds one to the total. */
  lemma TallySum<K(!new)>(prev: Counter<K>, init: seq<K>, last: K)
    requires CounterOf(prev, init)
    requires SumCounts(prev.order, prev.counts) == |init|
    ensures forall k :: k in Tally(prev, last).order ==> k in Tally(prev, last).counts
    ensures SumCounts(Tally(prev, last).order, Tally(prev, last).counts) == |init| + 1
  {
    var c := Tally(prev, last);
    if last in prev.counts {
      SumCountsBump(prev.order, prev.counts, last);
    } else {
      SumCountsFrame(prev.order, prev.counts, c.counts);
      SumCountsAppend(prev.order, last, c.counts);
    }
  }

  /** The counter built by tallying `keys` from left to right. */
  function CountKeys<K(==,!new)>(keys: seq<K>): (c: Counter<K>)
    ensures CounterOf(c, keys)
    ensures forall k :: k in c.order ==> k in c.counts
    ensures SumCounts(c.order, c.counts) == |keys|
    ensures c.order == Distinct(keys)
  {
    if |keys| == 0 then Counter([], map[])
    else
      var init := keys[..|keys| - 1];
      var last := keys[|keys| - 1];
      assert keys == init + [last];
      TallyStep(CountKeys(init), init, last);
      TallySum(CountKeys(init), init, last);
      Tally(CountKeys(init), last)
  }


  /** The key of a `[key, count]` entry. */
  function EntryKey<K>(e: (K, nat)): K { e.0 }

  /** The count of a `[key, count]` entry. */
  function EntryCount<K>(e: (K, nat)): int { e.1 }

  /** `Object.entries(counter)`. */
  function Entries<K(!new)>(c: Counter<K>): (r: seq<(K, nat)>)
    requires forall k :: k in c.order ==> k in c.counts
    ensures |r| == |c.order|
    ensures forall i :: 0 <= i < |r| ==> r[i] == (c.order[i], c.counts[c.order[i]])
    ensures SumBy(r, EntryCount) == SumCounts(c.order, c.counts)
    decreases |c.order|
  {
    if |c.order| == 0 then []
    else [(c.order[0], c.counts[c.order[0]])] + Entries(Counter(c.order[1..], c.counts))
  }

  /** One occurrence count per distinct key, in order of first appearance:
      `Object.entries(keys.reduce((acc, k) => { acc[k] = (acc[k] || 0) + 1;
      return acc }, {}))`. */
  function GroupCount<K(==,!new)>(keys: seq<K>): (r: seq<(K, nat)>)
    ensures DistinctBy(r, EntryKey)
    ensures forall e :: e in r ==> e.0 in keys && e.1 == multiset(keys)[e.0]
    ensures forall k :: k in keys ==> exists e :: e in r && e.0 == k
    ensures SumBy(r, EntryCount) == |keys|
    ensures |r| == |Distinct(keys)| && forall i :: 0 <= i < |r| ==> r[i].0 == Distinct(keys)[i]
  {
    var c := CountKeys(keys);
    EntriesOfCounter(c, keys);
    Entries(c)
  }

  /** The entries of an exact counter: one per key, with its count. */
  lemma EntriesOfCounter<K(!new)>(c: Counter<K>, keys: seq<K>)
    requires CounterOf(c, keys)
    requires forall k :: k in c.order ==> k in c.counts
    ensures DistinctBy(Entries(c), EntryKey)
    ensures forall e :: e in Entries(c) ==> e.0 in keys && e.1 == multiset(keys)[e.0]
    ensures forall k :: k in keys ==> exists e :: e in Entries(c) && e.0 == k
  {
    EntriesDistinct(c);
    EntriesCounts(c, keys);
    EntriesCover(c, keys);
  }

  lemma EntriesDistinct<K(!new)>(c: Counter<K>)
    requires forall i, j :: 0 <= i < j < |c.order| ==> c.order[i] != c.order[j]
    requires forall k :: k in c.order ==> k in c.counts
    ensures DistinctBy(Entries(c), EntryKey)
  {
    var r := Entries(c);
    forall i, j | 0 <= i < |r| && 0 <= j < |r| && i != j ensures EntryKey(r[i]) != EntryKey(r[j]) {
      assert EntryKey(r[i]) == c.order[i] && EntryKey(r[j]) == c.order[j];
    }
  }

  lemma EntriesCounts<K(!new)>(c: Counter<K>, keys: seq<K>)
    requires CounterOf(c, keys)
    requires forall k :: k in c.order ==> k in c.counts
    ensures forall e :: e in Entries(c) ==> e.0 in keys && e.1 == multiset(keys)[e.0]
  {
    var r := Entries(c);
    forall e | e in r ensures e.0 in keys && e.1 == multiset(keys)[e.0] {
      var i :| 0 <= i < |r| && r[i] == e;
      assert e == (c.order[i], c.counts[c.order[i]]);
    }
  }

  lemma EntriesCover<K(!new)>(c: Counter<K>, keys: seq<K>)
    requires forall k :: k in c.order <==> k in keys
    requires forall k :: k in c.order ==> k in c.counts
    ensures forall k :: k in keys ==> exists e :: e in Entries(c) && e.0 == k
  {
    var r := Entries(c);
    forall k | k in keys ensures exists e :: e in r && e.0 == k {
      var i :| 0 <= i < |c.order| && c.order[i] == k;
      assert r[i] in r;
    }
  }

  /** Sorting keeps exactly the same elements. */
  lemma SortDescMembers<T(!new)>(s: seq<T>, key: T -> int)
    ensures forall x :: x in SortDesc(s, key) <==> x in s
  {
    var r := SortDesc(s, key);
    forall x ensures x in r <==> x in s {
      assert x in r <==> x in multiset(r);
      assert x in s <==> x in multiset(s);
    }
  }

  /** `Object.entries` of a per-key tally, then sorted by count, largest
      first; keys with the same count stay in order of first appearance. */
  function RankedCounts<K(==,!new)>(keys: seq<K>): (r: seq<(K, nat)>)
    ensures DistinctBy(r, EntryKey)
    ensures SortedDesc(r, EntryCount)
    ensures SumBy(r, EntryCount) == |keys|
    ensures forall e :: e in r ==> e.0 in keys && e.1 == multiset(keys)[e.0]
    ensures forall k :: k in keys ==> exists e :: e in r && e.0 == k
    ensures forall v :: WithKey(r, EntryCount, v) == WithKey(GroupCount(keys), EntryCount, v)
  {
    var g := GroupCount(keys);
    SortDistinctBy(g, EntryCount, EntryKey);
    SumBySort(g, EntryCount, EntryCount);
    SortDescMembers(g, EntryCount);
    SortDesc(g, EntryCount)
  }
}

=== FILE: session.dfy ===
/** `api/session_helper.php`: what the PHP session says about the caller,
    the JSON envelope every endpoint answers with, and the two guards that
    end a request early. */
module SessionHelper {
  import opened Wrappers
  import opened CartArray

  /** The keys of `$_SESSION` the back end reads; an unset (or null) key is
      `None`. The cart is the ordered array of product ids and quantities. */
  datatype Session = Session(
    userId: Option<int>,
    email: Option<string>,
    nom: Option<string>,
    role: Option<string>,
    clientId: Option<int>,
    panier: Option<seq<Entry>>)

  /** The array returned by `getCurrentUser`; a field read from an unset
      session key is null. */
  datatype CurrentUser = CurrentUser(userId: int, email: Option<string>, nom: Option<string>, role: Option<string>)

  /** The roles the back end grants staff rights to. The front end spells
      the second one `'employee'`. */
  const StaffRoles: seq<string> := ["admin", "employe"]

  /** `isset($_SESSION['user_id'])`. */
  predicate IsLoggedIn(s: Session) {
    s.userId.Some?
  }

  /** `getCurrentUser()`: null when logged out, otherwise the four session
      fields. */
  function GetCurrentUser(s: Session): (r: Option<CurrentUser>)
    ensures r.None? <==> !IsLoggedIn(s)
    ensures r.Some? ==>
      && Some(r.value.userId) == s.userId
      && r.value.email == s.email
      && r.value.nom == s.nom
      && r.value.role == s.role
  {
    if !IsLoggedIn(s) then None
    else Some(CurrentUser(s.userId.value, s.email, s.nom, s.role))
  }

  /** `hasRole($role)`: strict comparison with the session role. */
  function HasRole(s: Session, role: string): (r: bool)
    ensures r <==> IsLoggedIn(s) && s.role == Some(role)
    ensures r ==> GetCurrentUser(s).Some? && GetCurrentUser(s).value.role == Some(role)
  {
    if !IsLoggedIn(s) then false
    else s.role == Some(role)
  }

  /** `isAdminOrEmployee()`: `in_array` over the two staff roles. */
  function IsAdminOrEmployee(s: Session): (r: bool)
    ensures r <==> HasRole(s, "admin") || HasRole(s, "employe")
  {
    if !IsLoggedIn(s) then false
    else s.role.Some? && s.role.value in StaffRoles
  }

  /** A session carrying the front end's spelling `'employee'` gets no staff
      rights from the back end. */
  lemma FrontEndEmployeeIsNotStaff(s: Session)
    requires s.role == Some("employee")
    ensures !IsAdminOrEmployee(s)
  {
    assert "employee" != "employe" by {
      assert |"employee"| != |"employe"|;
    }
  }

  /** PHP truthiness of an optional string: null, `""` and `"0"` are false. */
  predicate IsTruthy(m: Option<string>) {
    m.Some? && m.value != "" && m.value != "0"
  }

  /** The JSON body: `{error}` or `{success: true, message?, data?}`. */
  datatype Body<D> = ErrorBody(error: string) | SuccessBody(message: Option<string>, data: Option<D>)

  /** `jsonResponse`: the HTTP status and the body. */
  datatype Reply<D> = Reply(code: int, body: Body<D>)

  /** `errorResponse($message, $code = 400)`; `code` is `None` when the
      caller relies on the default. */
  function ErrorResponse<D>(message: string, code: Option<int>): (r: Reply<D>)
    ensures r.body.ErrorBody? && r.body.error == message
    ensures code.None? ==> r.code == 400
    ensures code.Some? ==> r.code == code.value
  {
    Reply(code.GetOr(400), ErrorBody(message))
  }

  /** `successResponse($data, $message = null)`. `data` is `None` when the
      caller's value is falsy (null, an empty array, 0, `""` or `"0"`). */
  function SuccessResponse<D>(data: Option<D>, message: Option<string>): (r: Reply<D>)
    ensures r.code == 200 && r.body.SuccessBody?
    ensures r.body.message.Some? <==> IsTruthy(message)
    ensures r.body.message.Some? ==> r.body.message == message
    ensures r.body.data == data
  {
    Reply(200, SuccessBody(if IsTruthy(message) then message else None, data))
  }

  /** Either the request goes on, or it ends here with this reply. */
  datatype Guard<D> = Pass | Halt(reply: Reply<D>)

  /** `requireAuth()`. */
  function RequireAuth<D>(s: Session): (g: Guard<D>)
    ensures g.Pass? <==> IsLoggedIn(s)
    ensures g.Halt? ==> g.reply == ErrorResponse("Non authentifié", Some(401))
  {
    if !IsLoggedIn(s) then Halt(ErrorResponse("Non authentifié", Some(401))) else Pass
  }

  /** `requireAdminOrEmployee()`: authentication is checked before the
      role, so a logged-out caller always gets 401, never 403. */
  function RequireAdminOrEmployee<D>(s: Session): (g: Guard<D>)
    ensures g.Pass? <==> IsAdminOrEmployee(s)
    ensures !IsLoggedIn(s) ==> g == Halt(ErrorResponse("Non authentifié", Some(401)))
    ensures IsLoggedIn(s) && !IsAdminOrEmployee(s) ==> g == Halt(ErrorResponse("Accès refusé", Some(403)))
  {
    match RequireAuth<D>(s)
    case Halt(r) => Halt(r)
    case Pass => if !IsAdminOrEmployee(s) then Halt(ErrorResponse("Accès refusé", Some(403))) else Pass
  }
}

=== FILE: shopping_cart.dfy ===
/** `src/components/ShoppingCart.tsx`: the client's cart page. The cart
    context is not modelled: its lines and the amounts its `getSubtotal`,
    `getTPS`, `getTVQ` and `getTotal` report are parameters, and the
    quantity buttons are reported as the `updateQuantity` value they send.
    The one-and-a-half-second payment delay is not modelled. */
module ShoppingCart {
  import opened Wrappers
  import opened Seqs
  import opened Data

  /** What the cart context reports. */
  datatype Amounts = Amounts(subtotal: int, tps: int, tvq: int, total: int)

  datatype Checkout = Checkout(orders: seq<Order>, items: seq<CartLine>, placed: Option<Order>)

  /** One element of `orderItems`. */
  function OrderItemOf(l: CartLine): (r: OrderItem)
    ensures r.productId == l.product.id && r.productName == l.product.name
    ensures r.quantity == l.quantity && r.price == l.product.price
  {
    OrderItem(l.product.id, l.product.name, l.quantity, l.product.price)
  }

  /** `items.map(...)` into order items. */
  function OrderItems(items: seq<CartLine>): (r: seq<OrderItem>)
    ensures |r| == |items|
    ensures forall i :: 0 <= i < |items| ==> r[i] == OrderItemOf(items[i])
  {
    seq(|items|, i requires 0 <= i < |items| => OrderItemOf(items[i]))
  }

  /** `handleCheckout`; `now` is the order's `createdAt`. */
  function HandleCheckout(user: Option<User>, items: seq<CartLine>, orders: seq<Order>, amounts: Amounts, now: Timestamp): (r: Checkout)
    ensures user.None? || |items| == 0 ==> r == Checkout(orders, items, None)
    ensures user.Some? && |items| > 0 ==> r.placed.Some? && r.items == [] && r.orders == orders + [r.placed.value]
    ensures r.placed.Some? ==>
      var o := r.placed.value;
      && o.id == NextId('o', |orders|)
      && o.userId == user.value.id && o.userName == user.value.name
      && o.items == OrderItems(items)
      && o.subtotal == amounts.subtotal && o.tps == amounts.tps && o.tvq == amounts.tvq && o.total == amounts.total
      && o.status == Reception && o.paymentStatus == Paid && o.paymentAmount == o.total
      && o.createdAt == now && o.rating.None?
  {
    if user.None? || |items| == 0 then Checkout(orders, items, None)
    else
      var o := Order(NextId('o', |orders|), user.value.id, user.value.name, OrderItems(items),
        amounts.subtotal, amounts.tps, amounts.tvq, amounts.total, Reception, Paid, amounts.total, now, None);
      Checkout(orders + [o], [], Some(o))
  }

  function ItemQuantity(it: OrderItem): int { it.quantity }

  function LineQuantity(l: CartLine): int { l.quantity }

  /** The order carries as many units as the cart held. */
  lemma {:induction false} OrderUnitsMatchCart(items: seq<CartLine>)
    ensures SumBy(OrderItems(items), ItemQuantity) == SumBy(items, LineQuantity)
    decreases |items|
  {
    if |items| > 0 {
      OrderUnitsMatchCart(items[1..]);
      assert OrderItems(items)[1..] == OrderItems(items[1..]);
    }
  }

  /** When the existing orders carry the generated ids `o1`, `o2`, ...,
      the new order's id is new. */
  lemma FreshOrderId(user: Option<User>, items: seq<CartLine>, orders: seq<Order>, amounts: Amounts, now: Timestamp)
    requires forall i :: 0 <= i < |orders| ==> orders[i].id == NextId('o', i)
    requires user.Some? && |items| > 0
    ensures forall i :: 0 <= i < |orders| ==> orders[i].id != HandleCheckout(user, items, orders, amounts, now).placed.value.id
  {
    forall i | 0 <= i < |orders|
      ensures orders[i].id != HandleCheckout(user, items, orders, amounts, now).placed.value.id
    {
      if orders[i].id == NextId('o', |orders|) {
        NextIdInjective('o', i, |orders|);
      }
    }
  }

  /** The value a typed quantity sends: `min(parseInt(value) || 1, stock)`,
      with `None` standing for `NaN`. */
  function TypedQuantity(parsed: Option<int>, stock: int): (q: int)
    ensures q <= stock
    ensures q == stock || q == OrNum(parsed, 1)
    ensures OrNum(parsed, 1) <= stock ==> q == OrNum(parsed, 1)
  {
    var v := OrNum(parsed, 1);
    if v < stock then v else stock
  }

  predicate MinusDisabled(l: CartLine) {
    l.quantity <= 1
  }

  predicate PlusDisabled(l: CartLine) {
    l.quantity >= l.product.stock
  }

  /** The quantity an enabled minus or plus button sends. */
  function Step(l: CartLine, up: bool): (q: Option<int>)
    ensures q.Some? <==> if up then !PlusDisabled(l) else !MinusDisabled(l)
    ensures q.Some? ==> q.value == l.quantity + (if up then 1 else -1)
  {
    if up then (if PlusDisabled(l) then None else Some(l.quantity + 1))
    else (if MinusDisabled(l) then None else Some(l.quantity - 1))
  }

  /** The buttons keep a quantity between 1 and the stock there, and so
      does typing a positive number or something unparsable. */
  lemma ControlsKeepRange(l: CartLine, up: bool, parsed: Option<int>)
    requires 1 <= l.quantity <= l.product.stock
    ensures Step(l, up).Some? ==> 1 <= Step(l, up).value <= l.product.stock
    ensures parsed.None? || parsed.value >= 0 ==> 1 <= TypedQuantity(parsed, l.product.stock) <= l.product.stock
  {
  }

  /** The cart title's noun. */
  function ArticleNoun(count: nat): string {
    Plural(count, "article", "articles")
  }
}

=== FILE: text.dfy ===
/** Character and string helpers: ASCII digits and case, decimal rendering
    and parsing, left padding, substring search and the JavaScript
    whitespace set used by `String.prototype.trim`. */
module Text {

  predicate IsDigit(c: char) {
    '0' <= c <= '9'
  }

  predicate AllDigits(s: string) {
    forall i :: 0 <= i < |s| ==> IsDigit(s[i])
  }

  function DigitChar(d: nat): (c: char)
    requires d < 10
    ensures IsDigit(c)
  {
    ('0' as int + d) as char
  }

  function DigitValue(c: char): (d: nat)
    requires IsDigit(c)
    ensures d < 10 && DigitChar(d) == c
  {
    c as int - '0' as int
  }

  lemma DigitRoundTrip(d: nat)
    requires d < 10
    ensures DigitValue(DigitChar(d)) == d
  {
  }

  /** Decimal rendering of a natural number, without leading zeros. */
  function NatToString(n: nat): (r: string)
    ensures |r| >= 1 && AllDigits(r)
    ensures r[0] == '0' <==> n == 0
    ensures n == 0 ==> r == "0"
  {
    if n < 10 then [DigitChar(n)]
    else NatToString(n / 10) + [DigitChar(n % 10)]
  }

  /** PHP's conversion of an integer to a string: a minus sign, then digits. */
  function IntToString(i: int): string {
    if i < 0 then "-" + NatToString(-i) else NatToString(i)
  }

  /** The value of a string of decimal digits (leading zeros allowed). */
  function ParseDigits(s: string): nat
    requires AllDigits(s)
  {
    if |s| == 0 then 0
    else ParseDigits(s[..|s| - 1]) * 10 + DigitValue(s[|s| - 1])
  }

  lemma {:induction false} ParseNatToString(n: nat)
    ensures ParseDigits(NatToString(n)) == n
  {
    if n >= 10 {
      var r := NatToString(n);
      assert r[..|r| - 1] == NatToString(n / 10);
      ParseNatToString(n / 10);
    }
  }

  /** Leading zeros do not change the parsed value. */
  lemma {:induction false} ParseDigitsZeros(k: nat, s: string)
    requires AllDigits(s)
    ensures AllDigits(Repeat('0', k) + s)
    ensures ParseDigits(Repeat('0', k) + s) == ParseDigits(s)
    decreases k, |s|
  {
    var z := Repeat('0', k);
    if |s| == 0 {
      assert z + s == z;
      if k > 0 {
        assert z[..k - 1] == Repeat('0', k - 1);
        ParseDigitsZeros(k - 1, s);
        assert Repeat('0', k - 1) + s == Repeat('0', k - 1);
      }
    } else {
      var init := s[..|s| - 1];
      assert (z + s)[..|z + s| - 1] == z + init;
      ParseDigitsZeros(k, init);
    }
  }

  function Repeat(c: char, n: nat): (r: string)
    ensures |r| == n
    ensures forall i :: 0 <= i < n ==> r[i] == c
  {
    seq(n, _ => c)
  }

  /** PHP `str_pad($s, $width, $c, STR_PAD_LEFT)`. */
  function PadLeft(s: string, width: nat, c: char): string {
    if |s| >= width then s else Repeat(c, width - |s|) + s
  }

  /** Drops every leading `'0'`. */
  function StripLeadingZeros(s: string): (r: string)
    ensures |r| == 0 || r[0] != '0'
  {
    if |s| > 0 && s[0] == '0' then StripLeadingZeros(s[1..]) else s
  }

  lemma {:induction false} StripZerosPrefix(k: nat, s: string)
    requires |s| > 0 && s[0] != '0'
    ensures StripLeadingZeros(Repeat('0', k) + s) == s
  {
    if k > 0 {
      assert (Repeat('0', k) + s)[1..] == Repeat('0', k - 1) + s;
      StripZerosPrefix(k - 1, s);
    } else {
      assert Repeat('0', k) + s == s;
    }
  }

  /** ASCII `toLowerCase` of one character. */
  function Lower(c: char): char {
    if 'A' <= c <= 'Z' then (c as int + 32) as char else c
  }

  /** ASCII `String.prototype.toLowerCase`. */
  function LowerStr(s: string): (r: string)
    ensures |r| == |s|
    ensures forall i :: 0 <= i < |s| ==> r[i] == Lower(s[i])
  {
    seq(|s|, i requires 0 <= i < |s| => Lower(s[i]))
  }

  /** `needle` occurs in `hay` starting at index `i`. */
  ghost predicate OccursAt(hay: string, needle: string, i: int) {
    0 <= i && i + |needle| <= |hay| && hay[i..i + |needle|] == needle
  }

  /** `String.prototype.includes`. */
  predicate Contains(hay: string, needle: string)
    ensures Contains(hay, needle) <==> exists i :: OccursAt(hay, needle, i)
  {
    if needle <= hay then
      assert OccursAt(hay, needle, 0);
      true
    else if |hay| == 0 then
      assert |needle| > 0;
      assert forall i :: !OccursAt(hay, needle, i);
      false
    else
      var rest := hay[1..];
      assert forall i :: OccursAt(hay, needle, i + 1) <==> OccursAt(rest, needle, i) by {
        forall i ensures OccursAt(hay, needle, i + 1) <==> OccursAt(rest, needle, i) {
          if 0 <= i && i + |needle| <= |rest| {
            assert hay[i + 1..i + 1 + |needle|] == rest[i..i + |needle|];
          }
        }
      }
      assert !OccursAt(hay, needle, 0);
      assert (exists i :: OccursAt(hay, needle, i)) ==> exists i :: OccursAt(rest, needle, i) by {
        if exists i :: OccursAt(hay, needle, i) {
          var i :| OccursAt(hay, needle, i);
          assert i != 0;
          assert OccursAt(rest, needle, i - 1);
        }
      }
      Contains(rest, needle)
  }

  lemma ContainsEmpty(hay: string)
    ensures Contains(hay, "")
  {
    assert OccursAt(hay, "", 0);
  }

  /** The characters JavaScript's `trim` removes: WhiteSpace (tab, vertical
      tab, form feed, space, no-break space, byte order mark and the Zs
      category) and LineTerminator (LF, CR, LS, PS). */
  predicate IsJsWhitespace(c: char) {
    || c == '\t' || c == '\U{000B}' || c == '\U{000C}' || c == ' ' || c == '\U{00A0}' || c == '\U{FEFF}'
    || c == '\n' || c == '\r' || c == '\U{2028}' || c == '\U{2029}'
    || c == '\U{1680}' || ('\U{2000}' <= c <= '\U{200A}') || c == '\U{202F}' || c == '\U{205F}' || c == '\U{3000}'
  }

  /** `!s.trim()`: the string is empty after trimming. */
  predicate IsBlank(s: string) {
    forall i :: 0 <= i < |s| ==> IsJsWhitespace(s[i])
  }

  /** `s` with every occurrence of `c` removed. */
  function RemoveChar(s: string, c: char): (r: string)
    ensures forall i :: 0 <= i < |r| ==> r[i] != c
  {
    if |s| == 0 then []
    else if s[0] == c then RemoveChar(s[1..], c)
    else [s[0]] + RemoveChar(s[1..], c)
  }

  lemma {:induction false} RemoveCharAppend(a: string, b: string, c: char)
    ensures RemoveChar(a + b, c) == RemoveChar(a, c) + RemoveChar(b, c)
  {
    if |a| == 0 {
      assert a + b == b;
    } else {
      assert (a + b)[1..] == a[1..] + b;
      RemoveCharAppend(a[1..], b, c);
    }
  }

  lemma {:induction false} RemoveCharAbsent(s: string, c: char)
    requires forall i :: 0 <= i < |s| ==> s[i] != c
    ensures RemoveChar(s, c) == s
  {
    if |s| > 0 {
      RemoveCharAbsent(s[1..], c);
    }
  }
}

=== FILE: version_fix.dfy ===
/** The maintenance script `src/URGENT_FIX.py`: strip `@version` suffixes
    from quoted module specifiers in the `.tsx` files of `components/ui`.

    `fix_imports` replaces every quoted specifier of the form
    quote, name, `@`, version, quote by quote, name, quote, where the name
    holds no quote and the version is a run of digits and dots. Because
    the name cannot cross a quote, a match starting at a quote can only
    end at the very next quote; because a version holds no `@`, the `@`
    the match splits on is the last `@` before that quote. The scanner
    below walks the buffer left to right on exactly those terms. */
module VersionFix {
  import opened Wrappers
  import opened Text
  import opened Seqs

  /** `["\']`: the two groups are independent, so the opening and closing
      quotes need not be the same character. */
  predicate IsQuote(c: char) {
    c == '"' || c == '\''
  }

  predicate QuoteFree(s: string) {
    forall i :: 0 <= i < |s| ==> !IsQuote(s[i])
  }

  /** `[\d.]+`, with ASCII digits. */
  predicate IsVersion(v: string) {
    |v| > 0 && forall i :: 0 <= i < |v| ==> IsDigit(v[i]) || v[i] == '.'
  }

  /** Position of the first quote. */
  function NextQuote(s: string): (r: Option<nat>)
    ensures r.Some? ==> r.value < |s| && IsQuote(s[r.value]) && QuoteFree(s[..r.value])
    ensures r.None? ==> QuoteFree(s)
  {
    if |s| == 0 then None
    else if IsQuote(s[0]) then Some(0)
    else match NextQuote(s[1..])
      case None => None
      case Some(k) =>
        assert s[..k + 1] == [s[0]] + s[1..][..k];
        Some(k + 1)
  }

  predicate AtFree(s: string) {
    forall i :: 0 <= i < |s| ==> s[i] != '@'
  }

  /** Position of the last `@`. */
  function LastAt(s: string): (r: Option<nat>)
    ensures r.Some? ==> r.value < |s| && s[r.value] == '@' && AtFree(s[r.value + 1..])
    ensures r.None? ==> AtFree(s)
  {
    if |s| == 0 then None
    else if s[|s| - 1] == '@' then Some(|s| - 1)
    else match LastAt(s[..|s| - 1])
      case None =>
        AtFreeSnoc(s[..|s| - 1], s[|s| - 1]);
        assert s == s[..|s| - 1] + [s[|s| - 1]];
        None
      case Some(k) =>
        AtFreeSnoc(s[..|s| - 1][k + 1..], s[|s| - 1]);
        assert s[k + 1..] == s[..|s| - 1][k + 1..] + [s[|s| - 1]];
        Some(k)
  }

  lemma AtFreeSnoc(t: string, c: char)
    requires AtFree(t) && c != '@'
    ensures AtFree(t + [c])
  {
    assert forall i :: 0 <= i < |t| ==> (t + [c])[i] == t[i];
  }

  /** The body of a quoted literal matches `([^"']+)@[\d.]+`: the captured
      name, if it does. */
  function VersionedName(body: string): Option<string> {
    match LastAt(body)
    case None => None
    case Some(k) => if k >= 1 && IsVersion(body[k + 1..]) then Some(body[..k]) else None
  }

  /** The regex's own reading of a literal body: `name@version`. */
  ghost predicate SplitsAs(body: string, name: string, version: string) {
    body == name + "@" + version && |name| >= 1 && IsVersion(version)
  }

  /** `VersionedName` agrees with the regex in both directions, and the
      name the regex captures is unique. */
  lemma VersionedNameMatchesRegex(body: string, name: string, version: string)
    ensures SplitsAs(body, name, version) ==> VersionedName(body) == Some(name)
    ensures VersionedName(body) == Some(name) ==> SplitsAs(body, name, body[|name| + 1..])
  {
    if SplitsAs(body, name, version) {
      var k := |name|;
      assert body[k] == '@';
      assert body[k + 1..] == version;
      assert AtFree(version);
      LastAtIs(body, k);
      assert body[..k] == name;
    }
    if VersionedName(body) == Some(name) {
      var k := LastAt(body).value;
      assert body == body[..k] + "@" + body[k + 1..];
    }
  }

  lemma {:induction false} LastAtIs(s: string, k: nat)
    requires k < |s| && s[k] == '@'
    requires AtFree(s[k + 1..])
    ensures LastAt(s) == Some(k)
    decreases |s|
  {
    if k < |s| - 1 {
      assert s[|s| - 1] == s[k + 1..][|s| - 2 - k];
      assert s[..|s| - 1][k + 1..] == s[k + 1..][..|s| - 2 - k];
      LastAtIs(s[..|s| - 1], k);
    }
  }

  lemma NextQuoteIs(body: string, q: char, rest: string)
    requires QuoteFree(body) && IsQuote(q)
    ensures NextQuote(body + [q] + rest) == Some(|body|)
  {
    var s := body + [q] + rest;
    assert s[|body|] == q;
    assert s[..|body|] == body;
  }

  /** One step of `re.sub(pattern, r'\1\2\3', s)` at the start of `s`: the
      text emitted, where the scan resumes, and whether a literal lost its
      `@version`. */
  datatype Chunk = Chunk(out: string, next: nat, replaced: bool)

  /** At a quote, take the text up to the next quote; if it is
      `name@version`, emit both quotes around the name and resume after the
      closing quote, otherwise emit the text and resume at that next quote.
      Text with no closing quote is left as it is and ends the scan. Any
      other character is copied. */
  function Scan(s: string): (c: Chunk)
    requires |s| > 0
    ensures 1 <= c.next <= |s|
  {
    if !IsQuote(s[0]) then Chunk([s[0]], 1, false)
    else match NextQuote(s[1..])
      case None => Chunk(s, |s|, false)
      case Some(j) =>
        match VersionedName(s[1..j + 1])
        case Some(name) => Chunk([s[0]] + name + [s[j + 1]], j + 2, true)
        case None => Chunk(s[..j + 1], j + 1, false)
  }

  /** `re.sub(pattern, r'\1\2\3', s)`: the scan, step after step. */
  function FixImports(s: string): (r: string)
    decreases |s|
  {
    if |s| == 0 then "" else Scan(s).out + FixImports(s[Scan(s).next..])
  }

  /** How many `@version` runs `FixImports` removes. */
  ghost function Replacements(s: string): nat
    decreases |s|
  {
    if |s| == 0 then 0 else (if Scan(s).replaced then 1 else 0) + Replacements(s[Scan(s).next..])
  }

  lemma ScanPlain(s: string)
    requires |s| > 0 && !IsQuote(s[0])
    ensures Scan(s) == Chunk([s[0]], 1, false)
  {
  }

  lemma ScanMatch(s: string, j: nat, name: string)
    requires |s| > 0 && IsQuote(s[0]) && NextQuote(s[1..]) == Some(j)
    requires VersionedName(s[1..j + 1]) == Some(name)
    ensures Scan(s) == Chunk([s[0]] + name + [s[j + 1]], j + 2, true)
  {
  }

  lemma ScanOther(s: string, j: nat)
    requires |s| > 0 && IsQuote(s[0]) && NextQuote(s[1..]) == Some(j)
    requires VersionedName(s[1..j + 1]).None?
    ensures Scan(s) == Chunk(s[..j + 1], j + 1, false)
  {
  }

  /** The scan's recursion, one step at a time. */
  lemma FixStep(s: string)
    requires |s| > 0
    ensures FixImports(s) == Scan(s).out + FixImports(s[Scan(s).next..])
  {
  }

  /** A step that replaces nothing copies its text. */
  lemma ScanCopies(s: string)
    requires |s| > 0 && !Scan(s).replaced
    ensures Scan(s).out == s[..Scan(s).next]
  {
    assert s[..|s|] == s;
  }

  /** Anatomy of a replacement: the literal is `q1 name @ version q2`, and
      the output keeps `q1 name q2`; `k` is the position of the `@`. */
  lemma ScanReplaced(s: string)
    requires |s| > 0 && Scan(s).replaced
    ensures var c := Scan(s); var k := |c.out| - 1;
      && 2 <= k && k + 2 < c.next
      && c.out == s[..k] + [s[c.next - 1]]
      && s[k] == '@' && IsVersion(s[k + 1..c.next - 1])
  {
    var j := NextQuote(s[1..]).value;
    var body := s[1..j + 1];
    var name := VersionedName(body).value;
    LiteralBodyQuoteFree(s, j);
    ScanMatch(s, j, name);
    VersionedNameMatchesRegex(body, name, "");
    LiteralSplit(s, j, body, name, body[|name| + 1..]);
  }

  /** The text between a quote and the next one holds no quote. */
  lemma LiteralBodyQuoteFree(s: string, j: nat)
    requires |s| > 0 && NextQuote(s[1..]) == Some(j)
    ensures j + 2 <= |s| && QuoteFree(s[1..j + 1])
  {
    assert s[1..][..j] == s[1..j + 1];
  }

  lemma LiteralSplit(s: string, j: nat, body: string, name: string, version: string)
    requires j + 2 <= |s| && body == s[1..j + 1]
    requires body == name + "@" + version
    ensures var k := |name| + 1;
      && s[..k] == [s[0]] + name && s[k] == '@' && s[k + 1..j + 1] == version
  {
    var k := |name| + 1;
    assert s[..k] == [s[0]] + body[..|name|];
    assert body[..|name|] == name;
    assert s[k] == body[|name|];
    assert s[k + 1..j + 1] == body[|name| + 1..];
  }

  // ---------------------------------------------------------------------
  // How the scan proceeds, one literal at a time.

  /** Text without quotes is copied through. */
  lemma {:induction false} FixPlainPrefix(plain: string, rest: string)
    requires QuoteFree(plain)
    ensures FixImports(plain + rest) == plain + FixImports(rest)
    decreases |plain|
  {
    if |plain| == 0 {
      assert plain + rest == rest;
    } else {
      PlainStep(plain, rest);
      FixPlainPrefix(plain[1..], rest);
      ConsAssoc(plain, FixImports(rest));
    }
  }

  lemma ConsAssoc(a: string, b: string)
    requires |a| > 0
    ensures [a[0]] + (a[1..] + b) == a + b
  {
  }

  lemma PlainStep(plain: string, rest: string)
    requires |plain| > 0 && !IsQuote(plain[0])
    ensures FixImports(plain + rest) == [plain[0]] + FixImports(plain[1..] + rest)
  {
    var s := plain + rest;
    assert s[0] == plain[0];
    assert s[1..] == plain[1..] + rest;
    ScanPlain(s);
    FixStep(s);
  }

  /** A versioned literal is replaced and the scan continues after it, so
      every match is replaced, not only the first. */
  lemma FixMatchPrefix(q1: char, name: string, version: string, q2: char, rest: string)
    requires IsQuote(q1) && IsQuote(q2)
    requires QuoteFree(name) && |name| >= 1 && IsVersion(version)
    ensures FixImports([q1] + name + "@" + version + [q2] + rest) == [q1] + name + [q2] + FixImports(rest)
  {
    ScanOfMatch(q1, name, version, q2, rest);
    FixStep([q1] + name + "@" + version + [q2] + rest);
  }

  lemma ScanOfMatch(q1: char, name: string, version: string, q2: char, rest: string)
    requires IsQuote(q1) && IsQuote(q2)
    requires QuoteFree(name) && |name| >= 1 && IsVersion(version)
    ensures var s := [q1] + name + "@" + version + [q2] + rest;
      |s| > 0 && Scan(s).out == [q1] + name + [q2] && s[Scan(s).next..] == rest
  {
    var body := name + "@" + version;
    var s := [q1] + body + [q2] + rest;
    assert s == [q1] + name + "@" + version + [q2] + rest;
    VersionedBodyQuoteFree(name, version);
    assert s[1..] == body + [q2] + rest;
    NextQuoteIs(body, q2, rest);
    var j := |body|;
    assert s[1..j + 1] == body;
    VersionedNameMatchesRegex(body, name, version);
    assert s[j + 1] == q2;
    ScanMatch(s, j, name);
    assert s[j + 2..] == rest;
  }

  /** A literal body `name@version` holds no quote. */
  lemma VersionedBodyQuoteFree(name: string, version: string)
    requires QuoteFree(name) && IsVersion(version)
    ensures QuoteFree(name + "@" + version)
  {
    var body := name + "@" + version;
    forall i | 0 <= i < |body| ensures !IsQuote(body[i]) {
      if i > |name| {
        assert body[i] == version[i - |name| - 1];
      }
    }
  }

  /** A whole buffer that is one versioned literal. */
  lemma FixLiteral(q1: char, name: string, version: string, q2: char)
    requires IsQuote(q1) && IsQuote(q2)
    requires QuoteFree(name) && |name| >= 1 && IsVersion(version)
    ensures FixImports([q1] + name + "@" + version + [q2]) == [q1] + name + [q2]
  {
    FixMatchPrefix(q1, name, version, q2, "");
    assert [q1] + name + "@" + version + [q2] + "" == [q1] + name + "@" + version + [q2];
    assert [q1] + name + [q2] + "" == [q1] + name + [q2];
  }

  /** A literal that is not versioned is copied up to its closing quote, and
      that quote is where the next match attempt starts. */
  lemma FixOtherLiteralPrefix(q1: char, body: string, rest: string)
    requires IsQuote(q1) && QuoteFree(body) && VersionedName(body).None?
    requires |rest| > 0 && IsQuote(rest[0])
    ensures FixImports([q1] + body + rest) == [q1] + body + FixImports(rest)
  {
    ScanOfOther(q1, body, rest);
    FixStep([q1] + body + rest);
  }

  lemma ScanOfOther(q1: char, body: string, rest: string)
    requires IsQuote(q1) && QuoteFree(body) && VersionedName(body).None?
    requires |rest| > 0 && IsQuote(rest[0])
    ensures var s := [q1] + body + rest;
      |s| > 0 && Scan(s).out == [q1] + body && s[Scan(s).next..] == rest
  {
    var s := [q1] + body + rest;
    assert rest == [rest[0]] + rest[1..];
    assert s[1..] == body + [rest[0]] + rest[1..];
    NextQuoteIs(body, rest[0], rest[1..]);
    var j := |body|;
    assert s[1..j + 1] == body;
    assert s[..j + 1] == [q1] + body;
    ScanOther(s, j);
    assert s[j + 1..] == rest;
  }

  /** An opening quote with no closing quote ends the scan. */
  lemma FixUnclosed(q: char, tail: string)
    requires IsQuote(q) && QuoteFree(tail)
    ensures FixImports([q] + tail) == [q] + tail
  {
    var s := [q] + tail;
    assert s[1..] == tail;
    assert Scan(s) == Chunk(s, |s|, false);
    assert s[|s|..] == "";
  }

  // ---------------------------------------------------------------------
  // What the rewrite can and cannot change.

  /** Each replacement removes an `@` and at least one version character. */
  lemma {:induction false} FixShrinks(s: string)
    ensures |FixImports(s)| + 2 * Replacements(s) <= |s|
    decreases |s|
  {
    if |s| > 0 {
      FixShrinks(s[Scan(s).next..]);
      FixStep(s);
      ShrinkStep(s);
    }
  }

  /** One step emits at most what it consumes, two characters fewer when it
      replaces. */
  lemma ShrinkStep(s: string)
    requires |s| > 0
    ensures |Scan(s).out| + (if Scan(s).replaced then 2 else 0) <= Scan(s).next
  {
    if Scan(s).replaced {
      ScanReplaced(s);
    } else {
      ScanCopies(s);
    }
  }

  /** A step that replaces nothing, followed by the untouched remainder,
      gives the text back. */
  lemma CopyStep(s: string)
    requires |s| > 0 && !Scan(s).replaced
    ensures Scan(s).out + s[Scan(s).next..] == s
  {
    ScanCopies(s);
    assert s == s[..Scan(s).next] + s[Scan(s).next..];
  }

  lemma {:induction false} FixWithoutReplacement(s: string)
    requires Replacements(s) == 0
    ensures FixImports(s) == s
    decreases |s|
  {
    if |s| > 0 {
      FixWithoutReplacement(s[Scan(s).next..]);
      FixStep(s);
      CopyStep(s);
    }
  }

  /** The buffer changes exactly when some `@version` run was removed, and
      a changed buffer is strictly shorter: the `content != original_content`
      test of `fix_imports` is a length test. */
  lemma FixChangesIffReplaced(s: string)
    ensures FixImports(s) == s <==> Replacements(s) == 0
    ensures FixImports(s) != s <==> |FixImports(s)| < |s|
  {
    FixShrinks(s);
    if Replacements(s) == 0 {
      FixWithoutReplacement(s);
    }
  }

  /** Dropping a middle part keeps a subsequence. */
  lemma SubsequenceDropMiddle(head: string, mid: string, tail: string, fr: string, rest: string)
    requires IsSubsequence(fr, rest)
    ensures IsSubsequence(head + tail + fr, head + (mid + tail) + rest)
  {
    SubsequenceRefl(head);
    SubsequenceRefl(tail);
    SubsequenceExtend(tail, mid, tail);
    SubsequenceConcat(head, head, tail, mid + tail);
    SubsequenceConcat(head + tail, head + (mid + tail), fr, rest);
  }

  /** Keeping a prefix and the closing quote of the consumed text, and a
      subsequence of the remainder, keeps a subsequence. */
  lemma ReplacedSubsequence(s: string, out: string, n: nat, fr: string)
    requires 1 <= |out| < n <= |s| && out == s[..|out| - 1] + [s[n - 1]]
    requires IsSubsequence(fr, s[n..])
    ensures IsSubsequence(out + fr, s)
  {
    var k := |out| - 1;
    assert s == s[..k] + (s[k..n - 1] + [s[n - 1]]) + s[n..];
    SubsequenceDropMiddle(s[..k], s[k..n - 1], [s[n - 1]], fr, s[n..]);
  }

  lemma CopySubsequence(s: string, out: string, n: nat, fr: string)
    requires n <= |s| && out == s[..n] && IsSubsequence(fr, s[n..])
    ensures IsSubsequence(out + fr, s)
  {
    SubsequenceRefl(s[..n]);
    SubsequenceConcat(s[..n], s[..n], fr, s[n..]);
    assert s == s[..n] + s[n..];
  }

  /** One step keeps a subsequence of the text it consumes. */
  lemma SubsequenceOfStep(s: string, fr: string)
    requires |s| > 0 && IsSubsequence(fr, s[Scan(s).next..])
    ensures IsSubsequence(Scan(s).out + fr, s)
  {
    var c := Scan(s);
    if c.replaced {
      ScanReplaced(s);
      ReplacedSubsequence(s, c.out, c.next, fr);
    } else {
      ScanCopies(s);
      CopySubsequence(s, c.out, c.next, fr);
    }
  }

  /** Nothing is ever inserted or reordered: the output is a subsequence of
      the input. */
  lemma {:induction false} FixIsSubsequence(s: string)
    ensures IsSubsequence(FixImports(s), s)
    decreases |s|
  {
    if |s| > 0 {
      FixIsSubsequence(s[Scan(s).next..]);
      FixStep(s);
      SubsequenceOfStep(s, FixImports(s[Scan(s).next..]));
    }
  }

  /** Occurrences of `c` in `s`. */
  function CharCount(s: string, c: char): nat {
    if |s| == 0 then 0 else (if s[0] == c then 1 else 0) + CharCount(s[1..], c)
  }

  lemma {:induction false} CharCountAppend(a: string, b: string, c: char)
    ensures CharCount(a + b, c) == CharCount(a, c) + CharCount(b, c)
  {
    if |a| == 0 {
      assert a + b == b;
    } else {
      assert (a + b)[1..] == a[1..] + b;
      CharCountAppend(a[1..], b, c);
    }
  }

  lemma {:induction false} CharCountAbsent(s: string, c: char)
    requires forall i :: 0 <= i < |s| ==> s[i] != c
    ensures CharCount(s, c) == 0
  {
    if |s| > 0 {
      CharCountAbsent(s[1..], c);
    }
  }

  /** Dropping a middle part without `c` keeps the count of `c`. */
  lemma CharCountDropMiddle(head: string, mid: string, tail: string, fr: string, rest: string, c: char)
    requires CharCount(fr, c) == CharCount(rest, c)
    requires forall i :: 0 <= i < |mid| ==> mid[i] != c
    ensures CharCount(head + tail + fr, c) == CharCount(head + (mid + tail) + rest, c)
  {
    CharCountAbsent(mid, c);
    CharCountAppend(head, tail, c);
    CharCountAppend(head + tail, fr, c);
    CharCountAppend(mid, tail, c);
    CharCountAppend(head, mid + tail, c);
    CharCountAppend(head + (mid + tail), rest, c);
  }

  /** A replacement deletes only `@`, digits and dots. */
  lemma ReplacedCount(s: string, out: string, n: nat, fr: string, c: char)
    requires 1 <= |out| < n - 1 && n <= |s| && out == s[..|out| - 1] + [s[n - 1]]
    requires s[|out| - 1] == '@' && IsVersion(s[|out|..n - 1])
    requires c != '@' && c != '.' && !IsDigit(c)
    requires CharCount(fr, c) == CharCount(s[n..], c)
    ensures CharCount(out + fr, c) == CharCount(s, c)
  {
    var k := |out| - 1;
    var mid := s[k..n - 1];
    forall i | 0 <= i < |mid| ensures mid[i] != c {
      if i > 0 {
        assert mid[i] == s[|out|..n - 1][i - 1];
      }
    }
    assert s == s[..k] + (mid + [s[n - 1]]) + s[n..];
    CharCountDropMiddle(s[..k], mid, [s[n - 1]], fr, s[n..], c);
  }

  lemma CopyCount(s: string, out: string, n: nat, fr: string, c: char)
    requires n <= |s| && out == s[..n] && CharCount(fr, c) == CharCount(s[n..], c)
    ensures CharCount(out + fr, c) == CharCount(s, c)
  {
    CharCountAppend(s[..n], fr, c);
    CharCountAppend(s[..n], s[n..], c);
    assert s == s[..n] + s[n..];
  }

  /** One step keeps the count of `c` in the text it consumes. */
  lemma CountOfStep(s: string, fr: string, c: char)
    requires |s| > 0
    requires c != '@' && c != '.' && !IsDigit(c)
    requires CharCount(fr, c) == CharCount(s[Scan(s).next..], c)
    ensures CharCount(Scan(s).out + fr, c) == CharCount(s, c)
  {
    var ch := Scan(s);
    if ch.replaced {
      ScanReplaced(s);
      ReplacedCount(s, ch.out, ch.next, fr, c);
    } else {
      ScanCopies(s);
      CopyCount(s, ch.out, ch.next, fr, c);
    }
  }

  /** Only `@`, digits and dots are ever deleted: every other character,
      quotes included, occurs as often after the rewrite as before. */
  lemma {:induction false} FixKeepsOtherChars(s: string, c: char)
    requires c != '@' && c != '.' && !IsDigit(c)
    ensures CharCount(FixImports(s), c) == CharCount(s, c)
    decreases |s|
  {
    if |s| > 0 {
      FixKeepsOtherChars(s[Scan(s).next..], c);
      FixStep(s);
      CountOfStep(s, FixImports(s[Scan(s).next..]), c);
    }
  }

  /** In particular the number of each quote character is unchanged. */
  lemma FixKeepsQuotes(s: string)
    ensures CharCount(FixImports(s), '"') == CharCount(s, '"')
    ensures CharCount(FixImports(s), '\'') == CharCount(s, '\'')
  {
    FixKeepsOtherChars(s, '"');
    FixKeepsOtherChars(s, '\'');
  }

  /** No pair of consecutive quotes encloses a `name@version` body. */
  ghost predicate NoVersionedLiteral(s: string) {
    forall i, j :: 0 <= i < j < |s| && IsQuote(s[i]) && IsQuote(s[j]) && QuoteFree(s[i + 1..j])
      ==> VersionedName(s[i + 1..j]).None?
  }

  lemma NoVersionedLiteralSuffix(s: string, k: nat)
    requires k <= |s| && NoVersionedLiteral(s)
    ensures NoVersionedLiteral(s[k..])
  {
    var t := s[k..];
    forall i, j | 0 <= i < j < |t| && IsQuote(t[i]) && IsQuote(t[j]) && QuoteFree(t[i + 1..j])
      ensures VersionedName(t[i + 1..j]).None?
    {
      assert t[i + 1..j] == s[k + i + 1..k + j];
      assert s[k + i] == t[i] && s[k + j] == t[j];
    }
  }

  /** The literal opening at index 0 is one the regex skips. */
  lemma NoMatchAtStart(s: string)
    requires NoVersionedLiteral(s) && |s| > 0
    ensures !Scan(s).replaced
  {
    if IsQuote(s[0]) && NextQuote(s[1..]).Some? {
      var j := NextQuote(s[1..]).value;
      assert s[1..][..j] == s[1..j + 1];
      assert s[j + 1] == s[1..][j];
    }
  }

  /** A buffer without any versioned literal comes back unchanged, so
      `fix_imports` reports no change and writes nothing. */
  lemma {:induction false} FixNoMatchUnchanged(s: string)
    requires NoVersionedLiteral(s)
    ensures FixImports(s) == s
    decreases |s|
  {
    if |s| > 0 {
      NoMatchAtStart(s);
      NoVersionedLiteralSuffix(s, Scan(s).next);
      FixNoMatchUnchanged(s[Scan(s).next..]);
      FixStep(s);
      CopyStep(s);
    }
  }

  // ---------------------------------------------------------------------
  // The script: one file, then the whole directory.

  /** What `fix_imports` does to one file: whether it reports a change, and
      the content it writes back (nothing when there is no change). The
      content is the text as read in text mode, decoded and with newlines
      normalised; the bytes written may differ in their line endings. */
  datatype FileFix = FileFix(changed: bool, written: Option<string>)

  function FixFile(content: string): (r: FileFix)
    ensures r.changed <==> r.written.Some?
    ensures r.changed <==> Replacements(content) > 0
    ensures r.written.Some? ==> |r.written.value| < |content| && IsSubsequence(r.written.value, content)
    ensures !r.changed ==> FixImports(content) == content
    ensures r.written.Some? ==> r.written.value == FixImports(content)
  {
    FixChangesIffReplaced(content);
    FixIsSubsequence(content);
    var fixed := FixImports(content);
    if fixed != content then FileFix(true, Some(fixed)) else FileFix(false, None)
  }

  /** `Path.glob('*.tsx')` in a single directory, matched case-sensitively. */
  predicate IsTsxName(name: string) {
    |name| >= 4 && name[|name| - 4..] == ".tsx"
  }

  /** `listing` is the order in which the directory enumerates its `.tsx`
      files: each of them exactly once. */
  ghost predicate IsListing(listing: seq<string>, dir: map<string, string>) {
    && (forall i, j :: 0 <= i < j < |listing| ==> listing[i] != listing[j])
    && (forall n :: n in listing <==> n in dir && IsTsxName(n))
  }

  /** How `main` ends: the directory is missing, it has no `.tsx` file, or
      every file was processed, with the new directory contents, the files
      reported as fixed in processing order, the `fixed/total` counts and
      whether the follow-up steps are printed. */
  datatype RunOutcome =
    | DirectoryMissing
    | NoFiles
    | Finished(files: map<string, string>, fixed: seq<string>, fixedCount: nat, total: nat, nextSteps: bool)

  /** After processing the files `done` in that order with the per-file
      rewrite `fix`: they hold their rewritten content, every other file is
      untouched, and `fixed` lists, in order, those whose content changed. */
  ghost predicate Processed(d: map<string, string>, done: seq<string>, files: map<string, string>, fixed: seq<string>, fix: string -> string) {
    && files.Keys == d.Keys
    && (forall n :: n in files ==> files[n] == if n in done then fix(d[n]) else d[n])
    && (forall n :: n in fixed <==> n in done && n in d && fix(d[n]) != d[n])
    && IsSubsequence(fixed, done)
    && |fixed| <= |done|
  }

  lemma ProcessedStart(d: map<string, string>, fix: string -> string)
    ensures Processed(d, [], d, [], fix)
  {
    assert IsSubsequence<string>([], []);
  }

  /** One iteration of the loop: rewrite `name`, writing it back and
      recording it only when its content changed. */
  function Step(files: map<string, string>, fixed: seq<string>, name: string, fix: string -> string): (r: (map<string, string>, seq<string>))
    requires name in files
    ensures r.0.Keys == files.Keys
    ensures r.0[name] == fix(files[name])
    ensures forall n :: n in files && n != name ==> r.0[n] == files[n]
    ensures r.1 == (if fix(files[name]) != files[name] then fixed + [name] else fixed)
  {
    var content := fix(files[name]);
    if content != files[name] then (files[name := content], fixed + [name]) else (files, fixed)
  }

  lemma ProcessStep(d: map<string, string>, done: seq<string>, files: map<string, string>, fixed: seq<string>, name: string, fix: string -> string)
    requires Processed(d, done, files, fixed, fix)
    requires name in d && name !in done
    ensures name in files
    ensures Processed(d, done + [name], Step(files, fixed, name, fix).0, Step(files, fixed, name, fix).1, fix)
  {
    assert files[name] == d[name];
    if fix(d[name]) != d[name] {
      SubsequenceRefl([name]);
      SubsequenceConcat(fixed, done, [name], [name]);
    } else {
      assert IsSubsequence([], [name]);
      SubsequenceConcat(fixed, done, [], [name]);
      assert fixed + [] == fixed;
    }
  }

  lemma ProcessNext(d: map<string, string>, listing: seq<string>, i: nat, files: map<string, string>, fixed: seq<string>, fix: string -> string)
    requires IsListing(listing, d) && i < |listing|
    requires Processed(d, listing[..i], files, fixed, fix)
    ensures listing[i] in files
    ensures Processed(d, listing[..i + 1], Step(files, fixed, listing[i], fix).0, Step(files, fixed, listing[i], fix).1, fix)
  {
    var name := listing[i];
    assert name !in listing[..i];
    ProcessStep(d, listing[..i], files, fixed, name, fix);
    assert listing[..i + 1] == listing[..i] + [name];
  }

  /** The loop of `main`: the per-file rewrite on each listed file in turn. */
  method FixAll(d: map<string, string>, listing: seq<string>, fix: string -> string) returns (files: map<string, string>, fixed: seq<string>)
    requires IsListing(listing, d)
    ensures Processed(d, listing, files, fixed, fix)
  {
    files := d;
    fixed := [];
    var i := 0;
    ProcessedStart(d, fix);
    assert listing[..0] == [];
    while i < |listing|
      invariant 0 <= i <= |listing|
      invariant Processed(d, listing[..i], files, fixed, fix)
    {
      ProcessNext(d, listing, i, files, fixed, fix);
      var next := Step(files, fixed, listing[i], fix);
      files, fixed := next.0, next.1;
      i := i + 1;
    }
    assert listing[..i] == listing;
  }

  /** `main`: `dir` is the `components/ui` directory (file name to content)
      when it exists, and `listing` the enumeration order of its `.tsx`
      files. */
  method FixComponents(dir: Option<map<string, string>>, listing: seq<string>) returns (out: RunOutcome)
    requires dir.Some? ==> IsListing(listing, dir.value)
    ensures out.DirectoryMissing? <==> dir.None?
    ensures out.NoFiles? <==> dir.Some? && |listing| == 0
    ensures out.Finished? ==> dir.Some? && |listing| > 0
    ensures out.Finished? ==>
      && out.total == |listing|
      && out.fixedCount == |out.fixed|
      && (out.nextSteps <==> out.fixedCount > 0)
      && Processed(dir.value, listing, out.files, out.fixed, FixImports)
  {
    if dir.None? {
      return DirectoryMissing;
    }
    if |listing| == 0 {
      return NoFiles;
    }
    var files, fixed := FixAll(dir.value, listing, FixImports);
    return Finished(files, fixed, |fixed|, |listing|, |fixed| > 0);
  }
}

/** Worked examples of the rewrite, including the examples the script
    itself gives and the case that makes it not idempotent. The quote is a
    parameter: either quote character behaves the same. */
module VersionFixExamples {
  import opened Text
  import opened VersionFix

  lemma RadixExample(q: char)
    requires IsQuote(q)
    ensures FixImports([q] + "@radix-ui/react-dialog" + "@" + "1.1.6" + [q]) == [q] + "@radix-ui/react-dialog" + [q]
  {
    FixLiteral(q, "@radix-ui/react-dialog", "1.1.6", q);
  }

  lemma LucideExample(q: char)
    requires IsQuote(q)
    ensures FixImports([q] + "lucide-react" + "@" + "0.487.0" + [q]) == [q] + "lucide-react" + [q]
  {
    FixLiteral(q, "lucide-react", "0.487.0", q);
  }

  /** Mixed quotes still match: `"x@1'` becomes `"x'`. */
  lemma MixedQuotesExample(q1: char, q2: char)
    requires IsQuote(q1) && IsQuote(q2)
    ensures FixImports([q1] + "x" + "@" + "1" + [q2]) == [q1] + "x" + [q2]
  {
    FixLiteral(q1, "x", "1", q2);
  }

  /** The rewrite is not idempotent: when the name itself ends in
      `@version` (as in `a@1.2@3.4`), the first pass leaves `a@1.2` and a
      second pass strips one more run. */
  lemma NotIdempotent(q: char, name: string, v1: string, v2: string)
    requires IsQuote(q) && QuoteFree(name) && |name| >= 1 && IsVersion(v1) && IsVersion(v2)
    ensures var once := [q] + (name + "@" + v1) + [q];
      && FixImports([q] + (name + "@" + v1) + "@" + v2 + [q]) == once
      && FixImports(once) == [q] + name + [q]
      && FixImports(once) != once
  {
    var inner := name + "@" + v1;
    VersionedBodyQuoteFree(name, v1);
    FixLiteral(q, inner, v2, q);
    FixLiteral(q, name, v1, q);
    Regroup(q, name, "@", v1);
  }

  lemma Regroup(q: char, a: string, b: string, c: string)
    ensures [q] + (a + b + c) + [q] == [q] + a + b + c + [q]
  {
  }

  /** The instance `"a@1.2@3.4"`: within the literal only the run after
      the last `@` goes, so one pass gives `"a@1.2"` and a second `"a"`. */
  lemma NotIdempotentExample(q: char)
    requires IsQuote(q)
    ensures FixImports([q] + ("a" + "@" + "1.2") + "@" + "3.4" + [q]) == [q] + ("a" + "@" + "1.2") + [q]
    ensures FixImports([q] + ("a" + "@" + "1.2") + [q]) == [q] + "a" + [q]
  {
    NotIdempotent(q, "a", "1.2", "3.4");
  }

  /** An empty name is left alone. */
  lemma EmptyNameExample(q: char)
    requires IsQuote(q)
    ensures FixImports([q] + "@1.0" + [q]) == [q] + "@1.0" + [q]
  {
    LastAtIs("@1.0", 0);
    FixOtherLiteralPrefix(q, "@1.0", [q]);
    FixUnclosed(q, "");
    assert [q] + "" == [q];
  }

  /** A version that is not digits and dots is left alone. */
  lemma NonNumericVersionExample(q: char)
    requires IsQuote(q)
    ensures FixImports([q] + "pkg@beta" + [q]) == [q] + "pkg@beta" + [q]
  {
    LastAtIs("pkg@beta", 3);
    assert "pkg@beta"[4..] == "beta";
    assert !IsDigit('b');
    FixOtherLiteralPrefix(q, "pkg@beta", [q]);
    FixUnclosed(q, "");
    assert [q] + "" == [q];
  }
}

=== FILE: wrappers.dfy ===
/** The optional value used wherever the source has `null`, `undefined`,
    an unset PHP array key, or a JavaScript `||` default. */
module Wrappers {

  datatype Option<+T> = None | Some(value: T) {

    /** The value if present, otherwise `default` (JavaScript `x ?? default`). */
    function GetOr(default: T): T {
      match this
      case Some(v) => v
      case None => default
    }
  }
}
